=== FILE: README.md ===
# Expense tracker core, modelled in Dafny

This project models the computational core of a personal expense tracker. The tracker has a mobile client and a small notification and sync server. It keeps lists of expenses, categories, budgets and tags, and derives its dashboards, exports and notifications from them. The model covers:

- **The client store** (`store/useExpenseStore.ts`):
  - Every mutation is a function from one `Store.State` to the next: add, update and delete for expenses, categories and budgets, plus settings, import, export and clear.
  - The tag counter that `addExpense` maintains.
  - The read-only queries: the dashboard data, date ranges, category spending, budget progress, category suggestions and popular tags.
- **The CSV export and the per-category totals** (`services/export.ts`).
- **The notification server's scheduled jobs** (`server/cron/notifications.js`):
  - the minute job that sends WhatsApp notifications, with at most three attempts each;
  - the hourly bill-reminder job and its rescheduling;
  - the day window of the daily summary.
- **The sync endpoint's merge rule and its empty default** (`server/routes/sync.js`).
- **The small rules held in the dashboard components:**
  - tag entry (`TagInput`);
  - the per-category table (`CategoryAnalysis`);
  - budget status (`BudgetCard`);
  - month-over-month change (`MonthlyComparison`);
  - insight selection (`SpendingInsights`);
  - the recent list (`RecentExpenses`).

Conventions:

- Amounts are exact `real`s.
- Dates are integer millisecond timestamps.
- Everything the code reads from the local clock arrives through a `Model.Clock` record. It carries the current time, the starts of this month, last month and today, the midnight that starts the last day of last month, the start of the year, the midnight of each day relative to today, and the trend's day labels.
- Fresh ids and the current time of each mutation are parameters.
- A division whose divisor the code does not guard is modelled by `JsNumber`. It is a small model of JavaScript numbers that includes NaN and the infinities, so that the unguarded percentage of the dashboard and the capped budget percentage behave as in the code.

Module layout:

| module | contents |
|---|---|
| `Wrappers`, `Seqs` | options and sequence helpers |
| `Grouping`, `Ledger`, `Sorting` | the insertion-ordered JavaScript `Map` accumulations and the stable descending sort the application uses |
| `Model` | the records of `types/expense.ts` |
| `Store`, `TagCounter` | the mutations |
| `Queries`, `Dashboard` | the reads |
| one module per component | the component rules |
| `Csv`, `Cron`, `Sync` | the export service and the server |

Several quirks of the code are modelled as written, and each is shown by a lemma:

- "Last month" ends at the midnight that starts the last day of the previous month. An expense made later that day counts in neither month's total (`Dashboard.LastDayOfLastMonthDropped`, `MonthlyComparison.LastDayExpenseIgnored`).
- The CSV writer quotes every field but does not double embedded quotes, unlike section 2 of RFC 4180. A field holding a quote does not read back (`Csv.UndoubledQuoteBreaksRow`).
- The tag counter is kept only by `addExpense`. Deleting or editing an expense leaves the counts stale (`Store.DeleteLeavesStaleCount`, `Store.UpdateLeavesStaleCount`). For add-only histories the counts equal the tag occurrences (`Store.AddOnlyHistoryInStep`).
- The breakdown percentage divides by the total with no guard. With a zero total no entry has a finite percentage (`Dashboard.ZeroTotalPercentages`).
- The bill-reminder job computes a `nextReminder` value before its frequency test and never uses it. The model leaves it out (`Cron.Remind`).
- A bill reminder whose send throws (for example with the messaging configuration missing) is left due, but the notification saved for it stays pending. Every later hourly run saves one more notification for the same reminder, and the minute job sends each of them (`Cron.ThrownSendRepeats`).

## Model

| member | source | states |
|---|---|---|
| Model.FindCategory | store/useExpenseStore.ts:315 | the result is the FIRST category of the list with the requested id, and it is absent exactly when no category has that id |
| Model.DisplayName | store/useExpenseStore.ts:317 | the shown name is the found category's own name when it is non-empty, and "Unknown" when no category is found or its name is empty; it is never empty |
| Store.Initial | store/useExpenseStore.ts:44-68 | a fresh store has no expenses, budgets or tags, exactly the eight default categories stamped with the load time, and the default settings |
| Store.AddExpense | store/useExpenseStore.ts:70-106 | exactly one expense is appended, carrying the caller's fields, the new id and the call time as both timestamps, with the earlier expenses kept in order; every tag name's stored count rises by its number of occurrences in the new expense's tags; each of those names resolves to a Tag last used now; existing Tags keep their positions, names and ids, and those of other names are untouched; at most one Tag per listed name is appended, each for a listed name that had no Tag before, holding that name's occurrence count; categories, budgets and settings are unchanged |
| Store.PatchExpense | store/useExpenseStore.ts:111 | a field present in the partial expense replaces the stored one, an absent field keeps it, and `updatedAt` is always the update time |
| Store.UpdateExpense | store/useExpenseStore.ts:108-116 | the list keeps its length and order; every expense with the id is patched and every other one is left as it was; nothing else in the store changes |
| Store.UpdateWithoutChanges | store/useExpenseStore.ts:108-113 | an empty partial expense changes only `updatedAt` of the matching expense |
| Store.DeleteExpense | store/useExpenseStore.ts:118-122 | the kept expenses are exactly those without the id, each with its original multiplicity; nothing else in the store changes |
| Store.DeleteExpenseIdempotent | store/useExpenseStore.ts:118-122 | deleting an id a second time changes nothing |
| Store.DeleteExpenseKeepsOrder | store/useExpenseStore.ts:118-122 | deleting from a concatenation deletes from each part: the kept expenses stay in their original order |
| Store.DeleteUndoesAdd | store/useExpenseStore.ts:70-122 | deleting an expense just added under an id no other expense has gives back the earlier expense list |
| Store.AddCategory | store/useExpenseStore.ts:124-134 | the new category, with the new id and creation time, is appended after the existing ones; nothing else changes |
| Store.PatchCategory | store/useExpenseStore.ts:138 | a field present in the partial category replaces the stored one and an absent field keeps it; no timestamp is refreshed |
| Store.UpdateCategory | store/useExpenseStore.ts:136-142 | every category with the id is patched in place and every other one is kept; nothing else changes |
| Store.UpdateCategoryWithoutChanges | store/useExpenseStore.ts:136-142 | an update with an empty patch leaves the store exactly as it was |
| Store.DeleteCategory | store/useExpenseStore.ts:144-148 | the kept categories are exactly those without the id, with their multiplicities; a lookup of the id then finds nothing; expenses and budgets that refer to it stay |
| Store.DeleteCategoryKeepsOrder | store/useExpenseStore.ts:144-148 | deleting from a concatenation deletes from each part: the kept categories stay in their original order |
| Store.DeleteCategoryIdempotent | store/useExpenseStore.ts:144-148 | deleting a category id a second time changes nothing |
| Store.DeleteCategoryUndoesAdd | store/useExpenseStore.ts:124-148 | adding a category under an unused id and then deleting that id gives the original store back |
| Store.AddBudget | store/useExpenseStore.ts:150-162 | the new budget, with the new id and the call time as both timestamps, is appended; nothing else changes |
| Store.PatchBudget | store/useExpenseStore.ts:167 | a field present in the partial budget replaces the stored one, an absent one keeps it, and `updatedAt` is the update time |
| Store.UpdateBudget | store/useExpenseStore.ts:164-172 | every budget with the id is patched in place and every other one is kept; nothing else changes |
| Store.UpdateBudgetWithoutChanges | store/useExpenseStore.ts:164-172 | an update with an empty patch only stamps the budgets with the id with the update time and leaves every other budget as it was |
| Store.DeleteBudget | store/useExpenseStore.ts:174-178 | the kept budgets are exactly those without the id, with their multiplicities; nothing else changes |
| Store.DeleteBudgetKeepsOrder | store/useExpenseStore.ts:174-178 | deleting from a concatenation deletes from each part: the kept budgets stay in their original order |
| Store.DeleteBudgetIdempotent | store/useExpenseStore.ts:174-178 | deleting a budget id a second time changes nothing |
| Store.DeleteBudgetUndoesAdd | store/useExpenseStore.ts:150-178 | adding a budget under an unused id and then deleting that id gives the original store back |
| Store.UpdateSettings | store/useExpenseStore.ts:180-184 | each setting present in the partial settings replaces the stored one and each absent one is kept; the collections are unchanged |
| Store.UpdateSettingsIdempotent | store/useExpenseStore.ts:180-184 | applying the same partial settings twice is the same as applying it once |
| Store.ExportData | store/useExpenseStore.ts:225-236 | the exported document carries all five collections and the export time |
| Store.ImportData | store/useExpenseStore.ts:238-275 | unparsable text fails with "Invalid data format"; otherwise each absent collection falls back to its default and each present one, even an empty one, replaces the stored one |
| Store.ExportImportRoundTrip | store/useExpenseStore.ts:225-275 | importing an export restores exactly the exported state, whatever state it is imported into |
| Store.ClearAllData | store/useExpenseStore.ts:277-286 | after clearing, the store holds no expenses, budgets or tags, the default categories and the default settings |
| Store.ImportEmptyIsClear | store/useExpenseStore.ts:238-286 | importing a document in which every collection is absent has the same effect as clearing |
| Store.AddExpenseKeepsTagNamesDistinct | store/useExpenseStore.ts:85-101 | adding an expense keeps the stored Tag names pairwise distinct |
| Store.InitialTagsInStep | store/useExpenseStore.ts:62-68 | in a fresh store every tag's stored count equals its number of occurrences in the expenses |
| Store.AddKeepsTagsInStep | store/useExpenseStore.ts:70-106 | adding an expense keeps every stored tag count equal to the tag's occurrences in the expenses |
| Store.AddOnlyHistoryInStep | store/useExpenseStore.ts:62-106 | from a fresh store, any history made only of additions leaves every tag's stored count equal to its occurrences in the expenses |
| Store.DeleteLeavesStaleCount | store/useExpenseStore.ts:118-122 | deleting an expense leaves its tags' counters alone: after adding and deleting an expense tagged "x", "x" is still counted once while no expense carries it |
| Store.UpdateLeavesStaleCount | store/useExpenseStore.ts:108-116 | re-tagging an expense leaves the counters alone: "x" stays counted once after the only expense carrying it is re-tagged "y" |
| TagCounter.FindTag | store/useExpenseStore.ts:89 | the position of the FIRST Tag with the name, or -1 exactly when no stored Tag has the name |
| TagCounter.BumpTag | store/useExpenseStore.ts:89-100 | the name's looked-up count rises by one and every other name's count stays; the name resolves to a Tag last used now; existing Tags keep their names and ids; Tags of other names are untouched; when no Tag had the name, exactly one Tag with the fresh id, the name, count one and now is appended, and otherwise the list keeps its length |
| TagCounter.BumpTags | store/useExpenseStore.ts:88-101 | every name's looked-up count rises by its number of occurrences in the list; each listed name resolves to a Tag last used now; existing Tags keep their names and ids; Tags whose names are not listed are untouched; at most one Tag per listed name is appended, each for a listed name with no earlier Tag, found at its own position, holding that name's occurrence count in the list |
| TagCounter.BumpTagsKeepsDistinctNames | store/useExpenseStore.ts:88-101 | when the stored Tag names are pairwise distinct, they stay pairwise distinct after counting a list of names |
| TagCounter.BumpKeepsCountsMatch | store/useExpenseStore.ts:81-101 | when every stored count equals the tag's occurrences in the expenses, appending an expense and counting its tags keeps that true |
| Grouping.KeyIndex | store/useExpenseStore.ts:310 | the position of a bucket with the key, or -1 exactly when no bucket has it |
| Grouping.AddTo | store/useExpenseStore.ts:310-311 | an absent key gets a new bucket at the end holding the amount and one contribution; a present key leaves the length alone; no existing key changes |
| Grouping.AddToKeys | store/useExpenseStore.ts:310-311 | one step keeps the keys distinct and adds the key to the key set |
| Grouping.AddToLookups | store/useExpenseStore.ts:310-311 | one step adds the amount and one contribution to the key's lookups and leaves every other key's lookups alone |
| Grouping.AddToSum | store/useExpenseStore.ts:310-311 | one step adds the amount to the total over all buckets |
| Grouping.AddAll | store/useExpenseStore.ts:345-351 | the keys stay distinct; the key set gains the names; each name's count rises by its occurrences in the list and its amount by that many times the amount |
| Grouping.BucketCount | store/useExpenseStore.ts:308 | buckets with distinct keys are exactly as many as their keys |
| Ledger.GroupByCategory | store/useExpenseStore.ts:308-312 | one bucket per category id that occurs, with distinct keys; each bucket holds its category's sum and its number of expenses; the buckets add up to the grand total |
| Ledger.GroupByTags | store/useExpenseStore.ts:343-352 | one bucket per tag name that occurs, with distinct keys; each bucket counts the name's occurrences and sums the amounts of the expenses carrying it, once per occurrence |
| Ledger.CategoryBucket | store/useExpenseStore.ts:308-314 | every bucket of the category grouping reports its own category's sum and count, and its key is an id that occurs |
| Ledger.TagBucket | store/useExpenseStore.ts:343-355 | every bucket of the tag grouping reports its own tag's occurrences and amount |
| Ledger.CategoryBucketCount | store/useExpenseStore.ts:308-314 | the grouping has exactly one bucket per distinct category id |
| Sorting.SortDesc | store/useExpenseStore.ts:322 | the sorted list is a permutation of the input with keys that never increase |
| Sorting.TopIsLargest | store/useExpenseStore.ts:356-357 | nothing left out by `slice(0, n)` of the sorted list has a larger key than anything kept |
| Sorting.SortKeepsSum | store/useExpenseStore.ts:322 | sorting does not change the sum of any measure of the elements |
| Sorting.SortKeepsElements | store/useExpenseStore.ts:322 | an element is in the sorted list exactly when it is in the input |
| Sorting.SortKeepsDistinct | store/useExpenseStore.ts:322 | a list without repeats sorts to a list without repeats |
| Sorting.PermutationKeepsDistinctKeys | store/useExpenseStore.ts:354-357 | reordering a list whose entries have distinct keys, as the in-place sorts do, keeps the keys distinct |
| Seqs.Filter | store/useExpenseStore.ts:371-373 | `Array.prototype.filter`: no longer than the input, and everything kept is an input element the predicate accepts |
| Seqs.FilterConcat | store/useExpenseStore.ts:371-373 | filtering a concatenation is concatenating the filtered parts, so the stored order is kept |
| Seqs.FilterMembers | store/useExpenseStore.ts:371-373 | an element is kept exactly when it is in the input and the predicate accepts it |
| Seqs.FilterMultiset | store/useExpenseStore.ts:119 | a filter keeps every accepted element with its full multiplicity and drops every rejected one |
| Seqs.Take | store/useExpenseStore.ts:357 | `slice(0, n)`: the first `min(n, length)` elements |
| Queries.ExpensesByDateRange | store/useExpenseStore.ts:370-374 | an expense is returned exactly when it is stored and dated within the range, both ends included, with its stored multiplicity; an empty range returns nothing |
| Queries.DateRangeKeepsOrder | store/useExpenseStore.ts:370-374 | selecting from two consecutive runs of expenses is selecting from each and concatenating, so the stored order is kept |
| Queries.WindowStart | store/useExpenseStore.ts:376-389 | "week" starts seven days of milliseconds before now, "year" at the start of the calendar year, and every other string, "month" included, at the start of the calendar month |
| Queries.CategoryExpenses | store/useExpenseStore.ts:391-393 | the result is the category's sum over the expenses dated at or after the window start |
| Queries.CategorySinceSum | store/useExpenseStore.ts:391-393 | filtering by category and date and then summing equals the category sum of the expenses in the window |
| Queries.CategoryExpensesBounds | store/useExpenseStore.ts:376-394 | with no negative amounts, a window's spending lies between zero and the category's all-time sum |
| Queries.FindBudget | store/useExpenseStore.ts:397 | the result is the FIRST budget of the list with the id, and it is absent exactly when no budget has the id |
| Queries.Clamp | store/useExpenseStore.ts:401-402 | the remaining amount is never negative, is at least budget minus spent, and is one of the two; the percentage is never above 100, even for a zero budget; for a positive budget and no negative spending it lies in [0, 100] and equals spent over amount times 100 up to the budget |
| Queries.RemainingAtMostAmount | store/useExpenseStore.ts:401 | with a positive budget and no negative spending, the remaining amount never exceeds the budget |
| Queries.BudgetProgressAsWritten | store/useExpenseStore.ts:396-405 | an unknown budget id gives all zeros; a known one's spending is its category's sum since the start of the calendar month, whatever its period, and the progress is that spending clamped against the amount; with a positive amount and no negative expense the remainder lies between 0 and the amount and the percentage between 0 and 100 |
| Queries.PeriodKey | store/useExpenseStore.ts:38 | every budget period maps to one of the three keys the category query understands |
| Queries.BudgetProgress | store/useExpenseStore.ts:396-405 | an unknown id gives all zeros; a known budget's spending is its category's sum over its own period's window, clamped against the amount; the remaining amount is never negative and at least budget minus spent; the percentage is never above 100; with a positive amount and no negative expense the remainder is at most the amount and the percentage at least 0 |
| Queries.WeeklyBudgetUsesMonth | store/useExpenseStore.ts:380-400 | ten days into a month, an expense of 50 dated nine days ago counts against a weekly budget as written, but not against the week the budget is meant to cover |
| Queries.MonthlyBudgetsAgree | store/useExpenseStore.ts:387-400 | the written and the corrected progress agree on monthly budgets |
| Queries.OverBudgetCountAsWrittenIsZero | store/useExpenseStore.ts:402 | the counter of budgets whose as-written progress percentage is above 100, which the home screen (app/(tabs)/index.tsx, lines 44-47) and the budgets screen (app/(tabs)/budgets.tsx, lines 28-31) keep, is 0 in every state, since the percentage is capped at 100 |
| Queries.OverBudgetCount | store/useExpenseStore.ts:400-402 | the corrected counter is at most the number of budgets, and positive exactly when some budget's spending exceeds its amount |
| Queries.Lower | store/useExpenseStore.ts:424 | the lowered note has the same length, with each ASCII capital replaced by its small letter and every other character kept |
| Queries.Dedupe | store/useExpenseStore.ts:437 | `[...new Set(s)]` has no repeats, the same elements as the input, and starts with the input's first element |
| Queries.DedupeDistinct | store/useExpenseStore.ts:437 | deduplicating a list without repeats changes nothing |
| Queries.DedupeSnoc | store/useExpenseStore.ts:437 | one more element is appended to the deduplicated list exactly when it is new, so first occurrences keep their order |
| Queries.DedupePrefix | store/useExpenseStore.ts:437 | deduplicating a longer list extends the deduplication of its prefix |
| Queries.TierPair | store/useExpenseStore.ts:413-420 | each amount tier suggests two different categories |
| Queries.SuggestedCategories | store/useExpenseStore.ts:407-438 | two or three suggestions without repeats, a prefix of the deduplicated candidates and exactly three when there are three distinct candidates; an entertainment keyword puts Entertainment first; otherwise a transport keyword puts Transport first; otherwise a food keyword puts Food first; with no keyword the suggestions are exactly the amount tier's pair |
| Queries.MealAt600 | store/useExpenseStore.ts:407-438 | a 600 expense noted "meal" gets Food, Bills and Travel, in that order |
| Queries.TierPairKept | store/useExpenseStore.ts:413-437 | both tier suggestions survive deduplication, so at least two suggestions remain |
| Queries.NoHitIsTierPair | store/useExpenseStore.ts:413-437 | with no keyword in the note, the deduplicated candidates are exactly the tier pair |
| Queries.ShownAreCandidates | store/useExpenseStore.ts:437 | every suggestion shown is one of the candidates |
| Queries.PopularTags | store/useExpenseStore.ts:440-442 | the stored tags are reordered into a permutation sorted by count, most used first, with nothing else in the store changed; the result is the first ten of them, or all when fewer |
| Queries.PopularTagsAreTop | store/useExpenseStore.ts:440-442 | no tag left out of the popular list has a higher count than one in it |
| JsNumber.Div | store/useExpenseStore.ts:319 | a non-zero divisor gives the exact quotient; a zero divisor gives NaN exactly for 0 / 0, and otherwise an infinity with the dividend's sign |
| JsNumber.Scale | store/useExpenseStore.ts:319 | multiplying by a positive factor keeps a number finite exactly when it was finite, scales a finite value, and leaves NaN and the infinities as they are |
| JsNumber.Min | store/useExpenseStore.ts:402 | `Math.min` is NaN exactly when an argument is NaN, and otherwise one of its arguments, with neither argument smaller |
| JsNumber.MinCapNeverAbove | store/useExpenseStore.ts:402 | capping with `Math.min(c, n)` never yields a value above `c`, whatever `n` is, NaN and +Infinity included |
| Dashboard.LastDayOfLastMonthDropped | store/useExpenseStore.ts:291-302 | an expense made on the last day of last month, after its midnight, counts in neither last month's nor this month's total |
| Dashboard.Breakdown | store/useExpenseStore.ts:307-322 | one entry per category id used, ordered by amount with the largest first; the amounts add up to the grand total; every used category's own entry is present and every entry is the entry of a used category; each percentage is the unguarded amount over total times 100 |
| Dashboard.EntriesSum | store/useExpenseStore.ts:314-321 | mapping the buckets to entries keeps their total |
| Dashboard.EntriesAreEntryOf | store/useExpenseStore.ts:314-321 | each mapped bucket is the entry of its own category, and every used category's entry is among them |
| Dashboard.UnmatchedCategoryIsUnknown | store/useExpenseStore.ts:315-320 | a category id that no category has is shown as "Unknown" in "#666" |
| Dashboard.ZeroTotalPercentages | store/useExpenseStore.ts:319 | when the amounts total zero, no entry's percentage is a finite number |
| Dashboard.PercentagesSumTo100 | store/useExpenseStore.ts:314-322 | with a non-zero total the breakdown's percentages add up to 100 |
| Dashboard.FiniteShare | store/useExpenseStore.ts:319 | over a non-zero total the percentage is the finite number amount over total times 100 |
| Dashboard.SharesSumTo100 | store/useExpenseStore.ts:319 | entries whose percentages are their shares of a non-zero total they add up to have percentages adding up to 100 |
| Dashboard.DailyTrend | store/useExpenseStore.ts:324-340 | exactly seven points, oldest first; the k-th is labelled with and sums the expenses of the day k - 6 days from today, from its midnight up to the next one |
| Dashboard.WindowsAdd | store/useExpenseStore.ts:332-334 | two adjacent day windows together sum what their union sums |
| Dashboard.TrendCoversWeek | store/useExpenseStore.ts:324-340 | with day boundaries in order, the seven points add up to everything dated from the midnight six days ago up to tomorrow's midnight |
| Dashboard.TrendEndsWithToday | store/useExpenseStore.ts:303-305 | today's point equals the today total when nothing is dated after tomorrow's midnight |
| Dashboard.TopTags | store/useExpenseStore.ts:342-357 | as many entries as there are tags, up to three, no tag twice, most used first, each a tag that occurs, with its number of uses and the amount of the expenses carrying it |
| Dashboard.TopStatsShape | store/useExpenseStore.ts:342-357 | the first three of the sorted tag stats number as many as the distinct tags, up to three, and name no tag twice |
| Dashboard.StatsMeaning | store/useExpenseStore.ts:354-355 | each mapped tag bucket reports a tag that occurs, its uses and its amount |
| Dashboard.TopTagsBeatOthers | store/useExpenseStore.ts:354-357 | a tag left out of the top three is used no more often than any tag in it |
| Dashboard.SortedStatOf | store/useExpenseStore.ts:354-356 | every tag that occurs has a place in the sorted list, holding its number of uses |
| Dashboard.GetDashboardData | store/useExpenseStore.ts:288-368 | the grand, this-month, last-month and today totals; the breakdown, whose amounts add up to the grand total; seven trend points with each day's spending; and the top tags |
| CategoryAnalysis.CategoryCountPositive | components/CategoryAnalysis.tsx:40-51 | a category that some expense is filed under counts at least one expense |
| CategoryAnalysis.Analyze | components/CategoryAnalysis.tsx:37-60 | exactly one row per category used, with no id twice, ordered by amount with the largest first; the amounts add up to the grand total; every row is its category's reference row (looked-up category, sum, count and average) and every used category has its row |
| CategoryAnalysis.SortedIdsDistinct | components/CategoryAnalysis.tsx:53-59 | reordering rows with distinct ids keeps the ids distinct |
| CategoryAnalysis.RowsSum | components/CategoryAnalysis.tsx:53-58 | mapping the buckets to rows keeps their total |
| CategoryAnalysis.RowsAreAnalysisOf | components/CategoryAnalysis.tsx:40-58 | each row built from the running map is the reference row of its category, with distinct ids, and every used category has one; the running average stored at each step is the final amount over the final count |
| CategoryAnalysis.Percentage | components/CategoryAnalysis.tsx:143 | with no positive total the share is 0; otherwise the share times the total is the amount times 100 |
| CategoryAnalysis.SharesSumTo100 | components/CategoryAnalysis.tsx:63-143 | with a positive total the shares shown for the rows add up to 100 |
| CategoryAnalysis.RowSharesSumTo100 | components/CategoryAnalysis.tsx:143 | rows adding up to a positive total have shares adding up to 100 |
| CategoryAnalysis.AverageTimesCount | components/CategoryAnalysis.tsx:46-50 | a row's count is at least one and its average times its count is its amount |
| Icons.IconFor | components/CategoryAnalysis.tsx:17-35 | a name in the twelve-entry table gives its own glyph; the circle comes back exactly for names not in the table, the table taken as a plain map |
| Icons.IconRoundTrip | components/RecentExpenses.tsx:17-35 | the table is one-to-one: each name in it comes back from its glyph, each glyph but the circle comes back from its name, and asking for "circle" gives the circle |
| Icons.CategoryGlyph | components/RecentExpenses.tsx:179 | a missing category shows the circle, and a found one the glyph of its icon name |
| Icons.DefaultCategoriesHaveGlyphs | store/useExpenseStore.ts:44-53 | none of the eight default categories falls back to the circle |
| BudgetCard.StatusColor | components/BudgetCard.tsx:32-40 | the error tier exactly at 100 % or more, the warning tier exactly from 80 % up to below 100 %, and the success tier otherwise, NaN included |
| BudgetCard.StatusIconOf | components/BudgetCard.tsx:22-30 | the alert icon exactly with the error tier, the clock exactly with the warning tier and the check circle exactly with the success tier |
| BudgetCard.ErrorExactlyWhenSpent | components/BudgetCard.tsx:32-40 | for a positive budget and the capped percentage the store produces, the card shows the error tier exactly when spending has reached the budget |
| BudgetCard.ShareBelow | components/BudgetCard.tsx:33 | spending below a positive budget is below 100 % of it |
| BudgetCard.PeriodText | components/BudgetCard.tsx:42-53 | "weekly", "monthly" and "yearly" get their own captions and any other string gets "this period" |
| BudgetCard.PeriodTextNeverFallback | components/BudgetCard.tsx:42-53 | every period a budget can have gets its own caption, so the fallback is never shown |
| BudgetCard.BarWidth | components/BudgetCard.tsx:151 | the bar never runs past 100; a percentage not above 100 is kept and a larger one becomes 100 |
| BudgetCard.CardTitle | components/BudgetCard.tsx:134 | a found category with a non-empty name shows that name, and otherwise "Unknown Category" |
| BudgetCard.RemainingLabel | components/BudgetCard.tsx:189 | "Over" exactly for a negative remainder and "Left" exactly otherwise |
| BudgetCard.RemainingShown | components/BudgetCard.tsx:186 | the figure shown is the remainder's magnitude |
| BudgetCard.NeverOver | components/BudgetCard.tsx:186-189 | the progress the store produces never has a negative remainder, so the card never says "Over", with the period handled either as written or as intended |
| BudgetCard.BarWidthOfProduced | components/BudgetCard.tsx:151 | the bar of a produced progress is exactly as wide as its percentage, since the store has already capped it |
| MonthlyComparison.Compare | components/MonthlyComparison.tsx:17-36 | the difference is what this month adds to last month; with no spending last month the percentage is 0, and otherwise it times last month's total is the difference times 100; the trend is up, down or flat exactly when this month is above, below or equal to last month |
| MonthlyComparison.CompareMonths | components/MonthlyComparison.tsx:17-36 | the card's difference is this month's total minus last month's, and the trend points up or down exactly with the larger total |
| MonthlyComparison.ThisMonthExpenseRaises | components/MonthlyComparison.tsx:17 | an expense dated this month raises the difference by its amount |
| MonthlyComparison.SubtextMatchesTrend | components/MonthlyComparison.tsx:22-148 | "More", "Less" and "Same" appear exactly with the up, down and flat trend icons |
| MonthlyComparison.PercentageRecoversThisMonth | components/MonthlyComparison.tsx:17-20 | with spending last month, last month's total grown by the percentage gives this month's total back, and the percentage is positive or negative exactly when the trend is up or down |
| MonthlyComparison.LastDayExpenseIgnored | store/useExpenseStore.ts:291-302 | an expense made on the last day of last month, after its midnight, leaves the card's figures unchanged |
| Insights.Tone | components/SpendingInsights.tsx:25-58 | every insight is drawn in one of the four tones info, warning, error and success |
| Insights.LastThree | components/SpendingInsights.tsx:40 | `slice(-3)` is the last three points, or all of them when there are fewer |
| Insights.StepsUpIsNonDecreasing | components/SpendingInsights.tsx:41-43 | the `every` test on neighbours holds exactly when no point spends less than any earlier point |
| Insights.RisingIsRecentStepsUp | components/SpendingInsights.tsx:40-45 | the rising test holds exactly when the last three points pass the `every` test and there are at least two of them |
| Insights.Generate | components/SpendingInsights.tsx:16-64 | at most three insights, in push order; the savings insight is shown exactly when this month is below last month and not all three earlier candidates were pushed; every insight shown is a pushed candidate whose condition holds |
| Insights.DailyAverageShown | components/SpendingInsights.tsx:20-27 | the daily average is shown exactly when something was spent this month, and times the day of the month it gives this month's total back |
| Insights.FirstThreeAlwaysShown | components/SpendingInsights.tsx:29-63 | the biggest category is always shown when there is a breakdown, and the rising trend exactly when the last days rose |
| Insights.ShownFirstThree | components/SpendingInsights.tsx:63 | of the four pushes, each of the first three is shown exactly when pushed and the fourth only when fewer than three came before it, in push order |
| Insights.ShownOnlyPushed | components/SpendingInsights.tsx:63 | only values that were pushed are shown |
| Insights.PushesMembers | components/SpendingInsights.tsx:19-61 | each of the four candidates is among the pushes exactly when its condition holds |
| Insights.PushesOnly | components/SpendingInsights.tsx:19-61 | nothing but candidates whose condition holds is pushed |
| Insights.PushesRanked | components/SpendingInsights.tsx:19-61 | the pushes come in source order |
| Insights.EmptyExactlyWhenNothingApplies | components/SpendingInsights.tsx:117 | the empty-state card shows exactly when nothing was spent this month, there is no breakdown, the trend is not rising and this month is not below last month |
| Insights.TopCategoryIsLargest | components/SpendingInsights.tsx:30-31 | the first breakdown entry, named by the insight, spends at least as much as every other entry |
| Insights.RisingOverWeek | components/SpendingInsights.tsx:40-45 | on the seven-day trend the rising test compares the day before yesterday, yesterday and today |
| Insights.SavedMatchesComparison | components/SpendingInsights.tsx:54 | the savings insight is a candidate exactly when the month-on-month card shows spending going down |
| Recent.HoursBetween | components/RecentExpenses.tsx:39 | the whole number of hours elapsed, rounded down: that many hours fit into the difference and one more does not |
| Recent.TimeAgo | components/RecentExpenses.tsx:37-49 | "Just now" exactly under an hour, future dates included; an hour count from 1 to 23 exactly from one hour to under a day; "Yesterday" exactly from one to under two days; a day count from 2 to 6 exactly from two to under seven days; the date itself exactly from seven days on; each count is the whole hours or days elapsed |
| Recent.AgoText | components/RecentExpenses.tsx:37-49 | an hours or days label is the count as written followed by "h ago" or "d ago" |
| Recent.AgoTextReadsBack | components/RecentExpenses.tsx:37-49 | outside the date bucket, two buckets with the same label are the same bucket, given a number writer that keeps different numbers apart |
| Recent.DaysFromHours | components/RecentExpenses.tsx:44 | whole days counted from whole hours are the whole days elapsed in milliseconds |
| Recent.TimeAgoAdvances | components/RecentExpenses.tsx:37-49 | as time passes an expense only moves to later buckets |
| Recent.HoursNeverDecrease | components/RecentExpenses.tsx:39-42 | within the hours bucket the hour count never goes down as time passes |
| Recent.RecentOf | components/RecentExpenses.tsx:13-15 | the stored array is reordered into a permutation, newest first; the first four of it, or all when fewer, are listed, none older than any expense left out |
| Recent.NewestFirst | components/RecentExpenses.tsx:13-15 | the first expense listed is at least as new as every stored expense |
| Recent.LeftOutIsOlder | components/RecentExpenses.tsx:13-15 | an expense is left out only when four listed ones are at least as new |
| Recent.EmptyOnlyWithoutExpenses | components/RecentExpenses.tsx:151 | the empty-state card shows exactly when there are no expenses |
| Recent.RowOf | components/RecentExpenses.tsx:178-195 | a row shows the expense's amount, its time bucket, and its category's display name and glyph |
| Recent.UnknownCategoryRow | components/RecentExpenses.tsx:178-195 | an expense filed under no known category shows as "Unknown" with the circle glyph and the theme colour |
| TagInput.TrimStart | components/TagInput.tsx:18 | the result is a suffix of the input that does not start with whitespace, and everything dropped in front of it is whitespace |
| TagInput.TrimEnd | components/TagInput.tsx:18 | the result is a prefix of the input that does not end with whitespace, and everything dropped behind it is whitespace |
| TagInput.Trim | components/TagInput.tsx:18 | the trimmed text is no longer than the input, neither starts nor ends with whitespace, and is empty exactly when the input is all whitespace |
| TagInput.TrimOfTrimmed | components/TagInput.tsx:18 | text with no whitespace at either end is left unchanged by trimming |
| TagInput.TrimIdempotent | components/TagInput.tsx:18 | trimming twice gives the same as trimming once |
| TagInput.Normalize | components/TagInput.tsx:18 | the normalised tag name is empty exactly when the typed name is all whitespace |
| TagInput.NormalizeIdempotent | components/TagInput.tsx:18 | normalising an already normalised tag name changes nothing |
| TagInput.LowerIdempotent | components/TagInput.tsx:18 | lower-casing twice gives the same as lower-casing once |
| TagInput.AddTag | components/TagInput.tsx:17-23 | a blank name, or one whose normalised form is already listed, leaves the list as it is; otherwise the normalised name is appended at the end |
| TagInput.AddTagKeepsDistinct | components/TagInput.tsx:17-23 | adding a tag to a list without duplicates gives a list without duplicates |
| TagInput.AddTagKeepsNormalized | components/TagInput.tsx:17-23 | adding a tag to a list of trimmed, lower-case names keeps every listed name trimmed and lower-case |
| TagInput.AddTagIdempotent | components/TagInput.tsx:17-23 | adding the same name twice gives the same list as adding it once |
| TagInput.RemoveTag | components/TagInput.tsx:25-27 | the removed tag no longer occurs, every other tag keeps exactly its number of occurrences, and nothing new appears |
| TagInput.RemoveTagKeepsOrder | components/TagInput.tsx:25-27 | removing a tag from a concatenation removes it from each part: the other tags stay in their original order |
| TagInput.RemoveUndoesAdd | components/TagInput.tsx:17-27 | removing a tag that was just added to a list not holding it gives back the original list |
| TagInput.HandleSubmit | components/TagInput.tsx:29-33 | a blank input changes nothing; a non-blank one is added through `addTag` and the input box is cleared |
| TagInput.PressPopular | components/TagInput.tsx:159-163 | only the first six popular tags are offered; pressing one adds its name through `addTag` and clears the input box |
| Csv.SplitJoin | services/export.ts:270-272 | splitting the joined lines on the line break gives back the list of lines, as long as no line holds a line break |
| Csv.Quote | services/export.ts:271 | a quoted field is the field itself between an opening and a closing double quote, two characters longer |
| Csv.QuoteAll | services/export.ts:271 | every field of a row is quoted, one quoted field per field, in order |
| Csv.ParseRowRoundTrip | services/export.ts:271 | a row of fields that hold no double quote reads back, by the quoted-field rule of RFC 4180, as exactly those fields, commas inside fields included |
| Csv.UndoubledQuoteBreaksRow | services/export.ts:271 | a field holding a double quote does not read back: `say "hi"` comes back as `say `, because inner quotes are not doubled |
| Csv.HeaderLine | services/export.ts:258-271 | the header line reads back as the five column names Date, Category, Description, Amount, Tags |
| Csv.RowFields | services/export.ts:259-268 | an expense's row has five fields in header order: the formatted date, the found category's name or "Unknown", the note or an empty description when there is none, the rendered amount, and the tags joined by "; " |
| Csv.Lines | services/export.ts:270 | the file has one line more than there are expenses |
| Csv.CsvLines | services/export.ts:257-275 | splitting the CSV text on line breaks gives the header line followed by exactly one row per expense, in input order, whenever no field holds a line break |
| Csv.CsvContent | services/export.ts:257-275 | when no field holds a line break, splitting the text on line breaks gives exactly the header line and the expense rows back |
| Csv.LinesSingle | services/export.ts:270-271 | no line of the file holds a line break when no field does |
| Csv.RowHasNoNewline | services/export.ts:271 | quoting and joining a row's fields with commas introduces no line break |
| Csv.JoinKeepsOut | services/export.ts:271-272 | a joined text holds a character only if one of the parts or the separator does |
| Csv.CategoryTotals | services/export.ts:277-289 | the totals, taken as a plain map, have one entry per category some expense is filed under, and each entry is the sum of that category's amounts, including when a running total passes through 0 |
| Csv.TotalsStep | services/export.ts:280-286 | one more expense adds its amount to its category's running total and touches no other entry, whether the running total was missing, zero or nonzero |
| Csv.CategoryTotalsSum | services/export.ts:277-289 | taken once per category in first-use order, the totals add up to the sum of all expense amounts |
| Cron.NewNotification | server/cron/notifications.js:165-173 | a freshly saved notification is unsent, has no attempts and is due at once, so the next minute job picks it up |
| Cron.SelectPending | server/cron/notifications.js:11-15 | the minute job takes exactly ten notifications when more than ten are pending and all of them otherwise, every one unsent, due and tried fewer than three times; they are the first pending ones in store order |
| Cron.FailureText | server/cron/notifications.js:138 | the recorded error is never empty: the API's message when it gave a non-empty one, else "Failed to send" |
| Cron.ApplyReply | server/cron/notifications.js:120-144 | a missing configuration or a throwing call leaves the notification unchanged; a "sent" answer marks it sent at the current time with the attempt count unchanged; any other answer records the error and adds one attempt; id, text, number, kind and schedule never change |
| Cron.Tick | server/cron/notifications.js:9-27 | the minute job changes only the notifications it selected, each by the answer to its own send in order, and leaves every other notification as it was |
| Cron.TickFrom | server/cron/notifications.js:17-23 | each notification's turn sees exactly the number of earlier pending notifications already sent before it |
| Cron.PendingBeforeCounts | server/cron/notifications.js:11-17 | the number of pending notifications before a position equals the number the query's filter keeps from that prefix |
| Cron.PickedAreSelected | server/cron/notifications.js:11-19 | every notification the minute job sends is one the query returned |
| Cron.SentIsFinal | server/cron/notifications.js:12 | a notification already sent is never changed by a later minute job |
| Cron.TickKeepsRetriesBounded | server/cron/notifications.js:11-19 | attempt counts between 0 and 3 stay between 0 and 3 after a minute job, since only notifications tried fewer than three times are sent |
| Cron.RetiredAfterThree | server/cron/notifications.js:14 | a notification tried three times is never sent or changed again, whatever the time and the answers |
| Cron.ThreeFailuresRetire | server/cron/notifications.js:137-140 | three failed answers to a fresh notification bring its attempt count to 3, after which it is never pending at any time |
| Cron.Remind | server/cron/notifications.js:81-113 | a send that threw leaves the reminder unchanged; otherwise it is stamped as reminded now, a one-time reminder is deactivated with its dates kept, and a recurring one moves its due date on by its period (`MonthsOf`: 1, 3 or 12 months) with the next reminder that many reminder days before the new due date |
| Cron.BillTick | server/cron/notifications.js:72-118 | the hourly job changes only active reminders whose reminder time has come, each as its own send went, and leaves all others as they were; it saves exactly one bill-reminder notification per due reminder, in store order, each left as the answer to its send leaves a fresh notification |
| Cron.BillNote | server/cron/notifications.js:219-235 | the bill-reminder notification is saved due now with the reminder's text and number; a send that threw leaves it pending and untried, a "sent" answer marks it sent, any other answer counts one failed attempt |
| Cron.DueIndices | server/cron/notifications.js:75-78 | the positions the hourly query returns are increasing, each one an active reminder whose reminder time has come, and every such reminder is among them |
| Cron.OneTimeSentOnce | server/cron/notifications.js:75-107 | after a one-time reminder has been sent it is inactive: no later hourly job changes it again or saves another notification for it |
| Cron.ThrownSendRepeats | server/cron/notifications.js:80-113 | a send that threw leaves the reminder unchanged and still due at every later hour, while the notification saved for it stays pending, so the next hourly run saves a second one for the same reminder |
| Cron.RecurringMovesOn | server/cron/notifications.js:88-104 | a recurring reminder that was sent stays active and is next due strictly later, reminder days before its new due date, when the calendar moves forward |
| Cron.DaysUntilDue | server/cron/notifications.js:221 | the day count is the time to the due date in whole days rounded up: the gap lies within the day before that count |
| Cron.DailySummary | server/cron/notifications.js:146-160 | there is a summary exactly when the user has stored data; it counts no more transactions than there are expenses, and no expenses give a zero total with zero transactions |
| Cron.DailySummaryStep | server/cron/notifications.js:155-160 | one more expense adds its amount and one transaction to the daily summary exactly when it is dated from today's midnight up to, not including, tomorrow's, and leaves the summary as it was otherwise |
| Cron.DailySummaryIsToday | server/cron/notifications.js:150-160 | with nothing dated after today, the daily summary's total equals the dashboard's "today" figure |
| Sync.EmptyRecord | server/routes/sync.js:15-24 | a user without a stored record starts with no expenses, categories, budgets or tags and with no settings |
| Sync.Pick | server/routes/sync.js:27-30 | a collection the request carries, an empty one included, replaces the stored one; a missing one keeps what is stored |
| Sync.MergeSettings | server/routes/sync.js:31 | the merged settings hold the stored keys and the sent keys; a sent key takes the sent value, every other stored key keeps its stored value, and no settings sent means no change |
| Sync.Merge | server/routes/sync.js:13-32 | after a POST each collection is the sent one or else the stored one (empty for a new user), the settings are the stored ones with the sent ones laid over them, and the sync time is the request time |
| Sync.Post | server/routes/sync.js:7-50 | the data sent back is the record as stored after the merge |
| Sync.Get | server/routes/sync.js:61-91 | with no stored record the answer is empty collections, empty settings and the current time; otherwise it is the stored record as it is |
| Sync.FirstSyncStartsEmpty | server/routes/sync.js:13-31 | a first POST gives the same record as a POST onto an empty stored record |
| Sync.PostIdempotent | server/routes/sync.js:27-32 | sending the same request twice stores the same data as sending it once; only the sync time moves |
| Sync.PostThenGet | server/routes/sync.js:27-91 | after a POST carrying every collection, the next GET returns exactly those collections and every sent setting with its sent value |
| Sync.EmptyRequestKeeps | server/routes/sync.js:27-32 | a request carrying nothing changes nothing but the sync time |

## Left out

- `loadData` and every AsyncStorage read and write (`setItem`, `multiRemove`) are storage I/O. Each mutation is modelled as the state it leaves in memory.
- JSON text is not parsed or printed by `exportData` and `importData`. The model works on the structured record, with the per-collection defaults of the import. A present `settings` value, even a partial object, replaces the settings wholesale (store/useExpenseStore.ts:261); the model's settings record is whole, so missing fields inside it are not modelled.
- Id generation (`Date.now()`, `Math.random()`) and `new Date()` are passed in as parameters, so each operation receives its fresh id and its time.
- JavaScript `Date` arithmetic, local time zones, `setDate`/`setMonth` overflow, `toISOString`, date-fns `format` and `toLocaleDateString` are not modelled. Calendar boundaries come in through `Model.Clock`, the reminder calendar through `Cron.Calendar`, and date labels as opaque functions.
- Floating point is not modelled: amounts are exact reals. `toFixed` and `toString` rendering of numbers is a parameter of the CSV rows and is left out of the message texts.
- `toLowerCase` is modelled for ASCII letters only. Unicode case mapping is outside the model.
- Message texts of the notifications (the emoji templates) and their plural endings are left out. The model keeps the numbers they show: totals, counts and days until due.
- The weekly summary job, the daily summary's user query and the `node-cron` scheduling are left out. They select users from the database, and only the daily summary's day window is part of this model.
- Database behaviour is not modelled: mongoose casting, validation, save failures beyond "the send threw", and the populated user of a bill reminder.
- The HTTP API of the messaging service is not modelled. Its answer is a parameter (`Cron.Reply`).
- The sync endpoint's `req.user.lastSync` update, its authentication and its 500 error responses are server plumbing outside the merge rule.
- The PDF export (`generatePDFHTML`) and file sharing or download in the export service are rendering and I/O.
- Concurrency is not modelled. `async`/`await` steps are taken as sequential and atomic, and a store is a value, so in-place sorts of the stored tags and expenses return the reordered collection.
- Theming, colours other than the status and category colours, layout and charts of the components are presentation only.
- Cron.BillTick: a save of the first notification or of the reminder that throws is not modelled; only the send's answer (`Cron.Reply`) decides the outcome. The message text and phone number come in as parameters (`Cron.BillMessage`).
- Cron.SelectPending: the query `.find(...).limit(10)` has no sort, so which ten the database returns is unspecified; the model takes the first ten in store order as an abstraction of that choice.
- Icons.IconFor: the table is a plain JavaScript object, so a name inherited from `Object.prototype` ("constructor", "toString") finds a function, which is truthy, instead of the circle. The model treats the table as a plain map and does not model those names.
- Csv.CategoryTotals: the totals are kept in a plain JavaScript object, so a category id that is an `Object.prototype` key ("constructor", "__proto__") starts from an inherited value instead of 0, or is not stored. The model treats the totals as a plain map and does not model those ids.
- Sorting.SortDesc: the contract states a permutation with non-increasing keys. It does not state stability (ties keep their input order), although the insertion it uses is stable, because no property of the model depends on the order of equal keys.

## Findings

| source | as written | input that shows it | evidently intended | confidence | as-written member | corrected member |
|---|---|---|---|---|---|---|
| store/useExpenseStore.ts:396-405 | `getBudgetProgress` passes the budget's period ("weekly", "monthly", "yearly") to `getCategoryExpenses`, whose switch only knows "week" and "year", so every budget is measured over the calendar month | ten days into a month, a weekly budget of 100 and an expense of 50 dated nine days ago: spent is 50 as written, 0 over the budget's week | a weekly budget counts the last seven days and a yearly one the calendar year | not executed | Queries.BudgetProgressAsWritten, shown by Queries.WeeklyBudgetUsesMonth | Queries.BudgetProgress, which agrees with the written one on monthly budgets (Queries.MonthlyBudgetsAgree) |
| store/useExpenseStore.ts:402 | the over-budget counter of the home screen (app/(tabs)/index.tsx, lines 44-47) keeps budgets whose progress percentage is above 100, but that percentage is already capped at 100 by `Math.min`; the budgets screen repeats it (app/(tabs)/budgets.tsx, lines 28-31) | any state with a budget of 100 and spending of 150 in its category: the counter shows 0 | count the budgets whose spending exceeds their amount | not executed | Queries.OverBudgetCountAsWrittenIsZero | Queries.OverBudgetCount |

=== FILE: budgetcard.dfy ===
/** The card that shows one budget's progress (components/BudgetCard.tsx):
    a status tier from the percentage used, the period caption, the width of
    the progress bar and the "Over"/"Left" figure. */
module BudgetCard {
  import opened Wrappers
  import opened JsNumber
  import opened Model
  import opened Store
  import opened Queries

  datatype Status = ErrorTier | WarningTier | SuccessTier

  datatype StatusIcon = AlertTriangle | ClockIcon | CheckCircle

  /** `getStatusColor`: 100 % or more is an error, 80 % or more a warning,
      anything else (NaN included, which compares false) a success. */
  function StatusColor(p: Num): (s: Status)
    ensures s == ErrorTier <==> AtLeast(p, 100.0)
    ensures s == WarningTier <==> AtLeast(p, 80.0) && !AtLeast(p, 100.0)
    ensures s == SuccessTier <==> !AtLeast(p, 80.0)
  {
    if AtLeast(p, 100.0) then ErrorTier
    else if AtLeast(p, 80.0) then WarningTier
    else SuccessTier
  }

  /** `getStatusIcon`, written separately in the source with the same
      thresholds: its icon names the tier `getStatusColor` gives. */
  function StatusIconOf(p: Num): (i: StatusIcon)
    ensures i == AlertTriangle <==> StatusColor(p) == ErrorTier
    ensures i == ClockIcon <==> StatusColor(p) == WarningTier
    ensures i == CheckCircle <==> StatusColor(p) == SuccessTier
  {
    if AtLeast(p, 100.0) then AlertTriangle
    else if AtLeast(p, 80.0) then ClockIcon
    else CheckCircle
  }

  /** For a positive budget, the card shows the error tier exactly when the
      spending has reached the budget: the percentage it is given is capped
      at 100, so 100 is reached only then. */
  lemma ErrorExactlyWhenSpent(spent: real, amount: real)
    requires amount > 0.0 && spent >= 0.0
    ensures StatusColor(Clamp(spent, amount).percentage) == ErrorTier <==> spent >= amount
  {
    var p := Clamp(spent, amount).percentage;
    if spent < amount {
      assert p == Fin(spent / amount * 100.0);
      ShareBelow(spent, amount);
    }
  }

  /** Spending below a positive budget is below 100 % of it. */
  lemma ShareBelow(spent: real, amount: real)
    requires amount > 0.0 && 0.0 <= spent < amount
    ensures spent / amount * 100.0 < 100.0
  {
    var q := spent / amount;
    assert q * amount == spent;
    assert (1.0 - q) * amount == amount - q * amount;
    PositiveFactor(1.0 - q, amount);
  }

  lemma PositiveFactor(x: real, a: real)
    requires a > 0.0 && x * a > 0.0
    ensures x > 0.0
  {
  }

  /** `getPeriodText` over the period string the budget holds. */
  function PeriodText(period: string): (t: string)
    ensures period == "weekly" ==> t == "this week"
    ensures period == "monthly" ==> t == "this month"
    ensures period == "yearly" ==> t == "this year"
    ensures period !in {"weekly", "monthly", "yearly"} ==> t == "this period"
  {
    if period == "weekly" then "this week"
    else if period == "monthly" then "this month"
    else if period == "yearly" then "this year"
    else "this period"
  }

  /** Every period a budget can have has its own caption; the fallback is
      never shown. */
  lemma PeriodTextNeverFallback(p: Period)
    ensures PeriodText(PeriodName(p)) != "this period"
  {
  }

  /** `Math.min(progress.percentage, 100)`: the bar never runs past full. */
  function BarWidth(p: Num): (w: Num)
    ensures !Above(w, 100.0)
    ensures !Above(p, 100.0) ==> w == p
    ensures Above(p, 100.0) ==> w == Fin(100.0)
  {
    Min(p, Fin(100.0))
  }

  /** `category?.name || 'Unknown Category'`. */
  function CardTitle(c: Option<Category>): (t: string)
    ensures c.Some? && c.value.name != "" ==> t == c.value.name
    ensures c.None? || c.value.name == "" ==> t == "Unknown Category"
  {
    if c.Some? && c.value.name != "" then c.value.name else "Unknown Category"
  }

  /** The caption under the third figure. */
  function RemainingLabel(remaining: real): (t: string)
    ensures t == "Over" <==> remaining < 0.0
    ensures t == "Left" <==> remaining >= 0.0
  {
    if remaining < 0.0 then "Over" else "Left"
  }

  /** The third figure: `Math.abs(progress.remaining)`. */
  function RemainingShown(remaining: real): (v: real)
    ensures v >= 0.0 && (v == remaining || v == -remaining)
  {
    if remaining < 0.0 then -remaining else remaining
  }

  /** The progress the store produces never has a negative remainder, so the
      card never says "Over", with the period handled as written or as
      intended. */
  lemma NeverOver(s: State, clock: Clock, id: string)
    ensures RemainingLabel(BudgetProgress(s, clock, id).remaining) == "Left"
    ensures RemainingLabel(BudgetProgressAsWritten(s, clock, id).remaining) == "Left"
  {
  }

  /** The bar of a produced progress is as wide as its percentage: the cap has
      already been applied. */
  lemma BarWidthOfProduced(s: State, clock: Clock, id: string)
    ensures BarWidth(BudgetProgress(s, clock, id).percentage) == BudgetProgress(s, clock, id).percentage
  {
  }
}

=== FILE: categoryanalysis.dfy ===
/** The per-category table of the analytics screen
    (components/CategoryAnalysis.tsx): for every category used, how much was
    spent, in how many expenses, and the average, most spent first, with each
    category's share of the total. */
module CategoryAnalysis {
  import opened Wrappers
  import opened Seqs
  import opened Sorting
  import opened Grouping
  import opened Model
  import opened Ledger
  import opened Dashboard

  /** One row: the category looked up by id (None when no category has it),
      the total, the number of expenses and their average. The map key the
      row was built from is kept as `id`. */
  datatype Analysis = Analysis(id: string, category: Option<Category>, amount: real, count: nat, avgAmount: real)

  function AnalysisAmount(x: Analysis): real { x.amount }

  /** The row category `c` should have, from the reference sums. */
  function AnalysisOf(es: seq<Expense>, categories: seq<Category>, c: string): Analysis
    requires c in CategoryIds(es)
  {
    CategoryCountPositive(es, c);
    var n := CategoryCount(es, c);
    Analysis(c, FindCategory(categories, c), CategorySum(es, c), n, CategorySum(es, c) / n as real)
  }

  /** A category some expense is filed under counts at least one. */
  lemma {:induction false} CategoryCountPositive(es: seq<Expense>, c: string)
    requires c in CategoryIds(es)
    ensures CategoryCount(es, c) >= 1
    decreases |es|
  {
    var e := es[|es| - 1];
    if e.category != c {
      var init := es[..|es| - 1];
      var x :| x in es && x.category == c;
      var k :| 0 <= k < |es| && es[k] == x;
      assert k < |es| - 1;
      assert init[k] == x;
      CategoryCountPositive(init, c);
    }
  }

  /** The rows before sorting, one per bucket of the running map. Each
      update stores `(amount + e.amount) / (count + 1)`, which is the final
      amount over the final count, so the average is taken once at the end. */
  function Rows(bs: seq<Bucket>, categories: seq<Category>): seq<Analysis>
    requires forall b :: b in bs ==> b.count >= 1
  {
    seq(|bs|, i requires 0 <= i < |bs| =>
      assert bs[i] in bs;
      Analysis(bs[i].key, FindCategory(categories, bs[i].key), bs[i].amount, bs[i].count, bs[i].amount / bs[i].count as real))
  }

  /** `getCategoryAnalysis`: exactly one row per category used, each with its
      sum, count and average, most spent first. */
  function Analyze(es: seq<Expense>, categories: seq<Category>): (r: seq<Analysis>)
    ensures |r| == |CategoryIds(es)|
    ensures SortedDesc(r, AnalysisAmount)
    ensures SumOf(r, AnalysisAmount) == Total(es)
    ensures forall c :: c in CategoryIds(es) ==> AnalysisOf(es, categories, c) in r
    ensures forall x :: x in r ==> x.id in CategoryIds(es) && x == AnalysisOf(es, categories, x.id)
    ensures forall i, j :: 0 <= i < j < |r| ==> r[i].id != r[j].id
  {
    var bs := GroupByCategory(es);
    var rows := Rows(bs, categories);
    CategoryBucketCount(es);
    RowsSum(bs, categories);
    RowsAreAnalysisOf(es, categories);
    SortKeepsSum(rows, AnalysisAmount, AnalysisAmount);
    var r := SortDesc(rows, AnalysisAmount);
    assert forall x :: x in r <==> x in rows by {
      forall x ensures x in r <==> x in rows {
        SortKeepsElements(rows, AnalysisAmount, x);
      }
    }
    SortedIdsDistinct(rows, r);
    r
  }

  function AnalysisId(x: Analysis): string { x.id }

  /** A permutation of rows with distinct ids has distinct ids. */
  lemma SortedIdsDistinct(rows: seq<Analysis>, r: seq<Analysis>)
    requires multiset(r) == multiset(rows)
    requires forall i, j :: 0 <= i < j < |rows| ==> rows[i].id != rows[j].id
    ensures forall i, j :: 0 <= i < j < |r| ==> r[i].id != r[j].id
  {
    PermutationKeepsDistinctKeys(rows, r, AnalysisId);
  }

  /** The rows carry the bucket amounts, so they add up to the same sum. */
  lemma {:induction false} RowsSum(bs: seq<Bucket>, categories: seq<Category>)
    requires forall b :: b in bs ==> b.count >= 1
    ensures SumOf(Rows(bs, categories), AnalysisAmount) == SumOf(bs, BucketAmount)
    decreases |bs|
  {
    if |bs| > 0 {
      var init := bs[..|bs| - 1];
      assert forall b :: b in init ==> b in bs;
      RowsSum(init, categories);
      var m := Rows(bs, categories);
      assert m[..|m| - 1] == Rows(init, categories);
    }
  }

  /** Each row is the reference row of its category, every category used
      has its row, and the ids are those of the distinct buckets. */
  lemma RowsAreAnalysisOf(es: seq<Expense>, categories: seq<Category>)
    ensures var m := Rows(GroupByCategory(es), categories);
      && (forall c :: c in CategoryIds(es) ==> AnalysisOf(es, categories, c) in m)
      && (forall x :: x in m ==> x.id in CategoryIds(es) && x == AnalysisOf(es, categories, x.id))
      && (forall i, j :: 0 <= i < j < |m| ==> m[i].id != m[j].id)
  {
    var bs := GroupByCategory(es);
    var m := Rows(bs, categories);
    forall i | 0 <= i < |m| ensures m[i].id in CategoryIds(es) && m[i] == AnalysisOf(es, categories, m[i].id) {
      CategoryBucket(es, i);
    }
    forall c | c in CategoryIds(es) ensures AnalysisOf(es, categories, c) in m {
      KeyIndexInKeySet(bs, c);
      var i := KeyIndex(bs, c);
      CategoryBucket(es, i);
      assert m[i] == AnalysisOf(es, categories, c);
    }
  }

  /** The share shown next to a row: `totalAmount > 0 ? amount / totalAmount
      * 100 : 0`. */
  function Percentage(amount: real, total: real): (p: real)
    ensures total <= 0.0 ==> p == 0.0
    ensures total > 0.0 ==> p * total == amount * 100.0
  {
    if total > 0.0 then amount / total * 100.0 else 0.0
  }

  function ShareOf(total: real): Analysis -> real {
    (x: Analysis) => Percentage(x.amount, total)
  }

  /** With a positive total the shown shares add up to 100. */
  lemma SharesSumTo100(es: seq<Expense>, categories: seq<Category>)
    requires Total(es) > 0.0
    ensures SumOf(Analyze(es, categories), ShareOf(Total(es))) == 100.0
  {
    RowSharesSumTo100(Analyze(es, categories), Total(es));
  }

  /** Rows adding up to a positive total have shares adding up to 100. */
  lemma RowSharesSumTo100(r: seq<Analysis>, t: real)
    requires t > 0.0 && SumOf(r, AnalysisAmount) == t
    ensures SumOf(r, ShareOf(t)) == 100.0
  {
    RowsScaled(r, t);
    ScaledSumIs100(r, AnalysisAmount, ShareOf(t), t);
  }

  /** Every row's share is its amount times `100 / t`. */
  lemma RowsScaled(r: seq<Analysis>, t: real)
    requires t > 0.0
    ensures forall x :: x in r ==> ShareOf(t)(x) == AnalysisAmount(x) * (100.0 / t)
  {
    forall x | x in r ensures ShareOf(t)(x) == AnalysisAmount(x) * (100.0 / t) {
      PercentIsScaledAmount(x.amount, t);
    }
  }

  /** Every row's average times its count is its amount: rows are
      reference rows, and a reference row counts at least one expense. */
  lemma AverageTimesCount(es: seq<Expense>, categories: seq<Category>, c: string)
    requires c in CategoryIds(es)
    ensures var x := AnalysisOf(es, categories, c);
      x.count >= 1 && x.avgAmount * x.count as real == x.amount
  {
    CategoryCountPositive(es, c);
    DivTimes(CategorySum(es, c), CategoryCount(es, c) as real);
  }

  lemma DivTimes(a: real, n: real)
    requires n != 0.0
    ensures a / n * n == a
  {
  }
}

=== FILE: cron.dfy ===
/** The scheduled jobs of the notification server (server/cron/notifications.js):
    the minute job that sends pending WhatsApp notifications with at most three
    attempts each, the hourly job that sends bill reminders and moves them on,
    and the window of the daily summary. The messaging API's answer, the
    calendar and the clock are parameters. */
module Cron {
  import opened Wrappers
  import opened Seqs
  import opened Model
  import opened Ledger
  import opened Queries
  import opened Dashboard

  // ------------------------------------------------------------ notifications

  datatype NotificationKind = DailySummaryNote | WeeklySummaryNote | BudgetAlert | BillReminderNote

  /** A WhatsAppNotification document; `sent` defaults to false and
      `retryCount` to 0. */
  datatype Notification = Notification(
    id: string,
    kind: NotificationKind,
    message: string,
    phoneNumber: string,
    scheduledFor: int,
    sent: bool,
    sentAt: Option<int>,
    error: Option<string>,
    retryCount: int)

  /** A document as first saved: unsent, no attempt yet. */
  function NewNotification(id: string, kind: NotificationKind, message: string, phoneNumber: string, now: int): (n: Notification)
    ensures Pending(n, now)
  {
    Notification(id, kind, message, phoneNumber, now, false, None, None, 0)
  }

  /** The query of the minute job: unsent, due, fewer than three attempts. */
  predicate Pending(n: Notification, now: int) {
    !n.sent && n.scheduledFor <= now && n.retryCount < 3
  }

  function IsPending(now: int): Notification -> bool {
    (n: Notification) => Pending(n, now)
  }

  /** At most this many notifications are sent per minute. */
  const BatchSize: nat := 10

  /** The documents the minute job picks up, in store order. */
  function SelectPending(ns: seq<Notification>, now: int): (r: seq<Notification>)
    ensures |r| == if |Filter(ns, IsPending(now))| < BatchSize then |Filter(ns, IsPending(now))| else BatchSize
    ensures forall n :: n in r ==> n in ns && Pending(n, now)
    ensures forall n :: n in ns && Pending(n, now) && |Filter(ns, IsPending(now))| <= BatchSize ==> n in r
    ensures |r| <= |Filter(ns, IsPending(now))| && r == Filter(ns, IsPending(now))[..|r|]
  {
    var pending := Filter(ns, IsPending(now));
    FilterMembers(ns, IsPending(now));
    var r := Take(pending, BatchSize);
    assert forall n :: n in r ==> n in pending;
    r
  }

  /** How one `sendWhatsAppMessage` call ended: the configuration check threw,
      the request (or the save) threw, or the API answered. */
  datatype Reply = ConfigMissing | Threw | Answered(sent: bool, message: Option<string>)

  /** `response.data.message || 'Failed to send'`: an empty message counts as
      none. */
  function FailureText(message: Option<string>): (r: string)
    ensures |r| > 0
    ensures message.Some? && message.value != "" ==> r == message.value
  {
    if message.Some? && message.value != "" then message.value else "Failed to send"
  }

  /** The document as `sendWhatsAppMessage` leaves it. */
  function ApplyReply(n: Notification, reply: Reply, now: int): (r: Notification)
    ensures !reply.Answered? ==> r == n
    ensures r.id == n.id && r.message == n.message && r.phoneNumber == n.phoneNumber
    ensures r.scheduledFor == n.scheduledFor && r.kind == n.kind
    ensures reply.Answered? && reply.sent ==>
      r.sent && r.sentAt == Some(now) && r.retryCount == n.retryCount && r.error == n.error
    ensures reply.Answered? && !reply.sent ==>
      r.sent == n.sent && r.sentAt == n.sentAt && r.retryCount == n.retryCount + 1
      && r.error == Some(FailureText(reply.message))
  {
    match reply
    case Answered(ok, message) =>
      if ok then n.(sent := true, sentAt := Some(now))
      else n.(error := Some(FailureText(message)), retryCount := n.retryCount + 1)
    case _ => n
  }

  /** Pending documents before position `i`, counted from the front. */
  function PendingBefore(ns: seq<Notification>, i: nat, now: int): nat
    requires i <= |ns|
    decreases i
  {
    if i == 0 then 0
    else (if Pending(ns[0], now) then 1 else 0) + PendingBefore(ns[1..], i - 1, now)
  }

  /** The document at position `i` is among those the minute job sends. */
  predicate Picked(ns: seq<Notification>, i: nat, now: int)
    requires i < |ns|
  {
    Pending(ns[i], now) && PendingBefore(ns, i, now) < BatchSize
  }

  /** The minute job over the whole collection: the picked documents are
      sent in order, the k-th of them getting the answer `reply(k)`; the
      others stay as they are. */
  function Tick(ns: seq<Notification>, now: int, reply: nat -> Reply): (r: seq<Notification>)
    ensures |r| == |ns|
    ensures forall i :: 0 <= i < |ns| ==>
      r[i] == if Picked(ns, i, now) then ApplyReply(ns[i], reply(PendingBefore(ns, i, now)), now) else ns[i]
  {
    TickFrom(ns, now, reply, 0)
  }

  /** One document's turn in the loop, `k` documents having been sent
      before it: a pending document within the batch gets the answer
      `reply(k)`, any other is left alone. */
  function Turn(n: Notification, now: int, reply: nat -> Reply, k: nat): Notification {
    if Pending(n, now) && k < BatchSize then ApplyReply(n, reply(k), now) else n
  }

  /** The loop, with `taken` documents already sent. */
  function TickFrom(ns: seq<Notification>, now: int, reply: nat -> Reply, taken: nat): (r: seq<Notification>)
    ensures |r| == |ns|
    ensures forall i :: 0 <= i < |ns| ==> r[i] == Turn(ns[i], now, reply, taken + PendingBefore(ns, i, now))
    decreases |ns|
  {
    if |ns| == 0 then []
    else
      var rest := TickFrom(ns[1..], now, reply, if Pending(ns[0], now) then taken + 1 else taken);
      TickFromStep(ns, now, reply, taken, rest);
      [Turn(ns[0], now, reply, taken)] + rest
  }

  /** The first document's turn, followed by the loop over the rest. */
  lemma TickFromStep(ns: seq<Notification>, now: int, reply: nat -> Reply, taken: nat, rest: seq<Notification>)
    requires |ns| > 0 && |rest| == |ns| - 1
    requires var taken' := if Pending(ns[0], now) then taken + 1 else taken;
      forall i :: 0 <= i < |ns| - 1 ==> rest[i] == Turn(ns[1..][i], now, reply, taken' + PendingBefore(ns[1..], i, now))
    ensures forall i :: 0 <= i < |ns| ==>
      ([Turn(ns[0], now, reply, taken)] + rest)[i] == Turn(ns[i], now, reply, taken + PendingBefore(ns, i, now))
  {
    var r := [Turn(ns[0], now, reply, taken)] + rest;
    forall i | 0 <= i < |ns| ensures r[i] == Turn(ns[i], now, reply, taken + PendingBefore(ns, i, now)) {
      if i > 0 {
        TickFromLater(ns, now, reply, taken, rest, i);
      }
    }
  }

  /** A later document's turn in the loop over the rest is its turn in the
      loop over the whole. */
  lemma TickFromLater(ns: seq<Notification>, now: int, reply: nat -> Reply, taken: nat, rest: seq<Notification>, i: nat)
    requires 0 < i < |ns| && |rest| == |ns| - 1
    requires rest[i - 1] == Turn(ns[1..][i - 1], now, reply,
      (if Pending(ns[0], now) then taken + 1 else taken) + PendingBefore(ns[1..], i - 1, now))
    ensures ([Turn(ns[0], now, reply, taken)] + rest)[i] == Turn(ns[i], now, reply, taken + PendingBefore(ns, i, now))
  {
    var taken' := if Pending(ns[0], now) then taken + 1 else taken;
    assert taken' + PendingBefore(ns[1..], i - 1, now) == taken + PendingBefore(ns, i, now);
    assert ns[1..][i - 1] == ns[i];
  }

  /** The count is the number of pending documents the query's filter keeps
      from the first `i`. */
  lemma {:induction false} PendingBeforeCounts(ns: seq<Notification>, i: nat, now: int)
    requires i <= |ns|
    ensures PendingBefore(ns, i, now) == |Filter(ns[..i], IsPending(now))|
    decreases i
  {
    if i > 0 {
      PendingBeforeCounts(ns[1..], i - 1, now);
      assert ns[..i] == [ns[0]] + ns[1..][..i - 1];
      FilterConcat([ns[0]], ns[1..][..i - 1], IsPending(now));
      FilterSingle(ns[0], IsPending(now));
    } else {
      assert ns[..0] == [];
    }
  }

  /** The documents the minute job touches are the ones the query selects. */
  lemma PickedAreSelected(ns: seq<Notification>, i: nat, now: int)
    requires i < |ns| && Picked(ns, i, now)
    ensures ns[i] in SelectPending(ns, now)
  {
    var p := IsPending(now);
    FilterAt(ns, i, p);
    PendingBeforeCounts(ns, i, now);
    var k := PendingBefore(ns, i, now);
    assert Filter(ns, p)[k] == ns[i];
    assert SelectPending(ns, now)[k] == ns[i];
  }

  /** A sent document is never touched again. */
  lemma SentIsFinal(ns: seq<Notification>, now: int, reply: nat -> Reply, i: nat)
    requires i < |ns| && ns[i].sent
    ensures Tick(ns, now, reply)[i] == ns[i]
  {
  }

  /** Every attempt count stays between 0 and 3. */
  predicate RetriesBounded(ns: seq<Notification>) {
    forall i :: 0 <= i < |ns| ==> 0 <= ns[i].retryCount <= 3
  }

  /** The minute job keeps the attempt counts within 0..3: a document is only
      retried while it has had fewer than three failed answers. */
  lemma TickKeepsRetriesBounded(ns: seq<Notification>, now: int, reply: nat -> Reply)
    requires RetriesBounded(ns)
    ensures RetriesBounded(Tick(ns, now, reply))
  {
  }

  /** A document that has had three failed answers is never sent again, at
      whatever time and with whatever answers. */
  lemma RetiredAfterThree(ns: seq<Notification>, now: int, reply: nat -> Reply, i: nat)
    requires i < |ns| && ns[i].retryCount >= 3
    ensures Tick(ns, now, reply)[i] == ns[i]
  {
  }

  /** Three failed answers in a row retire a fresh document. */
  lemma ThreeFailuresRetire(n: Notification, t1: int, t2: int, t3: int, m1: Option<string>, m2: Option<string>, m3: Option<string>)
    requires n.retryCount == 0 && !n.sent
    ensures var n3 := ApplyReply(ApplyReply(ApplyReply(n, Answered(false, m1), t1), Answered(false, m2), t2), Answered(false, m3), t3);
      n3.retryCount == 3 && forall t :: !Pending(n3, t)
  {
  }

  // ------------------------------------------------------------ bill reminders

  datatype Frequency = Monthly | Quarterly | Yearly | OneTime

  /** A BillReminder document; `reminderDays` defaults to 3 and `isActive` to
      true. The owning user is not modelled. */
  datatype Reminder = Reminder(
    id: string,
    title: string,
    amount: real,
    dueDate: int,
    frequency: Frequency,
    reminderDays: int,
    isActive: bool,
    lastReminded: Option<int>,
    nextReminder: Option<int>)

  /** Local-calendar arithmetic on timestamps: `addMonths(t, m)` is `t` moved
      `m` months on, `minusDays(t, d)` is `t` moved `d` days back. */
  datatype Calendar = Calendar(addMonths: (int, int) -> int, minusDays: (int, int) -> int)

  /** The query of the hourly job: active, with a reminder time that has come.
      A document without `nextReminder` does not match `$lte`. */
  predicate Due(r: Reminder, now: int) {
    r.isActive && r.nextReminder.Some? && r.nextReminder.value <= now
  }

  /** Months the due date moves on by; a year is twelve months. */
  function MonthsOf(f: Frequency): (m: nat)
    requires f != OneTime
    ensures m >= 1
  {
    match f
    case Monthly => 1
    case Quarterly => 3
    case Yearly => 12
  }

  /** The reminder after its message has been handed over: `completed` is
      false when `sendBillReminder` or the save threw. The value computed
      into a local `nextReminder` before the frequency test is never used. */
  function Remind(r: Reminder, now: int, cal: Calendar, completed: bool): (r': Reminder)
    ensures !completed ==> r' == r
    ensures completed ==> r'.lastReminded == Some(now)
    ensures r'.id == r.id && r'.title == r.title && r'.amount == r.amount
    ensures r'.frequency == r.frequency && r'.reminderDays == r.reminderDays
    ensures completed && r.frequency == OneTime ==>
      !r'.isActive && r'.dueDate == r.dueDate && r'.nextReminder == r.nextReminder
    ensures completed && r.frequency != OneTime ==>
      r'.isActive == r.isActive
      && r'.dueDate == cal.addMonths(r.dueDate, MonthsOf(r.frequency))
      && r'.nextReminder == Some(cal.minusDays(r'.dueDate, r.reminderDays))
  {
    if !completed then r
    else if r.frequency != OneTime then
      var nextDue := cal.addMonths(r.dueDate, MonthsOf(r.frequency));
      r.(dueDate := nextDue, nextReminder := Some(cal.minusDays(nextDue, r.reminderDays)), lastReminded := Some(now))
    else
      r.(isActive := false, lastReminded := Some(now))
  }

  /** What `sendBillReminder` puts into the notification it creates for a
      reminder: the document id, the text and the owner's phone number. */
  datatype BillMessage = BillMessage(id: string, text: string, phone: string)

  /** The notification `sendBillReminder` saves for a reminder and then
      hands to `sendWhatsAppMessage`, as it is left after the send. */
  function BillNote(m: BillMessage, reply: Reply, now: int): (n: Notification)
    ensures n.kind == BillReminderNote && n.id == m.id && n.message == m.text
    ensures n.phoneNumber == m.phone && n.scheduledFor == now
    ensures !reply.Answered? ==> Pending(n, now) && n.retryCount == 0
    ensures reply.Answered? && reply.sent ==> n.sent && n.sentAt == Some(now)
    ensures reply.Answered? && !reply.sent ==> !n.sent && n.retryCount == 1
  {
    ApplyReply(NewNotification(m.id, BillReminderNote, m.text, m.phone, now), reply, now)
  }

  /** The positions of the reminders the hourly query returns, in store
      order. */
  function DueIndices(rs: seq<Reminder>, now: int): (ix: seq<nat>)
    ensures forall k :: 0 <= k < |ix| ==> ix[k] < |rs| && Due(rs[ix[k]], now)
    ensures forall i :: 0 <= i < |rs| && Due(rs[i], now) ==> i in ix
    ensures forall k, l :: 0 <= k < l < |ix| ==> ix[k] < ix[l]
    decreases |rs|
  {
    if |rs| == 0 then []
    else
      var ix := DueIndices(rs[..|rs| - 1], now);
      assert forall k :: 0 <= k < |ix| ==> rs[ix[k]] == rs[..|rs| - 1][ix[k]];
      ix + (if Due(rs[|rs| - 1], now) then [|rs| - 1] else [])
  }

  /** The hourly job: for every due reminder a notification is saved and
      sent, `msg(i)` and `reply(i)` being the i-th reminder's message and the
      answer to its send. A send that returned (whatever the answer) moves
      the reminder on; one that threw leaves it as it was. */
  function BillTick(rs: seq<Reminder>, now: int, cal: Calendar, msg: nat -> BillMessage, reply: nat -> Reply): (r: (seq<Reminder>, seq<Notification>))
    ensures |r.0| == |rs|
    ensures forall i :: 0 <= i < |rs| && !Due(rs[i], now) ==> r.0[i] == rs[i]
    ensures forall i :: 0 <= i < |rs| && Due(rs[i], now) ==> r.0[i] == Remind(rs[i], now, cal, reply(i).Answered?)
    ensures |r.1| == |DueIndices(rs, now)|
    ensures forall k :: 0 <= k < |r.1| ==>
      r.1[k] == BillNote(msg(DueIndices(rs, now)[k]), reply(DueIndices(rs, now)[k]), now)
  {
    var ix := DueIndices(rs, now);
    (seq(|rs|, i requires 0 <= i < |rs| => if Due(rs[i], now) then Remind(rs[i], now, cal, reply(i).Answered?) else rs[i]),
     seq(|ix|, k requires 0 <= k < |ix| => BillNote(msg(ix[k]), reply(ix[k]), now)))
  }

  /** A one-time reminder is sent once: after a send that returned it is
      never due again, so later runs leave it as it is and save no further
      notification for it. */
  lemma OneTimeSentOnce(rs: seq<Reminder>, now: int, cal: Calendar, msg: nat -> BillMessage, reply: nat -> Reply,
                        i: nat, later: int, msg': nat -> BillMessage, reply': nat -> Reply)
    requires i < |rs| && rs[i].frequency == OneTime && Due(rs[i], now) && reply(i).Answered?
    ensures var after := BillTick(rs, now, cal, msg, reply).0;
      && !after[i].isActive
      && BillTick(after, later, cal, msg', reply').0[i] == after[i]
      && i !in DueIndices(after, later)
  {
  }

  /** A send that threw leaves the reminder due and its notification saved
      and pending: the next hourly run saves a second notification for the
      same reminder while the minute job may still send the first. */
  lemma ThrownSendRepeats(rs: seq<Reminder>, now: int, cal: Calendar, msg: nat -> BillMessage, reply: nat -> Reply,
                          i: nat, later: int)
    requires i < |rs| && Due(rs[i], now) && !reply(i).Answered? && later >= now
    ensures var after := BillTick(rs, now, cal, msg, reply);
      && after.0[i] == rs[i]
      && i in DueIndices(after.0, later)
      && exists k :: 0 <= k < |after.1| && after.1[k].id == msg(i).id && Pending(after.1[k], later)
  {
    var after := BillTick(rs, now, cal, msg, reply);
    var ix := DueIndices(rs, now);
    var k :| 0 <= k < |ix| && ix[k] == i;
    assert after.1[k] == BillNote(msg(i), reply(i), now);
  }

  /** A recurring reminder that went through stays active and is due again
      later, as long as the calendar moves forward and the reminder lead time
      is shorter than the period. */
  lemma RecurringMovesOn(r: Reminder, now: int, cal: Calendar)
    requires Due(r, now) && r.frequency != OneTime
    requires r.nextReminder.value == cal.minusDays(r.dueDate, r.reminderDays)
    requires cal.minusDays(cal.addMonths(r.dueDate, MonthsOf(r.frequency)), r.reminderDays)
      > cal.minusDays(r.dueDate, r.reminderDays)
    ensures var r' := Remind(r, now, cal, true);
      r'.isActive && r'.nextReminder.Some? && r'.nextReminder.value > r.nextReminder.value
      && r'.nextReminder.value == cal.minusDays(r'.dueDate, r'.reminderDays)
  {
  }

  const DayMs: int := 1000 * 60 * 60 * 24

  /** `Math.ceil((dueDate - now) / (1000 * 60 * 60 * 24))`: whole days until
      the due date, rounded up, and negative once it has passed. */
  function DaysUntilDue(dueDate: int, now: int): (d: int)
    ensures (d - 1) * DayMs < dueDate - now <= d * DayMs
  {
    -((now - dueDate) / DayMs)
  }

  // ----------------------------------------------------------- daily summary

  datatype Summary = Summary(spent: real, transactions: nat)

  /** The expenses of `sendDailySummary`: dated from today's midnight up to,
      but not including, tomorrow's. */
  function TodayWindow(clock: Clock): Expense -> bool {
    Within(clock.midnight(0), clock.midnight(1))
  }

  /** `sendDailySummary` without the text: nothing when the user has no
      stored data, else the total and the number of today's expenses. */
  function DailySummary(userData: Option<seq<Expense>>, clock: Clock): (r: Option<Summary>)
    ensures userData.None? <==> r.None?
    ensures r.Some? ==> r.value.transactions <= |userData.value|
    ensures userData == Some([]) ==> r == Some(Summary(0.0, 0))
  {
    match userData
    case None => None
    case Some(es) =>
      var today := Filter(es, TodayWindow(clock));
      Some(Summary(SumOf(today, Amount), |today|))
  }

  /** One more expense changes the summary exactly when it is dated today,
      by its amount and one transaction. */
  lemma DailySummaryStep(es: seq<Expense>, e: Expense, clock: Clock)
    ensures var before := DailySummary(Some(es), clock).value;
      var after := DailySummary(Some(es + [e]), clock).value;
      if clock.midnight(0) <= e.date < clock.midnight(1) then
        after.spent == before.spent + e.amount && after.transactions == before.transactions + 1
      else after == before
  {
    var es' := es + [e];
    assert es'[..|es'| - 1] == es;
    FilterStep(es', TodayWindow(clock));
  }

  /** With nothing dated after today, the summary's total is the dashboard's
      "today" figure. */
  lemma DailySummaryIsToday(es: seq<Expense>, clock: Clock)
    requires clock.midnight(0) == clock.startOfToday
    requires forall e :: e in es ==> e.date < clock.midnight(1)
    ensures DailySummary(Some(es), clock).value.spent == Today(es, clock)
  {
    FilterAgree(es, TodayWindow(clock), OnOrAfter(clock.startOfToday));
  }
}

=== FILE: csv.dfy ===
/** The CSV export and the per-category totals of the export service
    (services/export.ts). Date formatting (`format(date, 'yyyy-MM-dd')`) and
    number rendering (`amount.toString()`) are parameters. */
module Csv {
  import opened Wrappers
  import opened Seqs
  import opened Grouping
  import opened Model
  import opened Ledger

  /** `xs.join(sep)`. */
  function Join(xs: seq<string>, sep: string): string
    decreases |xs|
  {
    if |xs| == 0 then ""
    else if |xs| == 1 then xs[0]
    else xs[0] + sep + Join(xs[1..], sep)
  }

  /** `s.split(c)` for a one-character separator. */
  function Split(s: string, c: char): (r: seq<string>)
    ensures |r| >= 1
    ensures forall x :: x in r ==> c !in x
    decreases |s|
  {
    if c !in s then [s]
    else
      var i := IndexOf(s, c);
      [s[..i]] + Split(s[i + 1..], c)
  }

  /** The first position of `c` in `s`. */
  function IndexOf(s: string, c: char): (i: nat)
    requires c in s
    ensures i < |s| && s[i] == c && c !in s[..i]
  {
    if s[0] == c then 0 else
      assert c in s[1..] by {
        var k :| 0 <= k < |s| && s[k] == c;
        assert s[1..][k - 1] == c;
      }
      var j := IndexOf(s[1..], c);
      assert s[..j + 1] == [s[0]] + s[1..][..j];
      j + 1
  }

  /** Splitting a joined list on a separator none of its items contains
      gives the list back. */
  lemma {:induction false} SplitJoin(xs: seq<string>, c: char)
    requires |xs| >= 1
    requires forall x :: x in xs ==> c !in x
    ensures Split(Join(xs, [c]), c) == xs
    decreases |xs|
  {
    if |xs| == 1 {
      assert Join(xs, [c]) == xs[0];
    } else {
      var s := Join(xs, [c]);
      assert s == xs[0] + [c] + Join(xs[1..], [c]);
      IndexAfter(xs[0], c, Join(xs[1..], [c]));
      assert s[..|xs[0]|] == xs[0];
      assert s[|xs[0]| + 1..] == Join(xs[1..], [c]);
      assert forall x :: x in xs[1..] ==> x in xs;
      SplitJoin(xs[1..], c);
    }
  }

  /** The first `c` in `a + [c] + rest` is the one after `a` when `a` holds
      none. */
  lemma IndexAfter(a: string, c: char, rest: string)
    requires c !in a
    ensures c in a + [c] + rest && IndexOf(a + [c] + rest, c) == |a|
  {
    var s := a + [c] + rest;
    assert s[|a|] == c;
    assert s[..|a|] == a;
  }

  // ------------------------------------------------------------------ fields

  /** `` `"${field}"` ``: the field between double quotes, embedded quotes
      left as they are. */
  function Quote(field: string): (r: string)
    ensures |r| == |field| + 2 && r[0] == '"' && r[|r| - 1] == '"'
    ensures r[1..|r| - 1] == field
  {
    "\"" + field + "\""
  }

  /** `row.map(quote).join(',')`. */
  function Row(fields: seq<string>): string {
    Join(QuoteAll(fields), ",")
  }

  function QuoteAll(fields: seq<string>): (r: seq<string>)
    ensures |r| == |fields|
    ensures forall i :: 0 <= i < |fields| ==> r[i] == Quote(fields[i])
  {
    seq(|fields|, i requires 0 <= i < |fields| => Quote(fields[i]))
  }

  /** A reader for one line of RFC 4180 quoted fields, restricted to fields
      with no quote inside: each field runs from an opening quote to the next
      quote, and fields are separated by commas. */
  function ParseRow(line: string): seq<string>
    decreases |line|
  {
    if |line| < 2 || line[0] != '"' || '"' !in line[1..] then []
    else
      var body := line[1..];
      var close := IndexOf(body, '"');
      var rest := body[close + 1..];
      if |rest| > 0 && rest[0] == ',' then [body[..close]] + ParseRow(rest[1..])
      else [body[..close]]
  }

  /** Quoting then reading gives back fields that hold no quote, commas and
      all. */
  lemma {:induction false} ParseRowRoundTrip(fields: seq<string>)
    requires |fields| >= 1
    requires forall f :: f in fields ==> '"' !in f
    ensures ParseRow(Row(fields)) == fields
    decreases |fields|
  {
    var f := fields[0];
    assert '"' !in f;
    RowCons(fields);
    if |fields| == 1 {
      ParseRowStep(f, "");
    } else {
      var rest := Row(fields[1..]);
      ParseRowStep(f, "," + rest);
      assert ("," + rest)[1..] == rest;
      assert ParseRow(Row(fields)) == [f] + ParseRow(rest);
      NoQuoteTail(fields);
      ParseRowRoundTrip(fields[1..]);
      assert fields == [f] + fields[1..];
    }
  }

  lemma NoQuoteTail(fields: seq<string>)
    requires |fields| >= 1
    requires forall f :: f in fields ==> '"' !in f
    ensures forall f :: f in fields[1..] ==> '"' !in f
  {
    forall g | g in fields[1..] ensures '"' !in g {
      assert g in fields;
    }
  }

  /** A row is its first quoted field, then a comma and the row of the rest
      when there is a rest. */
  lemma RowCons(fields: seq<string>)
    requires |fields| >= 1
    ensures Row(fields) == "\"" + fields[0] + "\"" + (if |fields| == 1 then "" else "," + Row(fields[1..]))
  {
    var q := QuoteAll(fields);
    if |fields| > 1 {
      assert q[1..] == QuoteAll(fields[1..]);
    }
  }

  /** Reading a line that starts with a quoted field holding no quote yields
      that field, then the fields after the comma that follows it, if any. */
  lemma ParseRowStep(f: string, tail: string)
    requires '"' !in f
    ensures ParseRow("\"" + f + "\"" + tail)
      == [f] + (if |tail| > 0 && tail[0] == ',' then ParseRow(tail[1..]) else [])
  {
    var line := "\"" + f + "\"" + tail;
    var body := line[1..];
    assert body == f + "\"" + tail;
    IndexAfter(f, '"', tail);
    assert body[..|f|] == f;
    assert body[|f| + 1..] == tail;
  }

  /** Embedded quotes are not doubled as section 2 of RFC 4180 requires, so
      a field holding a quote does not read back: `say "hi"` comes back cut
      at the first inner quote. */
  lemma UndoubledQuoteBreaksRow()
    ensures ParseRow(Row(["say \"hi\""])) == ["say "]
  {
    var f := "say \"hi\"";
    assert QuoteAll([f]) == [Quote(f)];
    assert Row([f]) == "\"" + "say " + "\"" + "hi\"\"";
    ParseRowStep("say ", "hi\"\"");
  }

  // ------------------------------------------------------------- the content

  const Headers: seq<string> := ["Date", "Category", "Description", "Amount", "Tags"]

  /** The header line reads back as the five column names: each is quoted,
      and none holds a quote. */
  lemma HeaderLine()
    ensures ParseRow(Row(Headers)) == Headers
  {
    assert forall f :: f in Headers ==> '"' !in f;
    ParseRowRoundTrip(Headers);
  }

  /** The five fields of an expense's row: the formatted date, the category's
      display name (Unknown when missing or unnamed), the note or the empty
      string, the rendered amount and the tags joined by "; ". */
  function RowFields(e: Expense, categories: seq<Category>, formatDate: int -> string, showAmount: real -> string): (r: seq<string>)
    ensures |r| == 5
    ensures r[0] == formatDate(e.date)
    ensures r[1] == DisplayName(FindCategory(categories, e.category))
    ensures r[2] == e.note.GetOr("") && (e.note.None? ==> r[2] == "")
    ensures r[3] == showAmount(e.amount)
    ensures r[4] == Join(e.tags, "; ")
  {
    [formatDate(e.date), DisplayName(FindCategory(categories, e.category)), e.note.GetOr(""),
     showAmount(e.amount), Join(e.tags, "; ")]
  }

  /** The lines of the file before they are joined: the header, then one
      row per expense in input order. */
  function Lines(es: seq<Expense>, categories: seq<Category>, formatDate: int -> string, showAmount: real -> string): (r: seq<string>)
    ensures |r| == |es| + 1
  {
    [Row(Headers)] + seq(|es|, i requires 0 <= i < |es| => Row(RowFields(es[i], categories, formatDate, showAmount)))
  }

  /** `generateCSVContent`: the lines joined by line breaks, so that,
      when no field holds a line break, splitting the text gives the lines
      back. */
  function CsvContent(es: seq<Expense>, categories: seq<Category>, formatDate: int -> string, showAmount: real -> string): (r: string)
    ensures (forall e :: e in es ==> SingleLine(e, categories, formatDate, showAmount)) ==>
      Split(r, '\n') == Lines(es, categories, formatDate, showAmount)
  {
    var lines := Lines(es, categories, formatDate, showAmount);
    assert (forall e :: e in es ==> SingleLine(e, categories, formatDate, showAmount)) ==> Split(Join(lines, "\n"), '\n') == lines by {
      if forall e :: e in es ==> SingleLine(e, categories, formatDate, showAmount) {
        LinesSingle(es, categories, formatDate, showAmount);
        SplitJoin(lines, '\n');
      }
    }
    Join(lines, "\n")
  }

  /** No field of the row holds a line break. */
  predicate SingleLine(e: Expense, categories: seq<Category>, formatDate: int -> string, showAmount: real -> string) {
    forall f :: f in RowFields(e, categories, formatDate, showAmount) ==> '\n' !in f
  }

  /** Reading the file line by line gives the header line followed by one
      line per expense, in input order, as long as no field holds a line
      break. */
  lemma CsvLines(es: seq<Expense>, categories: seq<Category>, formatDate: int -> string, showAmount: real -> string)
    requires forall e :: e in es ==> SingleLine(e, categories, formatDate, showAmount)
    ensures var lines := Split(CsvContent(es, categories, formatDate, showAmount), '\n');
      && |lines| == |es| + 1
      && lines[0] == Row(Headers)
      && forall i :: 0 <= i < |es| ==> lines[i + 1] == Row(RowFields(es[i], categories, formatDate, showAmount))
  {
    LinesSingle(es, categories, formatDate, showAmount);
    SplitJoin(Lines(es, categories, formatDate, showAmount), '\n');
  }

  /** No line holds a line break. */
  lemma LinesSingle(es: seq<Expense>, categories: seq<Category>, formatDate: int -> string, showAmount: real -> string)
    requires forall e :: e in es ==> SingleLine(e, categories, formatDate, showAmount)
    ensures forall l :: l in Lines(es, categories, formatDate, showAmount) ==> '\n' !in l
  {
    var ls := Lines(es, categories, formatDate, showAmount);
    forall l | l in ls ensures '\n' !in l {
      var k :| 0 <= k < |ls| && ls[k] == l;
      if k == 0 {
        HeaderSingle();
      } else {
        RowSingle(es, categories, formatDate, showAmount, k - 1);
      }
    }
  }

  /** The header line holds no line break. */
  lemma HeaderSingle()
    ensures '\n' !in Row(Headers)
  {
    assert forall f :: f in Headers ==> '\n' !in f;
    RowHasNoNewline(Headers);
  }

  /** An expense whose fields hold no line break gives a line without one. */
  lemma RowSingle(es: seq<Expense>, categories: seq<Category>, formatDate: int -> string, showAmount: real -> string, i: nat)
    requires i < |es| && SingleLine(es[i], categories, formatDate, showAmount)
    ensures '\n' !in Lines(es, categories, formatDate, showAmount)[i + 1]
  {
    RowHasNoNewline(RowFields(es[i], categories, formatDate, showAmount));
  }

  /** Quoting and joining with commas adds no line break. */
  lemma RowHasNoNewline(fields: seq<string>)
    requires forall f :: f in fields ==> '\n' !in f
    ensures '\n' !in Row(fields)
  {
    var q := QuoteAll(fields);
    forall x | x in q ensures '\n' !in x {
      var k :| 0 <= k < |q| && q[k] == x;
      QuoteKeepsOut(fields[k], '\n');
    }
    JoinKeepsOut(q, ",", '\n');
  }

  /** Quoting adds only quote characters. */
  lemma QuoteKeepsOut(f: string, c: char)
    requires c != '"' && c !in f
    ensures c !in Quote(f)
  {
    assert Quote(f) == ['"'] + f + ['"'];
  }

  /** A join contains a character only if an item or the separator does. */
  lemma {:induction false} JoinKeepsOut(xs: seq<string>, sep: string, c: char)
    requires c !in sep && forall x :: x in xs ==> c !in x
    ensures c !in Join(xs, sep)
    decreases |xs|
  {
    if |xs| > 1 {
      assert forall x :: x in xs[1..] ==> x in xs;
      JoinKeepsOut(xs[1..], sep, c);
      assert xs[0] in xs;
    }
  }

  // --------------------------------------------------------- category totals

  /** `getCategoryTotals`: a plain object from category id to amount. The
      test `if (totals[id])` treats a running total of 0 as missing and
      starts again from the expense's amount, which is the same as adding
      it to 0. */
  function CategoryTotals(es: seq<Expense>): (m: map<string, real>)
    ensures m.Keys == CategoryIds(es)
    ensures forall c :: c in m ==> m[c] == CategorySum(es, c)
    decreases |es|
  {
    if |es| == 0 then map[]
    else
      var init, e := es[..|es| - 1], es[|es| - 1];
      var m := CategoryTotals(init);
      var r := if e.category in m && m[e.category] != 0.0 then m[e.category := m[e.category] + e.amount]
        else m[e.category := e.amount];
      SplitLast(es);
      TotalsStep(init, e, m, r);
      r
  }

  /** One more expense: its amount lands on its category's running total. */
  lemma TotalsStep(init: seq<Expense>, e: Expense, m: map<string, real>, r: map<string, real>)
    requires m.Keys == CategoryIds(init)
    requires forall c :: c in m ==> m[c] == CategorySum(init, c)
    requires r == if e.category in m && m[e.category] != 0.0 then m[e.category := m[e.category] + e.amount]
      else m[e.category := e.amount]
    ensures r.Keys == CategoryIds(init + [e])
    ensures forall c :: c in r ==> r[c] == CategorySum(init + [e], c)
  {
    var es := init + [e];
    assert es[..|es| - 1] == init;
    assert CategoryIds(es) == CategoryIds(init) + {e.category} by {
      assert forall x :: x in es <==> x in init || x == e;
    }
    if e.category !in m {
      CategorySumAbsent(init, e.category);
    }
  }

  /** A category no expense is filed under sums to 0. */
  lemma {:induction false} CategorySumAbsent(es: seq<Expense>, c: string)
    requires c !in CategoryIds(es)
    ensures CategorySum(es, c) == 0.0
    decreases |es|
  {
    if |es| > 0 {
      assert es[|es| - 1] in es;
      assert CategoryIds(es[..|es| - 1]) <= CategoryIds(es) by {
        forall x | x in es[..|es| - 1] ensures x in es { }
      }
      CategorySumAbsent(es[..|es| - 1], c);
    }
  }

  /** The value stored for a key, 0 when absent. */
  function Lookup(m: map<string, real>): string -> real {
    k => if k in m then m[k] else 0.0
  }

  /** The ids in first-use order. */
  function Keys(bs: seq<Bucket>): seq<string> {
    seq(|bs|, i requires 0 <= i < |bs| => bs[i].key)
  }

  /** Listed once each, the totals add up to the overall total. */
  lemma CategoryTotalsSum(es: seq<Expense>)
    ensures var ks := Keys(GroupByCategory(es));
      && Distinct(ks)
      && Elems(ks) == CategoryTotals(es).Keys
      && SumOf(ks, Lookup(CategoryTotals(es))) == Total(es)
  {
    var bs := GroupByCategory(es);
    var m := CategoryTotals(es);
    KeysOfBuckets(bs);
    forall i | 0 <= i < |bs| ensures Lookup(m)(bs[i].key) == bs[i].amount {
      CategoryBucket(es, i);
    }
    KeysSum(bs, Lookup(m));
  }

  /** The keys of distinct-keyed buckets are distinct and are the key set. */
  lemma KeysOfBuckets(bs: seq<Bucket>)
    requires DistinctKeys(bs)
    ensures Distinct(Keys(bs)) && Elems(Keys(bs)) == KeySet(bs)
  {
    var ks := Keys(bs);
    forall k | k in KeySet(bs) ensures k in Elems(ks) {
      var j :| 0 <= j < |bs| && bs[j].key == k;
      assert ks[j] == k;
    }
  }

  /** Summing a lookup that agrees with every bucket over the bucket keys is
      summing the buckets. */
  lemma {:induction false} KeysSum(bs: seq<Bucket>, f: string -> real)
    requires forall i :: 0 <= i < |bs| ==> f(bs[i].key) == bs[i].amount
    ensures SumOf(Keys(bs), f) == SumOf(bs, BucketAmount)
    decreases |bs|
  {
    if |bs| > 0 {
      var init := bs[..|bs| - 1];
      KeysSum(init, f);
      assert Keys(bs)[..|bs| - 1] == Keys(init);
    }
  }
}

=== FILE: dashboard.dfy ===
/** `getDashboardData` (store/useExpenseStore.ts): the four totals, the
    category breakdown, the seven-day trend and the three most used tags. */
module Dashboard {
  import opened Wrappers
  import opened Seqs
  import opened Sorting
  import opened JsNumber
  import opened Grouping
  import opened Model
  import opened Ledger
  import opened Queries

  /** The filter predicate "dated in `[start, end)`". */
  function Within(start: int, end: int): Expense -> bool {
    (e: Expense) => start <= e.date < end
  }

  /** `es.filter(p).reduce((sum, e) => sum + e.amount, 0)`. */
  function SumWhere(es: seq<Expense>, p: Expense -> bool): real {
    SumOf(Filter(es, p), Amount)
  }

  // ------------------------------------------------------------------ totals

  /** This month: dated at or after the first of the month. */
  function ThisMonth(es: seq<Expense>, clock: Clock): real {
    SumWhere(es, OnOrAfter(clock.startOfMonth))
  }

  /** Last month: dated between the first of last month and
      `endOfLastMonth`, both included. `endOfLastMonth` is the midnight that
      STARTS the last day of last month, so the rest of that day is left out. */
  function LastMonth(es: seq<Expense>, clock: Clock): real {
    SumWhere(es, Between(clock.startOfLastMonth, clock.endOfLastMonth))
  }

  /** Today: dated at or after today's midnight. */
  function Today(es: seq<Expense>, clock: Clock): real {
    SumWhere(es, OnOrAfter(clock.startOfToday))
  }

  /** An expense made on the last day of last month, after midnight, is in
      neither "last month" nor "this month". */
  lemma LastDayOfLastMonthDropped(clock: Clock, e: Expense)
    requires clock.startOfLastMonth <= clock.endOfLastMonth < e.date < clock.startOfMonth
    ensures LastMonth([e], clock) == 0.0 && ThisMonth([e], clock) == 0.0
  {
    assert [e][..0] == [];
  }

  // ------------------------------------------------------- category breakdown

  datatype BreakdownEntry = BreakdownEntry(category: string, amount: real, percentage: Num, color: string)

  function EntryAmount(x: BreakdownEntry): real { x.amount }

  /** The entry for the category id `key` holding `amount`: the category's
      display name and colour (`'#666'` when it has none) and the unguarded
      percentage `amount / total * 100`. */
  function Entry(categories: seq<Category>, total: real, key: string, amount: real): BreakdownEntry {
    var c := FindCategory(categories, key);
    BreakdownEntry(DisplayName(c), amount, Scale(Div(amount, total), 100.0), DisplayColor(c, "#666"))
  }

  /** The entry category `c` should have: its own sum over all expenses. */
  function EntryOf(es: seq<Expense>, categories: seq<Category>, c: string): BreakdownEntry {
    Entry(categories, Total(es), c, CategorySum(es, c))
  }

  /** `Array.from(map.entries()).map(...)`. */
  function Entries(bs: seq<Bucket>, categories: seq<Category>, total: real): seq<BreakdownEntry> {
    seq(|bs|, i requires 0 <= i < |bs| => Entry(categories, total, bs[i].key, bs[i].amount))
  }

  /** `categoryBreakdown`: one entry per category id used, most spent first,
      together accounting for every expense. */
  function Breakdown(es: seq<Expense>, categories: seq<Category>): (r: seq<BreakdownEntry>)
    ensures |r| == |CategoryIds(es)|
    ensures SortedDesc(r, EntryAmount)
    ensures SumOf(r, EntryAmount) == Total(es)
    ensures forall c :: c in CategoryIds(es) ==> EntryOf(es, categories, c) in r
    ensures forall x :: x in r ==> exists c :: c in CategoryIds(es) && x == EntryOf(es, categories, c)
    ensures forall x :: x in r ==> x.percentage == Scale(Div(x.amount, Total(es)), 100.0)
  {
    var bs := GroupByCategory(es);
    var mapped := Entries(bs, categories, Total(es));
    CategoryBucketCount(es);
    EntriesSum(bs, categories, Total(es));
    EntriesAreEntryOf(es, categories);
    SortKeepsSum(mapped, EntryAmount, EntryAmount);
    assert forall x :: x in SortDesc(mapped, EntryAmount) <==> x in mapped by {
      forall x ensures x in SortDesc(mapped, EntryAmount) <==> x in mapped {
        SortKeepsElements(mapped, EntryAmount, x);
      }
    }
    SortDesc(mapped, EntryAmount)
  }

  /** The entries carry the bucket amounts, so they add up to the same sum. */
  lemma {:induction false} EntriesSum(bs: seq<Bucket>, categories: seq<Category>, total: real)
    ensures SumOf(Entries(bs, categories, total), EntryAmount) == SumOf(bs, BucketAmount)
    decreases |bs|
  {
    if |bs| > 0 {
      var init := bs[..|bs| - 1];
      EntriesSum(init, categories, total);
      var m := Entries(bs, categories, total);
      assert m[..|m| - 1] == Entries(init, categories, total);
    }
  }

  /** Each mapped bucket is the entry of its category, and each category
      used has its entry among them. */
  lemma EntriesAreEntryOf(es: seq<Expense>, categories: seq<Category>)
    ensures var m := Entries(GroupByCategory(es), categories, Total(es));
      && (forall c :: c in CategoryIds(es) ==> EntryOf(es, categories, c) in m)
      && (forall x :: x in m ==> exists c :: c in CategoryIds(es) && x == EntryOf(es, categories, c))
  {
    var bs := GroupByCategory(es);
    var m := Entries(bs, categories, Total(es));
    forall i | 0 <= i < |m| ensures m[i] == EntryOf(es, categories, bs[i].key) && bs[i].key in CategoryIds(es) {
      CategoryBucket(es, i);
    }
    forall c | c in CategoryIds(es) ensures EntryOf(es, categories, c) in m {
      KeyIndexInKeySet(bs, c);
      var i := KeyIndex(bs, c);
      CategoryBucket(es, i);
      assert m[i] == EntryOf(es, categories, c);
    }
  }

  /** An id no category has is shown as Unknown in grey. */
  lemma UnmatchedCategoryIsUnknown(es: seq<Expense>, categories: seq<Category>, c: string)
    requires forall k :: k in categories ==> k.id != c
    ensures EntryOf(es, categories, c).category == "Unknown"
    ensures EntryOf(es, categories, c).color == "#666"
  {
  }

  /** With expenses whose amounts cancel out, or are all zero, no entry gets
      a finite percentage: the division by the zero total is unguarded. */
  lemma ZeroTotalPercentages(es: seq<Expense>, categories: seq<Category>)
    requires Total(es) == 0.0
    ensures forall x :: x in Breakdown(es, categories) ==> !x.percentage.Fin?
  {
  }

  function EntryPercent(x: BreakdownEntry): real {
    if x.percentage.Fin? then x.percentage.v else 0.0
  }

  /** With a non-zero total the percentages add up to 100. */
  lemma PercentagesSumTo100(es: seq<Expense>, categories: seq<Category>)
    requires Total(es) != 0.0
    ensures SumOf(Breakdown(es, categories), EntryPercent) == 100.0
  {
    SharesSumTo100(Breakdown(es, categories), Total(es));
  }

  /** Over a non-zero total the unguarded percentage is finite. */
  lemma FiniteShare(a: real, t: real)
    requires t != 0.0
    ensures Scale(Div(a, t), 100.0) == Fin(a / t * 100.0)
  {
  }

  /** Entries whose percentages are their shares of a non-zero total that
      they add up to have percentages adding up to 100. */
  lemma SharesSumTo100(r: seq<BreakdownEntry>, t: real)
    requires t != 0.0 && SumOf(r, EntryAmount) == t
    requires forall x :: x in r ==> x.percentage == Scale(Div(x.amount, t), 100.0)
    ensures SumOf(r, EntryPercent) == 100.0
  {
    EntriesScaled(r, t);
    ScaledSumIs100(r, EntryAmount, EntryPercent, t);
  }

  /** Terms that are others scaled by `100 / t`, where the others add up to
      a non-zero `t`, add up to 100. */
  lemma ScaledSumIs100<T>(r: seq<T>, f: T -> real, g: T -> real, t: real)
    requires t != 0.0 && SumOf(r, f) == t
    requires forall x :: x in r ==> g(x) == f(x) * (100.0 / t)
    ensures SumOf(r, g) == 100.0
  {
    SumScaled(r, f, g, 100.0 / t);
    PercentIsScaledAmount(0.0, t);
  }

  /** Every entry's percentage is its amount times `100 / t`. */
  lemma EntriesScaled(r: seq<BreakdownEntry>, t: real)
    requires t != 0.0
    requires forall x :: x in r ==> x.percentage == Scale(Div(x.amount, t), 100.0)
    ensures forall x :: x in r ==> EntryPercent(x) == EntryAmount(x) * (100.0 / t)
  {
    forall x | x in r ensures EntryPercent(x) == EntryAmount(x) * (100.0 / t) {
      EntryPercentScaled(x, t);
    }
  }

  /** One entry's percentage is its amount times `100 / t`. */
  lemma EntryPercentScaled(x: BreakdownEntry, t: real)
    requires t != 0.0 && x.percentage == Scale(Div(x.amount, t), 100.0)
    ensures EntryPercent(x) == EntryAmount(x) * (100.0 / t)
  {
    FiniteShare(x.amount, t);
    PercentIsScaledAmount(x.amount, t);
  }

  /** `a / t * 100` is `a` times the common factor `100 / t`. */
  lemma PercentIsScaledAmount(a: real, t: real)
    requires t != 0.0
    ensures a / t * 100.0 == a * (100.0 / t)
    ensures t * (100.0 / t) == 100.0
  {
  }

  /** A sum of terms each `k` times another is `k` times the other sum. */
  lemma {:induction false} SumScaled<T>(s: seq<T>, f: T -> real, g: T -> real, k: real)
    requires forall x :: x in s ==> g(x) == f(x) * k
    ensures SumOf(s, g) == SumOf(s, f) * k
    decreases |s|
  {
    if |s| > 0 {
      var init := s[..|s| - 1];
      assert forall x :: x in init ==> x in s;
      SumScaled(init, f, g, k);
      assert s[|s| - 1] in s;
      assert (SumOf(init, f) + f(s[|s| - 1])) * k == SumOf(init, f) * k + f(s[|s| - 1]) * k;
    }
  }

  // -------------------------------------------------------------- daily trend

  datatype TrendPoint = TrendPoint(date: string, amount: real)

  function PointAmount(p: TrendPoint): real { p.amount }

  /** What day `d` (relative to today) spent: expenses in
      `[midnight(d), midnight(d + 1))`. */
  function DayAmount(es: seq<Expense>, clock: Clock, d: int): real {
    SumWhere(es, Within(clock.midnight(d), clock.midnight(d + 1)))
  }

  /** `dailyTrend`: the loop `for (i = 6; i >= 0; i--)`, oldest day first. */
  method DailyTrend(es: seq<Expense>, clock: Clock) returns (trend: seq<TrendPoint>)
    ensures |trend| == 7
    ensures forall k :: 0 <= k < 7 ==> trend[k] == TrendPoint(clock.dayLabel(k - 6), DayAmount(es, clock, k - 6))
  {
    trend := [];
    var i := 6;
    while i >= 0
      invariant -1 <= i <= 6
      invariant |trend| == 6 - i
      invariant forall k :: 0 <= k < |trend| ==> trend[k] == TrendPoint(clock.dayLabel(k - 6), DayAmount(es, clock, k - 6))
    {
      var dayStart := clock.midnight(-i);
      var dayEnd := clock.midnight(-i + 1);
      var dayAmount := SumOf(Filter(es, Within(dayStart, dayEnd)), Amount);
      trend := trend + [TrendPoint(clock.dayLabel(-i), dayAmount)];
      i := i - 1;
    }
  }

  /** Two adjacent windows together sum what their union sums. */
  lemma {:induction false} WindowsAdd(es: seq<Expense>, a: int, b: int, c: int)
    requires a <= b <= c
    ensures SumWhere(es, Within(a, b)) + SumWhere(es, Within(b, c)) == SumWhere(es, Within(a, c))
    decreases |es|
  {
    if |es| > 0 {
      var init := es[..|es| - 1];
      var e := es[|es| - 1];
      WindowsAdd(init, a, b, c);
      FilterStep(es, Within(a, b));
      FilterStep(es, Within(b, c));
      FilterStep(es, Within(a, c));
    }
  }

  /** One step of a filtered sum: the last element adds its amount when it
      passes the filter. */
  lemma FilterStep(es: seq<Expense>, p: Expense -> bool)
    requires |es| > 0
    ensures SumWhere(es, p) == SumWhere(es[..|es| - 1], p) + (if p(es[|es| - 1]) then es[|es| - 1].amount else 0.0)
  {
    var e := es[|es| - 1];
    var kept := if p(e) then [e] else [];
    assert Filter(es, p) == Filter(es[..|es| - 1], p) + kept;
    SumOfConcat(Filter(es[..|es| - 1], p), kept, Amount);
    if p(e) {
      SumOfSingle(e, Amount);
    }
  }

  /** The seven days partition the week: with day boundaries in increasing
      order, the trend adds up to everything dated from six days ago up to
      tomorrow's midnight. */
  lemma TrendCoversWeek(es: seq<Expense>, clock: Clock, trend: seq<TrendPoint>)
    requires forall d :: -6 <= d <= 0 ==> clock.midnight(d) <= clock.midnight(d + 1)
    requires |trend| == 7
    requires forall k :: 0 <= k < 7 ==> trend[k].amount == DayAmount(es, clock, k - 6)
    ensures SumOf(trend, PointAmount) == SumWhere(es, Within(clock.midnight(-6), clock.midnight(1)))
  {
    var m := clock.midnight;
    FilterNone(es, Within(m(-6), m(-6)));
    var d := -5;
    while d <= 1
      invariant -5 <= d <= 2
      invariant SumOf(trend[..d + 5], PointAmount) == SumWhere(es, Within(m(-6), m(d - 1)))
      invariant m(-6) <= m(d - 1)
    {
      assert trend[..d + 6][..d + 5] == trend[..d + 5];
      WindowsAdd(es, m(-6), m(d - 1), m(d));
      d := d + 1;
    }
    assert trend[..7] == trend;
  }

  /** Today's point equals today's total when nothing is dated after
      tomorrow's midnight. */
  lemma TrendEndsWithToday(es: seq<Expense>, clock: Clock)
    requires clock.startOfToday == clock.midnight(0)
    requires forall e :: e in es ==> e.date < clock.midnight(1)
    ensures DayAmount(es, clock, 0) == Today(es, clock)
  {
    assert Filter(es, Within(clock.midnight(0), clock.midnight(1))) == Filter(es, OnOrAfter(clock.startOfToday)) by {
      SameFilter(es, Within(clock.midnight(0), clock.midnight(1)), OnOrAfter(clock.startOfToday));
    }
  }

  /** Filters that agree on every element give the same result. */
  lemma {:induction false} SameFilter(es: seq<Expense>, p: Expense -> bool, q: Expense -> bool)
    requires forall e :: e in es ==> p(e) == q(e)
    ensures Filter(es, p) == Filter(es, q)
    decreases |es|
  {
    if |es| > 0 {
      assert forall e :: e in es[..|es| - 1] ==> e in es;
      SameFilter(es[..|es| - 1], p, q);
      assert es[|es| - 1] in es;
    }
  }

  // ----------------------------------------------------------------- top tags

  datatype TagStat = TagStat(name: string, count: nat, amount: real)

  function StatCount(x: TagStat): real { x.count as real }

  function StatName(x: TagStat): string { x.name }

  /** `Array.from(tagMap.entries()).map(([name, data]) => ({ name, ...data }))`. */
  function Stats(bs: seq<Bucket>): seq<TagStat> {
    seq(|bs|, i requires 0 <= i < |bs| => TagStat(bs[i].key, bs[i].count, bs[i].amount))
  }

  /** `topTags`: the three tags used most often, most used first, each with
      its number of uses and the amount of the expenses carrying it. */
  function TopTags(es: seq<Expense>): (r: seq<TagStat>)
    ensures |r| == if |TagNames(es)| < 3 then |TagNames(es)| else 3
    ensures forall i, j :: 0 <= i < j < |r| ==> r[i].name != r[j].name
    ensures SortedDesc(r, StatCount)
    ensures forall x :: x in r ==>
      x.name in TagNames(es) && x.count == TagOccurrences(es, x.name) && x.amount == TagAmount(es, x.name)
  {
    TopStatsShape(es);
    TopStatsMeaning(es);
    Take(SortDesc(Stats(GroupByTags(es)), StatCount), 3)
  }

  /** Each of the first three sorted stats is a tag's own stat. */
  lemma TopStatsMeaning(es: seq<Expense>)
    ensures forall x :: x in Take(SortDesc(Stats(GroupByTags(es)), StatCount), 3) ==>
      x.name in TagNames(es) && x.count == TagOccurrences(es, x.name) && x.amount == TagAmount(es, x.name)
  {
    var stats := Stats(GroupByTags(es));
    StatsMeaning(es);
    var sorted := SortDesc(stats, StatCount);
    forall x | x in Take(sorted, 3) ensures x in stats {
      SortKeepsElements(stats, StatCount, x);
    }
  }

  /** The first three sorted stats: as many as there are tags, up to
      three, no name twice. */
  lemma TopStatsShape(es: seq<Expense>)
    ensures var top := Take(SortDesc(Stats(GroupByTags(es)), StatCount), 3);
      && |top| == (if |TagNames(es)| < 3 then |TagNames(es)| else 3)
      && forall i, j :: 0 <= i < j < |top| ==> top[i].name != top[j].name
  {
    var bs := GroupByTags(es);
    var stats := Stats(bs);
    BucketCount(bs);
    StatNamesDistinct(bs);
    var sorted := SortDesc(stats, StatCount);
    PermutationKeepsDistinctKeys(stats, sorted, StatName);
    TakeKeepsDistinctKeys(sorted, 3, StatName);
  }

  /** Buckets with distinct keys give stats with distinct names. */
  lemma StatNamesDistinct(bs: seq<Bucket>)
    requires DistinctKeys(bs)
    ensures forall i, j :: 0 <= i < j < |Stats(bs)| ==> StatName(Stats(bs)[i]) != StatName(Stats(bs)[j])
  {
  }

  /** Each mapped bucket reports its tag's uses and amount. */
  lemma StatsMeaning(es: seq<Expense>)
    ensures forall x :: x in Stats(GroupByTags(es)) ==>
      x.name in TagNames(es) && x.count == TagOccurrences(es, x.name) && x.amount == TagAmount(es, x.name)
  {
    var bs := GroupByTags(es);
    forall i | 0 <= i < |bs| ensures bs[i].key in TagNames(es) {
      assert bs[i] in bs;
    }
    forall i | 0 <= i < |bs|
      ensures bs[i].count == TagOccurrences(es, bs[i].key) && bs[i].amount == TagAmount(es, bs[i].key)
    {
      TagBucket(es, i);
    }
  }

  /** A tag left out of the top three is used no more often than any tag in
      it. */
  lemma TopTagsBeatOthers(es: seq<Expense>, t: string)
    requires t in TagNames(es)
    requires forall x :: x in TopTags(es) ==> x.name != t
    ensures forall x :: x in TopTags(es) ==> x.count >= TagOccurrences(es, t)
  {
    var j := SortedStatOf(es, t);
    LeftOutSitsLater(es, t, j);
    TopBeatLater(Stats(GroupByTags(es)), j);
  }

  /** Each of the first three sorted stats counts at least as many uses as
      the stat at a later position `j`. */
  lemma TopBeatLater(stats: seq<TagStat>, j: nat)
    requires |Take(SortDesc(stats, StatCount), 3)| <= j < |SortDesc(stats, StatCount)|
    ensures forall x :: x in Take(SortDesc(stats, StatCount), 3) ==>
      x.count >= SortDesc(stats, StatCount)[j].count
  {
    var top := Take(SortDesc(stats, StatCount), 3);
    forall x | x in top ensures x.count >= SortDesc(stats, StatCount)[j].count {
      var i :| 0 <= i < |top| && top[i] == x;
      TopCountAtLeast(stats, i, j);
    }
  }

  /** A stat whose tag is not among the top three sits after them. */
  lemma LeftOutSitsLater(es: seq<Expense>, t: string, j: nat)
    requires forall x :: x in TopTags(es) ==> x.name != t
    requires j < |SortDesc(Stats(GroupByTags(es)), StatCount)|
    requires SortDesc(Stats(GroupByTags(es)), StatCount)[j].name == t
    ensures j >= |TopTags(es)|
  {
  }

  /** Where a used tag's stat sits once the stats are sorted. */
  lemma SortedStatOf(es: seq<Expense>, t: string) returns (j: nat)
    requires t in TagNames(es)
    ensures var sorted := SortDesc(Stats(GroupByTags(es)), StatCount);
      j < |sorted| && sorted[j].name == t && sorted[j].count == TagOccurrences(es, t)
  {
    var bs := GroupByTags(es);
    var stats := Stats(bs);
    var sorted := SortDesc(stats, StatCount);
    KeyIndexInKeySet(bs, t);
    var k := KeyIndex(bs, t);
    TagBucket(es, k);
    var st := stats[k];
    SortKeepsElements(stats, StatCount, st);
    j :| 0 <= j < |sorted| && sorted[j] == st;
  }

  /** In the sorted stats, each of the first three counts at least as many
      uses as any stat after them. */
  lemma TopCountAtLeast(stats: seq<TagStat>, i: nat, j: nat)
    requires i < |Take(SortDesc(stats, StatCount), 3)| <= j < |SortDesc(stats, StatCount)|
    ensures Take(SortDesc(stats, StatCount), 3)[i].count >= SortDesc(stats, StatCount)[j].count
  {
    TopIsLargest(stats, StatCount, 3, i, j);
  }

  // --------------------------------------------------------------- the whole

  datatype DashboardData = DashboardData(
    totalExpenses: real,
    thisMonthExpenses: real,
    lastMonthExpenses: real,
    todayExpenses: real,
    categoryBreakdown: seq<BreakdownEntry>,
    dailyTrend: seq<TrendPoint>,
    topTags: seq<TagStat>)

  /** `getDashboardData()` over the stored expenses and categories. */
  method GetDashboardData(es: seq<Expense>, categories: seq<Category>, clock: Clock) returns (d: DashboardData)
    ensures d.totalExpenses == Total(es)
    ensures d.thisMonthExpenses == ThisMonth(es, clock)
    ensures d.lastMonthExpenses == LastMonth(es, clock)
    ensures d.todayExpenses == Today(es, clock)
    ensures d.categoryBreakdown == Breakdown(es, categories)
    ensures SumOf(d.categoryBreakdown, EntryAmount) == d.totalExpenses
    ensures |d.dailyTrend| == 7
    ensures forall k :: 0 <= k < 7 ==> d.dailyTrend[k].amount == DayAmount(es, clock, k - 6)
    ensures d.topTags == TopTags(es)
  {
    var trend := DailyTrend(es, clock);
    d := DashboardData(Total(es), ThisMonth(es, clock), LastMonth(es, clock), Today(es, clock),
      Breakdown(es, categories), trend, TopTags(es));
  }
}

=== FILE: grouping.dfy ===
/** The application accumulates per-key totals in a JavaScript `Map` (or a
    plain object): `map.set(k, (map.get(k) || 0) + x)`. A `Map` keeps its keys
    in first-insertion order, so it is modelled as a sequence of buckets with
    distinct keys, a new key being appended at the end. Each bucket carries
    the running amount and the number of contributions. */
module Grouping {
  import opened Seqs

  datatype Bucket = Bucket(key: string, amount: real, count: nat)

  function BucketAmount(b: Bucket): real { b.amount }

  function BucketKey(b: Bucket): string { b.key }

  /** `map.has(k)` / the position of `k`, or -1 when absent. */
  function KeyIndex(bs: seq<Bucket>, k: string): (i: int)
    ensures -1 <= i < |bs|
    ensures i >= 0 ==> bs[i].key == k
    ensures i < 0 <==> forall j :: 0 <= j < |bs| ==> bs[j].key != k
    decreases |bs|
  {
    if |bs| == 0 then -1
    else if bs[|bs| - 1].key == k then |bs| - 1
    else KeyIndex(bs[..|bs| - 1], k)
  }

  predicate DistinctKeys(bs: seq<Bucket>) {
    forall i, j :: 0 <= i < j < |bs| ==> bs[i].key != bs[j].key
  }

  function KeySet(bs: seq<Bucket>): set<string> {
    set b | b in bs :: b.key
  }

  /** `map.get(k) || 0` for the amount. */
  function AmountOf(bs: seq<Bucket>, k: string): real {
    var i := KeyIndex(bs, k);
    if i < 0 then 0.0 else bs[i].amount
  }

  /** The number of contributions recorded for `k` (0 when absent). */
  function CountOf(bs: seq<Bucket>, k: string): nat {
    var i := KeyIndex(bs, k);
    if i < 0 then 0 else bs[i].count
  }

  /** One `map.set(k, current + a)` step: bump the bucket of `k` or append a
      new one. */
  function AddTo(bs: seq<Bucket>, k: string, a: real): (r: seq<Bucket>)
    ensures KeyIndex(bs, k) < 0 ==> r == bs + [Bucket(k, a, 1)]
    ensures KeyIndex(bs, k) >= 0 ==> |r| == |bs|
    ensures forall j :: 0 <= j < |bs| ==> r[j].key == bs[j].key
  {
    var i := KeyIndex(bs, k);
    if i < 0 then bs + [Bucket(k, a, 1)]
    else bs[i := Bucket(k, bs[i].amount + a, bs[i].count + 1)]
  }

  /** In a bucket list with distinct keys, each bucket is the one found by
      looking its key up. */
  lemma LookupDistinct(bs: seq<Bucket>, i: nat)
    requires DistinctKeys(bs) && i < |bs|
    ensures KeyIndex(bs, bs[i].key) == i
    ensures AmountOf(bs, bs[i].key) == bs[i].amount
    ensures CountOf(bs, bs[i].key) == bs[i].count
  {
    var j := KeyIndex(bs, bs[i].key);
    assert j >= 0;
  }

  lemma KeyIndexInKeySet(bs: seq<Bucket>, k: string)
    ensures KeyIndex(bs, k) >= 0 <==> k in KeySet(bs)
  {
    if k in KeySet(bs) {
      var b :| b in bs && b.key == k;
      var j :| 0 <= j < |bs| && bs[j] == b;
      assert bs[j].key == k;
    }
  }

  /** One step keeps the keys distinct and adds `k` to the key set. */
  lemma AddToKeys(bs: seq<Bucket>, k: string, a: real)
    requires DistinctKeys(bs)
    ensures DistinctKeys(AddTo(bs, k, a))
    ensures KeySet(AddTo(bs, k, a)) == KeySet(bs) + {k}
  {
    var r := AddTo(bs, k, a);
    var i := KeyIndex(bs, k);
    if i < 0 {
      KeyIndexInKeySet(bs, k);
      assert KeySet(r) == KeySet(bs) + {k} by {
        assert forall b :: b in r <==> b in bs || b == Bucket(k, a, 1);
      }
    } else {
      assert DistinctKeys(r) by {
        forall p, q | 0 <= p < q < |r| ensures r[p].key != r[q].key {
          assert r[p].key == bs[p].key && r[q].key == bs[q].key;
        }
      }
      assert KeySet(r) == KeySet(bs) by {
        forall b | b in r ensures b.key in KeySet(bs) {
          var j :| 0 <= j < |r| && r[j] == b;
          assert bs[j] in bs;
        }
        forall b | b in bs ensures b.key in KeySet(r) {
          var j :| 0 <= j < |bs| && bs[j] == b;
          assert r[j] in r;
        }
      }
      assert k in KeySet(bs) by {
        assert bs[i] in bs;
      }
    }
  }

  /** One step adds `a` and one contribution to `k`'s lookups and leaves
      every other key's alone. */
  lemma AddToLookups(bs: seq<Bucket>, k: string, a: real)
    requires DistinctKeys(bs)
    ensures forall k' :: AmountOf(AddTo(bs, k, a), k') == AmountOf(bs, k') + (if k' == k then a else 0.0)
    ensures forall k' :: CountOf(AddTo(bs, k, a), k') == CountOf(bs, k') + (if k' == k then 1 else 0)
  {
    var r := AddTo(bs, k, a);
    var i := KeyIndex(bs, k);
    AddToKeys(bs, k, a);
    forall k' ensures AmountOf(r, k') == AmountOf(bs, k') + (if k' == k then a else 0.0)
              && CountOf(r, k') == CountOf(bs, k') + (if k' == k then 1 else 0) {
      if i < 0 {
        if k' != k {
          assert r[..|r| - 1] == bs;
          assert KeyIndex(r, k') == KeyIndex(bs, k');
        }
      } else {
        var j := KeyIndex(bs, k');
        if j >= 0 {
          LookupDistinct(bs, j);
          LookupDistinct(r, j);
          if k' == k {
            assert j == i;
          }
        } else {
          KeyIndexInKeySet(bs, k');
          KeyIndexInKeySet(r, k');
        }
      }
    }
  }

  /** One step adds `a` to the total, and every bucket it creates or bumps
      counts at least one contribution. */
  lemma AddToSum(bs: seq<Bucket>, k: string, a: real)
    ensures SumOf(AddTo(bs, k, a), BucketAmount) == SumOf(bs, BucketAmount) + a
    ensures forall b :: b in AddTo(bs, k, a) ==> b.count >= 1 || b in bs
  {
    var r := AddTo(bs, k, a);
    var i := KeyIndex(bs, k);
    if i < 0 {
      SumOfConcat(bs, [Bucket(k, a, 1)], BucketAmount);
      SumOfSingle(Bucket(k, a, 1), BucketAmount);
    } else {
      SplitAt(bs, i, BucketAmount);
      SplitAt(r, i, BucketAmount);
      assert bs[..i] + bs[i + 1..] == r[..i] + r[i + 1..];
    }
  }

  /** `names.forEach(k => map.set(k, current + a))`: every name contributes
      the same amount once per occurrence. */
  function AddAll(bs: seq<Bucket>, names: seq<string>, a: real): (r: seq<Bucket>)
    requires DistinctKeys(bs)
    ensures DistinctKeys(r)
    ensures KeySet(r) == KeySet(bs) + Elems(names)
    ensures forall k :: CountOf(r, k) == CountOf(bs, k) + Count(names, k)
    ensures forall k :: AmountOf(r, k) == AmountOf(bs, k) + Times(Count(names, k), a)
    ensures forall b :: b in r ==> b.count >= 1 || b in bs
    decreases |names|
  {
    if |names| == 0 then bs
    else
      var prev := AddAll(bs, names[..|names| - 1], a);
      AddAllStep(bs, names, a, prev);
      AddTo(prev, names[|names| - 1], a)
  }

  /** The last name's step, given what the earlier names did. */
  lemma AddAllStep(bs: seq<Bucket>, names: seq<string>, a: real, prev: seq<Bucket>)
    requires |names| > 0 && DistinctKeys(prev)
    requires KeySet(prev) == KeySet(bs) + Elems(names[..|names| - 1])
    requires forall k :: CountOf(prev, k) == CountOf(bs, k) + Count(names[..|names| - 1], k)
    requires forall k :: AmountOf(prev, k) == AmountOf(bs, k) + Times(Count(names[..|names| - 1], k), a)
    requires forall b :: b in prev ==> b.count >= 1 || b in bs
    ensures DistinctKeys(AddTo(prev, names[|names| - 1], a))
    ensures KeySet(AddTo(prev, names[|names| - 1], a)) == KeySet(bs) + Elems(names)
    ensures forall k :: CountOf(AddTo(prev, names[|names| - 1], a), k) == CountOf(bs, k) + Count(names, k)
    ensures forall k :: AmountOf(AddTo(prev, names[|names| - 1], a), k) == AmountOf(bs, k) + Times(Count(names, k), a)
    ensures forall b :: b in AddTo(prev, names[|names| - 1], a) ==> b.count >= 1 || b in bs
  {
    var last := names[|names| - 1];
    var init := names[..|names| - 1];
    AddToKeys(prev, last, a);
    AddToSum(prev, last, a);
    assert names == init + [last];
    assert Elems(names) == Elems(init) + {last};
    AddAllStepLookups(bs, names, a, prev);
  }

  /** The lookups after the last name's step. */
  lemma AddAllStepLookups(bs: seq<Bucket>, names: seq<string>, a: real, prev: seq<Bucket>)
    requires |names| > 0 && DistinctKeys(prev)
    requires forall k :: CountOf(prev, k) == CountOf(bs, k) + Count(names[..|names| - 1], k)
    requires forall k :: AmountOf(prev, k) == AmountOf(bs, k) + Times(Count(names[..|names| - 1], k), a)
    ensures forall k :: CountOf(AddTo(prev, names[|names| - 1], a), k) == CountOf(bs, k) + Count(names, k)
    ensures forall k :: AmountOf(AddTo(prev, names[|names| - 1], a), k) == AmountOf(bs, k) + Times(Count(names, k), a)
  {
    var last := names[|names| - 1];
    var init := names[..|names| - 1];
    AddToLookups(prev, last, a);
    forall k ensures AmountOf(AddTo(prev, last, a), k) == AmountOf(bs, k) + Times(Count(names, k), a) {
      assert Count(names, k) == Count(init, k) + (if last == k then 1 else 0);
    }
  }

  /** Distinct keys give as many buckets as there are keys. */
  lemma BucketCount(bs: seq<Bucket>)
    requires DistinctKeys(bs)
    ensures |KeySet(bs)| == |bs|
  {
    var keys := seq(|bs|, j requires 0 <= j < |bs| => bs[j].key);
    assert Distinct(keys);
    DistinctCardinality(keys);
    assert Elems(keys) == KeySet(bs) by {
      forall k | k in KeySet(bs) ensures k in Elems(keys) {
        var b :| b in bs && b.key == k;
        var j :| 0 <= j < |bs| && bs[j] == b;
        assert keys[j] == k;
      }
    }
  }
}

=== FILE: icons.dfy ===
/** The glyph a category icon name stands for. The recent-expenses list and
    the category table each hold the same twelve-entry table, falling back
    to a circle for any other name. */
module Icons {
  import opened Wrappers
  import opened Model

  datatype Glyph =
    | Utensils | Car | ShoppingBag | Receipt | Film | Heart | Book | Plane
    | Home | Gamepad2 | Dumbbell | Coffee | Circle

  /** `iconMap`. */
  const IconMap: map<string, Glyph> := map[
    "utensils" := Utensils, "car" := Car, "shopping-bag" := ShoppingBag,
    "receipt" := Receipt, "film" := Film, "heart" := Heart, "book" := Book,
    "plane" := Plane, "home" := Home, "gamepad" := Gamepad2,
    "dumbbell" := Dumbbell, "coffee" := Coffee]

  /** `iconMap[iconName] || Icons.Circle`. */
  function IconFor(name: string): (g: Glyph)
    ensures name in IconMap ==> g == IconMap[name]
    ensures g == Circle <==> name !in IconMap
  {
    if name in IconMap then IconMap[name] else Circle
  }

  /** The table's name for each glyph; the fallback is asked for as
      `'circle'`. */
  function NameOf(g: Glyph): string {
    match g
    case Utensils => "utensils"
    case Car => "car"
    case ShoppingBag => "shopping-bag"
    case Receipt => "receipt"
    case Film => "film"
    case Heart => "heart"
    case Book => "book"
    case Plane => "plane"
    case Home => "home"
    case Gamepad2 => "gamepad"
    case Dumbbell => "dumbbell"
    case Coffee => "coffee"
    case Circle => "circle"
  }

  /** The table is one-to-one: every name in it comes back from its glyph,
      and every glyph but the fallback comes back from its name. */
  lemma IconRoundTrip(name: string, g: Glyph)
    ensures name in IconMap ==> NameOf(IconFor(name)) == name
    ensures g != Circle ==> NameOf(g) in IconMap && IconFor(NameOf(g)) == g
    ensures IconFor(NameOf(Circle)) == Circle
  {
  }

  /** `getIconComponent(category?.icon || 'circle')`: a missing category or
      an empty icon name asks for `'circle'`, which is not in the table. */
  function CategoryGlyph(c: Option<Category>): (g: Glyph)
    ensures c.None? ==> g == Circle
    ensures c.Some? ==> g == IconFor(c.value.icon)
  {
    IconFor(if c.Some? && c.value.icon != "" then c.value.icon else "circle")
  }

  /** Each default category's icon name is in the table, so none of them
      falls back to the circle. */
  lemma DefaultCategoriesHaveGlyphs(loadedAt: int)
    ensures forall c :: c in DefaultCategories(loadedAt) ==> CategoryGlyph(Some(c)) != Circle
  {
  }
}

=== FILE: insights.dfy ===
/** The insight cards of the dashboard (components/SpendingInsights.tsx): up
    to three remarks chosen, in a fixed order, from the daily average, the
    biggest category, a rising trend and the savings against last month. */
module Insights {
  import opened Seqs
  import opened Sorting
  import opened JsNumber
  import opened Dashboard
  import MonthlyComparison

  /** One insight and the figure its text shows. The message wording, the
      currency sign and `toFixed(0)` rounding are presentation. */
  datatype Insight =
    | DailyAverage(perDay: real)
    | TopCategory(category: string, percentage: Num)
    | Increasing
    | Saved(savings: real)

  /** The `type` each insight is drawn with. */
  function Tone(i: Insight): (t: string)
    ensures t in {"info", "warning", "error", "success"}
  {
    match i
    case DailyAverage(_) => "info"
    case TopCategory(_, _) => "warning"
    case Increasing => "error"
    case Saved(_) => "success"
  }

  /** The position of each kind in the order the candidates are pushed. */
  function Rank(i: Insight): nat {
    match i
    case DailyAverage(_) => 0
    case TopCategory(_, _) => 1
    case Increasing => 2
    case Saved(_) => 3
  }

  /** At most this many insights are shown. */
  const MaxShown: nat := 3

  /** `dailyTrend.slice(-3)`: the last three points, or all of them when
      there are fewer. */
  function LastThree(t: seq<TrendPoint>): (r: seq<TrendPoint>)
    ensures |r| == if |t| < 3 then |t| else 3
    ensures r == t[|t| - |r|..]
  {
    if |t| <= 3 then t else t[|t| - 3..]
  }

  /** The `every` test: each point spends at least what the one before it
      did. */
  predicate StepsUp(r: seq<TrendPoint>)
    decreases |r|
  {
    |r| <= 1 || (r[|r| - 2].amount <= r[|r| - 1].amount && StepsUp(r[..|r| - 1]))
  }

  /** The reference reading of "increasing": no point spends less than an
      earlier one. */
  predicate NonDecreasing(r: seq<TrendPoint>) {
    forall i, j :: 0 <= i < j < |r| ==> r[i].amount <= r[j].amount
  }

  /** Comparing neighbours is the same as comparing every earlier point. */
  lemma {:induction false} StepsUpIsNonDecreasing(r: seq<TrendPoint>)
    ensures StepsUp(r) <==> NonDecreasing(r)
    decreases |r|
  {
    if |r| > 1 {
      var init := r[..|r| - 1];
      StepsUpIsNonDecreasing(init);
      var n := |r| - 1;
      if StepsUp(r) {
        forall i, j | 0 <= i < j < |r| ensures r[i].amount <= r[j].amount {
          if j < n {
            assert init[i] == r[i] && init[j] == r[j];
          } else if i < n - 1 {
            assert init[i] == r[i] && init[n - 1] == r[n - 1];
          }
        }
      }
      if NonDecreasing(r) {
        forall i, j | 0 <= i < j < |init| ensures init[i].amount <= init[j].amount {
          assert init[i] == r[i] && init[j] == r[j];
        }
      }
    }
  }

  /** `isIncreasing && recentTrend.length > 1`, spelled out on the last
      points: at least two of them, and none of the last three below the
      one before it. */
  predicate Rising(t: seq<TrendPoint>) {
    var n := |t|;
    n >= 2 && t[n - 2].amount <= t[n - 1].amount && (n >= 3 ==> t[n - 3].amount <= t[n - 2].amount)
  }

  /** The spelled-out test is the `every` test over `slice(-3)`. */
  lemma RisingIsRecentStepsUp(t: seq<TrendPoint>)
    ensures Rising(t) <==> |LastThree(t)| > 1 && StepsUp(LastThree(t))
  {
    var r := LastThree(t);
    var n := |t|;
    if |r| == 3 {
      assert r[0] == t[n - 3] && r[1] == t[n - 2] && r[2] == t[n - 1];
      assert StepsUp(r) <==> r[1].amount <= r[2].amount && StepsUp(r[..2]);
      assert StepsUp(r[..2]) <==> r[0].amount <= r[1].amount;
    } else if |r| == 2 {
      assert r[0] == t[n - 2] && r[1] == t[n - 1];
      assert StepsUp(r) <==> r[0].amount <= r[1].amount && StepsUp(r[..1]);
    }
  }

  /** The daily average: this month's spending over the day of the month,
      `new Date().getDate()`. */
  function PerDay(d: DashboardData, dayOfMonth: nat): real
    requires dayOfMonth >= 1
  {
    d.thisMonthExpenses / dayOfMonth as real
  }

  /** The insight naming the first breakdown entry. It is pushed only when
      there is one; the placeholder for an empty breakdown is never pushed. */
  function TopCandidate(d: DashboardData): Insight {
    if |d.categoryBreakdown| > 0
    then TopCategory(d.categoryBreakdown[0].category, d.categoryBreakdown[0].percentage)
    else TopCategory("", NaN)
  }

  /** `[x]` when the condition holds, nothing otherwise: one `push`. */
  function When(b: bool, x: Insight): seq<Insight> {
    if b then [x] else []
  }

  /** The four `push` calls in source order, each under its condition. */
  function Pushes(p: bool, q: bool, u: bool, v: bool, x: Insight, y: Insight, w: Insight): seq<Insight> {
    When(p, x) + When(q, y) + When(u, Increasing) + When(v, w)
  }

  /** The four kinds a push list is made of, in rank order. */
  predicate Kinds(x: Insight, y: Insight, w: Insight) {
    x.DailyAverage? && y.TopCategory? && w.Saved?
  }

  /** Every candidate, in the order the source pushes them, given the daily
      average. */
  function Candidates(d: DashboardData, perDay: real): seq<Insight> {
    Pushes(perDay > 0.0, |d.categoryBreakdown| > 0, Rising(d.dailyTrend),
      d.thisMonthExpenses < d.lastMonthExpenses,
      DailyAverage(perDay), TopCandidate(d), Saved(d.lastMonthExpenses - d.thisMonthExpenses))
  }

  /** `generateInsights()`: the first three candidates. Every candidate
      before the savings one is always shown; the savings one only when
      fewer than three came before it. */
  function Generate(d: DashboardData, dayOfMonth: nat): (r: seq<Insight>)
    requires dayOfMonth >= 1
    ensures |r| <= MaxShown
    ensures Ranked(r)
    ensures Saved(d.lastMonthExpenses - d.thisMonthExpenses) in r <==>
      d.thisMonthExpenses < d.lastMonthExpenses
      && !(d.thisMonthExpenses > 0.0 && |d.categoryBreakdown| > 0 && Rising(d.dailyTrend))
    ensures forall x :: x in r ==>
      || (x == DailyAverage(PerDay(d, dayOfMonth)) && PerDay(d, dayOfMonth) > 0.0)
      || (x == TopCandidate(d) && |d.categoryBreakdown| > 0)
      || x == Increasing
      || (x == Saved(d.lastMonthExpenses - d.thisMonthExpenses) && d.thisMonthExpenses < d.lastMonthExpenses)
  {
    var perDay := PerDay(d, dayOfMonth);
    PerDaySign(d.thisMonthExpenses, dayOfMonth as real);
    ShownFirstThree(perDay > 0.0, |d.categoryBreakdown| > 0, Rising(d.dailyTrend),
      d.thisMonthExpenses < d.lastMonthExpenses,
      DailyAverage(perDay), TopCandidate(d), Saved(d.lastMonthExpenses - d.thisMonthExpenses));
    ShownOnlyPushed(perDay > 0.0, |d.categoryBreakdown| > 0, Rising(d.dailyTrend),
      d.thisMonthExpenses < d.lastMonthExpenses,
      DailyAverage(perDay), TopCandidate(d), Saved(d.lastMonthExpenses - d.thisMonthExpenses));
    Take(Candidates(d, perDay), MaxShown)
  }

  /** The daily average is shown exactly when anything was spent this month,
      and times the day of the month it gives this month's total back. */
  lemma DailyAverageShown(d: DashboardData, dayOfMonth: nat)
    requires dayOfMonth >= 1
    ensures DailyAverage(PerDay(d, dayOfMonth)) in Generate(d, dayOfMonth) <==> d.thisMonthExpenses > 0.0
    ensures PerDay(d, dayOfMonth) * dayOfMonth as real == d.thisMonthExpenses
  {
    var perDay := PerDay(d, dayOfMonth);
    PerDaySign(d.thisMonthExpenses, dayOfMonth as real);
    ShownFirstThree(perDay > 0.0, |d.categoryBreakdown| > 0, Rising(d.dailyTrend),
      d.thisMonthExpenses < d.lastMonthExpenses,
      DailyAverage(perDay), TopCandidate(d), Saved(d.lastMonthExpenses - d.thisMonthExpenses));
  }

  /** The biggest category is shown whenever there is one, and the rising
      trend exactly when the last days rose, whatever comes before them. */
  lemma FirstThreeAlwaysShown(d: DashboardData, dayOfMonth: nat)
    requires dayOfMonth >= 1
    ensures |d.categoryBreakdown| > 0 ==> TopCandidate(d) in Generate(d, dayOfMonth)
    ensures Increasing in Generate(d, dayOfMonth) <==> Rising(d.dailyTrend)
  {
    var perDay := PerDay(d, dayOfMonth);
    ShownFirstThree(perDay > 0.0, |d.categoryBreakdown| > 0, Rising(d.dailyTrend),
      d.thisMonthExpenses < d.lastMonthExpenses,
      DailyAverage(perDay), TopCandidate(d), Saved(d.lastMonthExpenses - d.thisMonthExpenses));
  }

  /** Taking three of the four pushes keeps each of the first three that was
      pushed, and the last one only when fewer than three came before it, in
      rank order. */
  lemma ShownFirstThree(p: bool, q: bool, u: bool, v: bool, x: Insight, y: Insight, w: Insight)
    requires Kinds(x, y, w)
    ensures var r := Take(Pushes(p, q, u, v, x, y, w), MaxShown);
      && |r| <= MaxShown
      && Ranked(r)
      && (x in r <==> p) && (y in r <==> q) && (Increasing in r <==> u)
      && (w in r <==> v && !(p && q && u))
  {
    var all := Pushes(p, q, u, v, x, y, w);
    var r := Take(all, MaxShown);
    if p && q && u {
      assert r == [x, y, Increasing];
    } else {
      assert r == all;
      PushesRanked(p, q, u, v, x, y, w);
      PushesMembers(p, q, u, v, x, y, w);
    }
  }

  /** Only pushed values are shown. */
  lemma ShownOnlyPushed(p: bool, q: bool, u: bool, v: bool, x: Insight, y: Insight, w: Insight)
    ensures forall e :: e in Take(Pushes(p, q, u, v, x, y, w), MaxShown) ==>
      (e == x && p) || (e == y && q) || (e == Increasing && u) || (e == w && v)
  {
    var all := Pushes(p, q, u, v, x, y, w);
    forall e | e in Take(all, MaxShown) ensures e in all {
    }
    PushesOnly(p, q, u, v, x, y, w);
  }

  /** Each of the four values is among the pushes exactly when it was
      pushed. */
  lemma PushesMembers(p: bool, q: bool, u: bool, v: bool, x: Insight, y: Insight, w: Insight)
    requires Kinds(x, y, w)
    ensures var r := Pushes(p, q, u, v, x, y, w);
      (x in r <==> p) && (y in r <==> q) && (Increasing in r <==> u) && (w in r <==> v)
  {
  }

  /** Nothing but the pushed values is among the pushes. */
  lemma PushesOnly(p: bool, q: bool, u: bool, v: bool, x: Insight, y: Insight, w: Insight)
    ensures forall e :: e in Pushes(p, q, u, v, x, y, w) ==>
      (e == x && p) || (e == y && q) || (e == Increasing && u) || (e == w && v)
  {
  }

  /** The pushes come in rank order. */
  lemma PushesRanked(p: bool, q: bool, u: bool, v: bool, x: Insight, y: Insight, w: Insight)
    requires Kinds(x, y, w)
    ensures Ranked(Pushes(p, q, u, v, x, y, w))
  {
    var a, b, c, d := When(p, x), When(q, y), When(u, Increasing), When(v, w);
    RankedConcat(a, b, 1);
    RanksBelow(a, b, 2);
    RankedConcat(a + b, c, 2);
    RanksBelow(a + b, c, 3);
    RankedConcat(a + b + c, d, 3);
  }

  /** Ranks strictly increase along the list. */
  predicate Ranked(r: seq<Insight>) {
    forall i, j :: 0 <= i < j < |r| ==> Rank(r[i]) < Rank(r[j])
  }

  /** Every rank in `r` is below `k`. */
  predicate RanksUnder(r: seq<Insight>, k: nat) {
    forall e :: e in r ==> Rank(e) < k
  }

  /** Two lists with every rank below `k` make one. */
  lemma RanksBelow(a: seq<Insight>, b: seq<Insight>, k: nat)
    requires RanksUnder(a, k) && RanksUnder(b, k)
    ensures RanksUnder(a + b, k)
  {
  }

  /** Two ranked lists, every rank of the first below `k` and every rank of
      the second at least `k`, make a ranked list. */
  lemma RankedConcat(a: seq<Insight>, b: seq<Insight>, k: nat)
    requires Ranked(a) && Ranked(b)
    requires RanksUnder(a, k) && forall f :: f in b ==> k <= Rank(f)
    ensures Ranked(a + b)
  {
    var r := a + b;
    forall i, j | 0 <= i < j < |r| ensures Rank(r[i]) < Rank(r[j]) {
      if j < |a| {
        assert r[i] == a[i] && r[j] == a[j];
      } else if i >= |a| {
        assert r[i] == b[i - |a|] && r[j] == b[j - |a|];
      } else {
        assert r[i] == a[i] && r[j] == b[j - |a|];
        assert a[i] in a && b[j - |a|] in b;
      }
    }
  }

  /** The average over a positive number of days has the sign of the total,
      and times the days gives the total back. */
  lemma PerDaySign(total: real, n: real)
    requires n >= 1.0
    ensures total / n > 0.0 <==> total > 0.0
    ensures total / n * n == total
  {
    var q := total / n;
    assert q * n == total;
    if q > 0.0 {
      assert q * n > 0.0;
    }
  }

  /** The empty-state card shows exactly when no candidate applies. */
  lemma EmptyExactlyWhenNothingApplies(d: DashboardData, dayOfMonth: nat)
    requires dayOfMonth >= 1
    ensures |Generate(d, dayOfMonth)| == 0 <==>
      d.thisMonthExpenses <= 0.0 && |d.categoryBreakdown| == 0
      && !Rising(d.dailyTrend) && d.thisMonthExpenses >= d.lastMonthExpenses
  {
    PerDaySign(d.thisMonthExpenses, dayOfMonth as real);
  }

  /** The shown category is the biggest: no breakdown entry spends more. */
  lemma TopCategoryIsLargest(es: seq<Model.Expense>, categories: seq<Model.Category>, k: nat)
    requires 0 < k < |Breakdown(es, categories)|
    ensures Breakdown(es, categories)[k].amount <= Breakdown(es, categories)[0].amount
  {
  }

  /** On the dashboard's seven-day trend, "increasing" compares the last
      three days: the day before yesterday, yesterday and today. */
  lemma RisingOverWeek(t: seq<TrendPoint>)
    requires |t| == 7
    ensures Rising(t) <==> t[4].amount <= t[5].amount <= t[6].amount
  {
  }

  /** The savings insight appears among the candidates exactly when the
      month-on-month card shows spending going down. */
  lemma SavedMatchesComparison(d: DashboardData, perDay: real)
    ensures Saved(d.lastMonthExpenses - d.thisMonthExpenses) in Candidates(d, perDay) <==>
      MonthlyComparison.Compare(d.thisMonthExpenses, d.lastMonthExpenses).trend == MonthlyComparison.Down
  {
    PushesMembers(perDay > 0.0, |d.categoryBreakdown| > 0, Rising(d.dailyTrend),
      d.thisMonthExpenses < d.lastMonthExpenses,
      DailyAverage(perDay), TopCandidate(d), Saved(d.lastMonthExpenses - d.thisMonthExpenses));
  }
}

=== FILE: jsnum.dfy ===
/** The part of JavaScript number semantics the application relies on when it
    divides without guarding the divisor: a quotient may be infinite or NaN,
    and `Math.min` / comparisons treat those values specially. Finite values
    are exact reals; floating-point rounding is not modelled. */
module JsNumber {

  datatype Num = Fin(v: real) | NaN | PosInf | NegInf

  /** `a / b` for finite `a` and `b`: a non-zero divisor gives the exact
      quotient; a zero divisor gives a signed infinity, or NaN for `0 / 0`. */
  function Div(a: real, b: real): (r: Num)
    ensures b != 0.0 ==> r == Fin(a / b)
    ensures b == 0.0 ==> (r == NaN <==> a == 0.0)
    ensures b == 0.0 && a > 0.0 ==> r == PosInf
    ensures b == 0.0 && a < 0.0 ==> r == NegInf
  {
    if b != 0.0 then Fin(a / b)
    else if a > 0.0 then PosInf
    else if a < 0.0 then NegInf
    else NaN
  }

  /** `n * k` for a positive finite factor `k`. */
  function Scale(n: Num, k: real): (r: Num)
    requires k > 0.0
    ensures r.Fin? <==> n.Fin?
    ensures n.Fin? ==> r.v == n.v * k
    ensures !n.Fin? ==> r == n
  {
    match n
    case Fin(x) => Fin(x * k)
    case _ => n
  }

  /** `n < m` under IEEE ordering (always false when either side is NaN). */
  predicate Less(n: Num, m: Num) {
    match (n, m)
    case (NaN, _) => false
    case (_, NaN) => false
    case (Fin(x), Fin(y)) => x < y
    case (NegInf, NegInf) => false
    case (NegInf, _) => true
    case (_, PosInf) => m != n
    case (_, _) => false
  }

  /** `Math.min(n, m)`: NaN when either argument is NaN, else the smaller. */
  function Min(n: Num, m: Num): (r: Num)
    ensures (n == NaN || m == NaN) <==> r == NaN
    ensures r != NaN ==> (r == n || r == m) && !Less(n, r) && !Less(m, r)
  {
    if n == NaN || m == NaN then NaN
    else if Less(m, n) then m
    else n
  }

  /** `n >= x` for a finite right-hand side (false for NaN). */
  predicate AtLeast(n: Num, x: real) {
    match n
    case Fin(y) => y >= x
    case PosInf => true
    case NegInf => false
    case NaN => false
  }

  /** `n > x` for a finite right-hand side (false for NaN). */
  predicate Above(n: Num, x: real) {
    match n
    case Fin(y) => y > x
    case PosInf => true
    case NegInf => false
    case NaN => false
  }

  /** Capping with `Math.min(c, n)` can never yield a value above `c`,
      whatever `n` is — NaN and +Infinity included. */
  lemma MinCapNeverAbove(c: real, n: Num)
    ensures !Above(Min(Fin(c), n), c)
  {
  }
}

=== FILE: ledger.dfy ===
/** Reference quantities over a list of expenses — totals per category and
    per tag — and the two groupings the application builds with a `Map`:
    by category id and by tag name. */
module Ledger {
  import opened Seqs
  import opened Grouping
  import opened Model

  function Amount(e: Expense): real { e.amount }

  /** `expenses.reduce((sum, e) => sum + e.amount, 0)`. */
  function Total(es: seq<Expense>): real {
    SumOf(es, Amount)
  }

  /** The category ids that occur in `es`. */
  function CategoryIds(es: seq<Expense>): set<string> {
    set e | e in es :: e.category
  }

  /** Sum of the amounts of the expenses filed under category `c`. */
  function CategorySum(es: seq<Expense>, c: string): real {
    if |es| == 0 then 0.0
    else CategorySum(es[..|es| - 1], c) + (if es[|es| - 1].category == c then es[|es| - 1].amount else 0.0)
  }

  /** Number of expenses filed under category `c`. */
  function CategoryCount(es: seq<Expense>, c: string): nat {
    if |es| == 0 then 0
    else CategoryCount(es[..|es| - 1], c) + (if es[|es| - 1].category == c then 1 else 0)
  }

  /** Number of times the name `t` appears in the tag lists of `es`. */
  function TagOccurrences(es: seq<Expense>, t: string): nat {
    if |es| == 0 then 0
    else TagOccurrences(es[..|es| - 1], t) + Count(es[|es| - 1].tags, t)
  }

  /** Sum of the amounts of the expenses carrying `t`, counted once per
      occurrence of `t` in an expense's tag list. */
  function TagAmount(es: seq<Expense>, t: string): real {
    if |es| == 0 then 0.0
    else TagAmount(es[..|es| - 1], t) + Times(Count(es[|es| - 1].tags, t), es[|es| - 1].amount)
  }

  /** The tag names that occur in `es`. */
  function TagNames(es: seq<Expense>): set<string> {
    set e, t | e in es && t in e.tags :: t
  }

  /** `es.forEach(e => map.set(e.category, (map.get(e.category) || 0) + e.amount))`:
      one bucket per category id, in order of first appearance, holding the
      category's sum and its number of expenses. */
  function GroupByCategory(es: seq<Expense>): (bs: seq<Bucket>)
    ensures DistinctKeys(bs)
    ensures KeySet(bs) == CategoryIds(es)
    ensures forall c :: AmountOf(bs, c) == CategorySum(es, c)
    ensures forall c :: CountOf(bs, c) == CategoryCount(es, c)
    ensures SumOf(bs, BucketAmount) == Total(es)
    ensures forall b :: b in bs ==> b.count >= 1
    decreases |es|
  {
    if |es| == 0 then []
    else
      var prev := GroupByCategory(es[..|es| - 1]);
      GroupByCategoryStep(es, prev);
      AddTo(prev, es[|es| - 1].category, es[|es| - 1].amount)
  }

  /** Adding the last expense to the grouping of the earlier ones. */
  lemma GroupByCategoryStep(es: seq<Expense>, prev: seq<Bucket>)
    requires |es| > 0 && DistinctKeys(prev)
    requires KeySet(prev) == CategoryIds(es[..|es| - 1])
    requires forall c :: AmountOf(prev, c) == CategorySum(es[..|es| - 1], c)
    requires forall c :: CountOf(prev, c) == CategoryCount(es[..|es| - 1], c)
    requires SumOf(prev, BucketAmount) == Total(es[..|es| - 1])
    requires forall b :: b in prev ==> b.count >= 1
    ensures var bs := AddTo(prev, es[|es| - 1].category, es[|es| - 1].amount);
      && DistinctKeys(bs)
      && KeySet(bs) == CategoryIds(es)
      && (forall c :: AmountOf(bs, c) == CategorySum(es, c))
      && (forall c :: CountOf(bs, c) == CategoryCount(es, c))
      && SumOf(bs, BucketAmount) == Total(es)
      && (forall b :: b in bs ==> b.count >= 1)
  {
    var e := es[|es| - 1];
    var init := es[..|es| - 1];
    AddToKeys(prev, e.category, e.amount);
    AddToSum(prev, e.category, e.amount);
    CategoryIdsStep(es);
    assert Total(es) == Total(init) + e.amount;
    GroupByCategoryLookups(es, prev);
  }

  /** The last expense adds its category id to those of the earlier ones. */
  lemma CategoryIdsStep(es: seq<Expense>)
    requires |es| > 0
    ensures CategoryIds(es) == CategoryIds(es[..|es| - 1]) + {es[|es| - 1].category}
  {
    assert es == es[..|es| - 1] + [es[|es| - 1]];
  }

  /** The lookups after adding the last expense. */
  lemma GroupByCategoryLookups(es: seq<Expense>, prev: seq<Bucket>)
    requires |es| > 0 && DistinctKeys(prev)
    requires forall c :: AmountOf(prev, c) == CategorySum(es[..|es| - 1], c)
    requires forall c :: CountOf(prev, c) == CategoryCount(es[..|es| - 1], c)
    ensures var bs := AddTo(prev, es[|es| - 1].category, es[|es| - 1].amount);
      && (forall c :: AmountOf(bs, c) == CategorySum(es, c))
      && (forall c :: CountOf(bs, c) == CategoryCount(es, c))
  {
    var e := es[|es| - 1];
    var init := es[..|es| - 1];
    AddToLookups(prev, e.category, e.amount);
    var bs := AddTo(prev, e.category, e.amount);
    forall c ensures AmountOf(bs, c) == CategorySum(es, c) && CountOf(bs, c) == CategoryCount(es, c) {
      assert CategorySum(es, c) == CategorySum(init, c) + (if e.category == c then e.amount else 0.0);
    }
  }

  /** The nested `forEach` over every expense's tags: one bucket per tag name,
      in order of first appearance, holding the name's number of occurrences
      and the amounts of the expenses carrying it. */
  function GroupByTags(es: seq<Expense>): (bs: seq<Bucket>)
    ensures DistinctKeys(bs)
    ensures KeySet(bs) == TagNames(es)
    ensures forall t :: CountOf(bs, t) == TagOccurrences(es, t)
    ensures forall t :: AmountOf(bs, t) == TagAmount(es, t)
    ensures forall b :: b in bs ==> b.count >= 1
    decreases |es|
  {
    if |es| == 0 then []
    else
      var prev := GroupByTags(es[..|es| - 1]);
      var e := es[|es| - 1];
      assert es == es[..|es| - 1] + [e];
      assert TagNames(es) == TagNames(es[..|es| - 1]) + Elems(e.tags);
      AddAll(prev, e.tags, e.amount)
  }

  /** Every bucket of the category grouping reports its category's sum and
      count. */
  lemma CategoryBucket(es: seq<Expense>, i: nat)
    requires i < |GroupByCategory(es)|
    ensures GroupByCategory(es)[i].amount == CategorySum(es, GroupByCategory(es)[i].key)
    ensures GroupByCategory(es)[i].count == CategoryCount(es, GroupByCategory(es)[i].key)
    ensures GroupByCategory(es)[i].key in CategoryIds(es)
  {
    var bs := GroupByCategory(es);
    LookupDistinct(bs, i);
    assert bs[i] in bs;
  }

  /** Every bucket of the tag grouping reports its tag's occurrences and
      amount. */
  lemma TagBucket(es: seq<Expense>, i: nat)
    requires i < |GroupByTags(es)|
    ensures GroupByTags(es)[i].count == TagOccurrences(es, GroupByTags(es)[i].key)
    ensures GroupByTags(es)[i].amount == TagAmount(es, GroupByTags(es)[i].key)
  {
    LookupDistinct(GroupByTags(es), i);
  }

  /** The grouping has exactly one bucket per distinct category id. */
  lemma CategoryBucketCount(es: seq<Expense>)
    ensures |GroupByCategory(es)| == |CategoryIds(es)|
  {
    BucketCount(GroupByCategory(es));
  }
}

=== FILE: model.dfy ===
/** The records the expense tracker keeps (types/expense.ts) and the calendar
    boundaries its computations read from the local clock. Dates are integer
    millisecond timestamps; amounts are exact reals. */
module Model {
  import opened Wrappers
  import opened Seqs

  /** Milliseconds in one hour and in 24 hours. */
  const HourMillis: int := 60 * 60 * 1000
  const DayMillis: int := 24 * HourMillis

  datatype Expense = Expense(
    id: string,
    amount: real,
    category: string,        // a Category id; not enforced, may dangle
    note: Option<string>,
    tags: seq<string>,
    date: int,
    createdAt: int,
    updatedAt: int)

  datatype Category = Category(id: string, name: string, icon: string, color: string, createdAt: int)

  datatype Period = Weekly | Monthly | Yearly

  /** The string a budget period has at run time. */
  function PeriodName(p: Period): string {
    match p
    case Weekly => "weekly"
    case Monthly => "monthly"
    case Yearly => "yearly"
  }

  datatype Budget = Budget(
    id: string,
    categoryId: string,
    amount: real,
    period: Period,
    createdAt: int,
    updatedAt: int)

  datatype Tag = Tag(id: string, name: string, count: int, lastUsed: int)

  datatype Theme = Light | Dark | Auto

  datatype Settings = Settings(theme: Theme, currency: string, defaultCategories: bool, notifications: bool)

  /** The eight categories a fresh install starts with; `createdAt` is the
      moment the store module was loaded. */
  function DefaultCategories(loadedAt: int): seq<Category> {
    [ Category("1", "Food", "utensils", "#EF4444", loadedAt),
      Category("2", "Transport", "car", "#3B82F6", loadedAt),
      Category("3", "Shopping", "shopping-bag", "#8B5CF6", loadedAt),
      Category("4", "Bills", "receipt", "#F59E0B", loadedAt),
      Category("5", "Entertainment", "film", "#10B981", loadedAt),
      Category("6", "Health", "heart", "#EC4899", loadedAt),
      Category("7", "Education", "book", "#6366F1", loadedAt),
      Category("8", "Travel", "plane", "#14B8A6", loadedAt) ]
  }

  const DefaultSettings: Settings := Settings(Auto, "₹", true, true)

  /** The calendar boundaries the store derives from `new Date()` in local
      time. `midnight(d)` is the local midnight that starts the day `d` days
      after today (`midnight(0)` is the start of today, `midnight(1)` the start
      of tomorrow); `dayLabel(d)` is the label the trend shows for that day. */
  datatype Clock = Clock(
    now: int,
    startOfMonth: int,
    startOfLastMonth: int,
    endOfLastMonth: int,     // local midnight that STARTS the last day of the previous month
    startOfToday: int,
    startOfYear: int,
    midnight: int -> int,
    dayLabel: int -> string)

  /** The first category with the given id (`categories.find(c => c.id === id)`). */
  function FindCategory(categories: seq<Category>, id: string): (r: Option<Category>)
    ensures r.Some? ==> r.value in categories && r.value.id == id
    ensures r.Some? ==> exists i :: FirstAt(categories, CategoryHasId(id), i) && categories[i] == r.value
    ensures r.None? <==> forall c :: c in categories ==> c.id != id
  {
    if |categories| == 0 then None
    else if categories[0].id == id then
      assert FirstAt(categories, CategoryHasId(id), 0);
      Some(categories[0])
    else
      var r := FindCategory(categories[1..], id);
      assert r.Some? ==> exists i :: FirstAt(categories, CategoryHasId(id), i) && categories[i] == r.value by {
        if r.Some? {
          var i :| FirstAt(categories[1..], CategoryHasId(id), i) && categories[1..][i] == r.value;
          FirstAtTail(categories, CategoryHasId(id), i);
        }
      }
      r
  }

  function CategoryHasId(id: string): Category -> bool {
    (c: Category) => c.id == id
  }

  /** `category?.name || 'Unknown'`: a missing category, or one whose name is
      the empty string, shows as Unknown. */
  function DisplayName(c: Option<Category>): (r: string)
    ensures r != ""
    ensures r != "Unknown" ==> c.Some? && r == c.value.name
    ensures c.Some? && c.value.name != "" ==> r == c.value.name
    ensures c.None? || c.value.name == "" ==> r == "Unknown"
  {
    if c.Some? && c.value.name != "" then c.value.name else "Unknown"
  }

  /** `category?.color || fallback`. */
  function DisplayColor(c: Option<Category>, fallback: string): string {
    if c.Some? && c.value.color != "" then c.value.color else fallback
  }
}

=== FILE: monthlycomparison.dfy ===
/** The this-month versus last-month card of the dashboard
    (components/MonthlyComparison.tsx). */
module MonthlyComparison {
  import opened Model
  import opened Queries
  import opened Dashboard

  /** The trend icon and its colour: up in the error colour, down in the
      success colour, flat in the secondary text colour. */
  datatype Trend = Up | Down | Flat

  datatype Comparison = Comparison(difference: real, percentageChange: real, trend: Trend, subtext: string)

  /** `difference > 0 ? 'More' : difference < 0 ? 'Less' : 'Same'`. */
  function Subtext(difference: real): string {
    if difference > 0.0 then "More" else if difference < 0.0 then "Less" else "Same"
  }

  /** `getTrendIcon` (and `getTrendColor`, which tests the same signs). */
  function TrendOf(difference: real): Trend {
    if difference > 0.0 then Up else if difference < 0.0 then Down else Flat
  }

  /** The card's figures for this month's and last month's totals. */
  function Compare(thisMonth: real, lastMonth: real): (c: Comparison)
    ensures c.difference + lastMonth == thisMonth
    ensures lastMonth <= 0.0 ==> c.percentageChange == 0.0
    ensures lastMonth > 0.0 ==> c.percentageChange * lastMonth == c.difference * 100.0
    ensures c.trend == Up <==> thisMonth > lastMonth
    ensures c.trend == Down <==> thisMonth < lastMonth
    ensures c.trend == Flat <==> thisMonth == lastMonth
  {
    var difference := thisMonth - lastMonth;
    var pct := if lastMonth > 0.0 then difference / lastMonth * 100.0 else 0.0;
    Comparison(difference, pct, TrendOf(difference), Subtext(difference))
  }

  /** The subtext always agrees with the trend icon. */
  lemma SubtextMatchesTrend(thisMonth: real, lastMonth: real)
    ensures var c := Compare(thisMonth, lastMonth);
      (c.subtext == "More" <==> c.trend == Up)
      && (c.subtext == "Less" <==> c.trend == Down)
      && (c.subtext == "Same" <==> c.trend == Flat)
  {
  }

  /** With spending last month, the percentage has the sign of the change,
      and last month's total together with the percentage gives this month's
      total back. */
  lemma PercentageRecoversThisMonth(thisMonth: real, lastMonth: real)
    requires lastMonth > 0.0
    ensures var c := Compare(thisMonth, lastMonth);
      && lastMonth + lastMonth * c.percentageChange / 100.0 == thisMonth
      && (c.percentageChange > 0.0 <==> c.trend == Up)
      && (c.percentageChange < 0.0 <==> c.trend == Down)
  {
    var c := Compare(thisMonth, lastMonth);
    var d := thisMonth - lastMonth;
    assert c.percentageChange * lastMonth == d * 100.0;
    assert lastMonth * c.percentageChange / 100.0 == d;
    SignOfQuotient(d, lastMonth);
  }

  /** Dividing by a positive number and scaling by 100 keeps the sign. */
  lemma SignOfQuotient(d: real, l: real)
    requires l > 0.0
    ensures d / l * 100.0 > 0.0 <==> d > 0.0
    ensures d / l * 100.0 < 0.0 <==> d < 0.0
  {
    var q := d / l;
    assert q * l == d;
    SignOfProduct(q, l);
  }

  lemma SignOfProduct(q: real, l: real)
    requires l > 0.0
    ensures q * l > 0.0 <==> q > 0.0
    ensures q * l < 0.0 <==> q < 0.0
  {
  }

  /** The card as the dashboard feeds it: the difference is this month's
      total over last month's, and the trend follows the larger total. */
  function CompareMonths(es: seq<Expense>, clock: Clock): (c: Comparison)
    ensures c.difference == ThisMonth(es, clock) - LastMonth(es, clock)
    ensures c.trend == Up <==> ThisMonth(es, clock) > LastMonth(es, clock)
    ensures c.trend == Down <==> ThisMonth(es, clock) < LastMonth(es, clock)
  {
    Compare(ThisMonth(es, clock), LastMonth(es, clock))
  }

  /** An expense dated this month (or later) raises the difference by its
      amount. */
  lemma ThisMonthExpenseRaises(es: seq<Expense>, clock: Clock, e: Expense)
    requires clock.endOfLastMonth < clock.startOfMonth <= e.date
    ensures CompareMonths(es + [e], clock).difference == CompareMonths(es, clock).difference + e.amount
  {
    var es' := es + [e];
    assert es'[..|es'| - 1] == es;
    FilterStep(es', OnOrAfter(clock.startOfMonth));
    FilterStep(es', Between(clock.startOfLastMonth, clock.endOfLastMonth));
  }

  /** An expense made on the last day of last month after its first instant
      moves neither figure, so the card reads the same without it. */
  lemma LastDayExpenseIgnored(es: seq<Expense>, clock: Clock, e: Expense)
    requires clock.startOfLastMonth <= clock.endOfLastMonth < e.date < clock.startOfMonth
    ensures CompareMonths(es + [e], clock) == CompareMonths(es, clock)
  {
    var es' := es + [e];
    assert es'[..|es'| - 1] == es;
    FilterStep(es', OnOrAfter(clock.startOfMonth));
    FilterStep(es', Between(clock.startOfLastMonth, clock.endOfLastMonth));
  }
}

=== FILE: queries.dfy ===
/** The store's read-only queries other than the dashboard
    (store/useExpenseStore.ts): expenses in a date range, a category's
    spending over a period, budget progress, category suggestions and
    popular tags. */
module Queries {
  import opened Wrappers
  import opened Seqs
  import opened Sorting
  import opened JsNumber
  import opened Model
  import opened Ledger
  import opened Store

  /** The filter predicate "dated at or after `start`". */
  function OnOrAfter(start: int): Expense -> bool {
    (e: Expense) => e.date >= start
  }

  /** The filter predicate "dated between `start` and `end`, both included". */
  function Between(start: int, end: int): Expense -> bool {
    (e: Expense) => start <= e.date <= end
  }

  /** The filter predicate of `getCategoryExpenses`. */
  function InCategorySince(c: string, start: int): Expense -> bool {
    (e: Expense) => e.category == c && e.date >= start
  }

  // -------------------------------------------------------------- date range

  /** `getExpensesByDateRange`: the expenses dated within `[start, end]`, in
      their stored order. */
  function ExpensesByDateRange(es: seq<Expense>, start: int, end: int): (r: seq<Expense>)
    ensures forall e :: e in r <==> e in es && start <= e.date <= end
    ensures forall e :: multiset(r)[e] == if start <= e.date <= end then multiset(es)[e] else 0
    ensures start > end ==> r == []
  {
    FilterMembers(es, Between(start, end));
    FilterMultiset(es, Between(start, end));
    assert start > end ==> Filter(es, Between(start, end)) == [] by {
      if start > end {
        FilterNone(es, Between(start, end));
      }
    }
    Filter(es, Between(start, end))
  }

  /** The selection keeps the stored order: selecting from two consecutive
      runs of expenses is selecting from each and concatenating. */
  lemma DateRangeKeepsOrder(a: seq<Expense>, b: seq<Expense>, start: int, end: int)
    ensures ExpensesByDateRange(a + b, start, end) == ExpensesByDateRange(a, start, end) + ExpensesByDateRange(b, start, end)
  {
    FilterConcat(a, b, Between(start, end));
  }

  // -------------------------------------------------------- category periods

  /** The start of the window `getCategoryExpenses` sums over, selected by
      the period STRING it receives: "week" is the rolling seven days before
      now, "year" the calendar year, anything else the calendar month. */
  function WindowStart(clock: Clock, period: string): (t: int)
    ensures period == "week" ==> t == clock.now - 7 * DayMillis
    ensures period == "year" ==> t == clock.startOfYear
    ensures period != "week" && period != "year" ==> t == clock.startOfMonth
  {
    if period == "week" then clock.now - 7 * DayMillis
    else if period == "year" then clock.startOfYear
    else clock.startOfMonth
  }

  /** `getCategoryExpenses(c, period)`: what category `c` spent since the
      window start, i.e. its sum over the expenses dated in the window. */
  function CategoryExpenses(es: seq<Expense>, c: string, start: int): (r: real)
    ensures r == CategorySum(Filter(es, OnOrAfter(start)), c)
  {
    CategorySinceSum(es, c, start);
    SumOf(Filter(es, InCategorySince(c, start)), Amount)
  }

  /** Filtering by category and date then summing is the category sum of the
      expenses in the window. */
  lemma {:induction false} CategorySinceSum(es: seq<Expense>, c: string, start: int)
    ensures SumOf(Filter(es, InCategorySince(c, start)), Amount) == CategorySum(Filter(es, OnOrAfter(start)), c)
    decreases |es|
  {
    if |es| > 0 {
      var init := es[..|es| - 1];
      var e := es[|es| - 1];
      CategorySinceSum(init, c, start);
      var p := InCategorySince(c, start);
      var o := OnOrAfter(start);
      var kept := if p(e) then [e] else [];
      assert Filter(es, p) == Filter(init, p) + kept;
      SumOfConcat(Filter(init, p), kept, Amount);
      if p(e) {
        SumOfSingle(e, Amount);
      }
      var win := Filter(es, o);
      if o(e) {
        assert win == Filter(init, o) + [e];
        assert win[..|win| - 1] == Filter(init, o);
        assert CategorySum(win, c) == CategorySum(Filter(init, o), c) + (if e.category == c then e.amount else 0.0);
      } else {
        assert win == Filter(init, o);
      }
    }
  }

  /** With no negative amounts, a window's spending is between zero and the
      category's all-time sum. */
  lemma CategoryExpensesBounds(es: seq<Expense>, c: string, start: int)
    requires forall e :: e in es ==> e.amount >= 0.0
    ensures 0.0 <= CategoryExpenses(es, c, start) <= CategorySum(es, c)
  {
    var p := InCategorySince(c, start);
    SumOfFilterAtMost(Filter(es, (e: Expense) => e.category == c), p, Amount);
    SumOfNonNegative(Filter(es, p), Amount);
    CategorySumIsFilteredSum(es, c);
    FilterTwice(es, (e: Expense) => e.category == c, p);
  }

  /** A category sum is the sum over the category's expenses. */
  lemma {:induction false} CategorySumIsFilteredSum(es: seq<Expense>, c: string)
    ensures CategorySum(es, c) == SumOf(Filter(es, (e: Expense) => e.category == c), Amount)
    decreases |es|
  {
    if |es| > 0 {
      var init := es[..|es| - 1];
      var e := es[|es| - 1];
      CategorySumIsFilteredSum(init, c);
      var kept := if e.category == c then [e] else [];
      SumOfConcat(Filter(init, (e: Expense) => e.category == c), kept, Amount);
      if e.category == c {
        SumOfSingle(e, Amount);
      }
    }
  }

  /** Filtering by the category and then by `InCategorySince` is filtering
      by `InCategorySince` alone, which already demands the category. */
  lemma {:induction false} FilterTwice(es: seq<Expense>, q: Expense -> bool, p: Expense -> bool)
    requires forall e :: p(e) ==> q(e)
    ensures Filter(Filter(es, q), p) == Filter(es, p)
    decreases |es|
  {
    if |es| > 0 {
      var init := es[..|es| - 1];
      var e := es[|es| - 1];
      FilterTwice(init, q, p);
      if q(e) {
        var fq := Filter(es, q);
        assert fq == Filter(init, q) + [e];
        assert fq[..|fq| - 1] == Filter(init, q);
        assert fq[|fq| - 1] == e;
      } else {
        assert !p(e);
        assert Filter(es, q) == Filter(init, q);
      }
    }
  }

  // --------------------------------------------------------- budget progress

  /** What `getBudgetProgress` returns. The percentage is a JavaScript
      number: an unguarded division by a zero budget makes it NaN or
      Infinity before the cap. */
  datatype Progress = Progress(spent: real, remaining: real, percentage: Num)

  const NoProgress := Progress(0.0, 0.0, Fin(0.0))

  /** The first budget with the id (`budgets.find(b => b.id === id)`). */
  function FindBudget(budgets: seq<Budget>, id: string): (r: Option<Budget>)
    ensures r.Some? ==> r.value in budgets && r.value.id == id
    ensures r.Some? ==> exists i :: FirstAt(budgets, BudgetHasId(id), i) && budgets[i] == r.value
    ensures r.None? <==> forall b :: b in budgets ==> b.id != id
  {
    if |budgets| == 0 then None
    else if budgets[0].id == id then
      assert FirstAt(budgets, BudgetHasId(id), 0);
      Some(budgets[0])
    else
      var r := FindBudget(budgets[1..], id);
      assert r.Some? ==> exists i :: FirstAt(budgets, BudgetHasId(id), i) && budgets[i] == r.value by {
        if r.Some? {
          var i :| FirstAt(budgets[1..], BudgetHasId(id), i) && budgets[1..][i] == r.value;
          FirstAtTail(budgets, BudgetHasId(id), i);
        }
      }
      r
  }

  function BudgetHasId(id: string): Budget -> bool {
    (b: Budget) => b.id == id
  }

  /** The clamping of `getBudgetProgress`: `Math.max(0, amount - spent)` and
      `Math.min(100, spent / amount * 100)`. */
  function Clamp(spent: real, amount: real): (p: Progress)
    ensures p.spent == spent
    ensures p.remaining >= 0.0 && p.remaining >= amount - spent
    ensures p.remaining == 0.0 || p.remaining == amount - spent
    ensures !Above(p.percentage, 100.0)
    ensures amount > 0.0 && spent >= 0.0 ==> p.percentage.Fin? && 0.0 <= p.percentage.v <= 100.0
    ensures amount > 0.0 && spent >= 0.0 && spent <= amount ==> p.percentage == Fin(spent / amount * 100.0)
  {
    var remaining := if amount - spent > 0.0 then amount - spent else 0.0;
    MinCapNeverAbove(100.0, Scale(Div(spent, amount), 100.0));
    Progress(spent, remaining, Min(Fin(100.0), Scale(Div(spent, amount), 100.0)))
  }

  /** With a positive budget and no negative spending, the remaining amount
      never exceeds the budget. */
  lemma RemainingAtMostAmount(spent: real, amount: real)
    requires amount > 0.0 && spent >= 0.0
    ensures Clamp(spent, amount).remaining <= amount
  {
  }

  /** `getBudgetProgress` AS WRITTEN: it hands `budget.period` ("weekly",
      "monthly" or "yearly") to `getCategoryExpenses`, whose switch only
      knows "week" and "year", so every budget is measured over the calendar
      month. */
  function BudgetProgressAsWritten(s: State, clock: Clock, id: string): (r: Progress)
    ensures FindBudget(s.budgets, id).None? ==> r == NoProgress
    ensures FindBudget(s.budgets, id).Some? ==>
      var b := FindBudget(s.budgets, id).value;
      && r.spent == CategorySum(Filter(s.expenses, OnOrAfter(clock.startOfMonth)), b.categoryId)
      && r == Clamp(r.spent, b.amount)
    ensures FindBudget(s.budgets, id).Some? && FindBudget(s.budgets, id).value.amount > 0.0 && NoNegative(s.expenses) ==>
      InBounds(r, FindBudget(s.budgets, id).value.amount)
  {
    match FindBudget(s.budgets, id)
    case None => NoProgress
    case Some(b) =>
      var start := WindowStart(clock, PeriodName(b.period));
      assert NoNegative(s.expenses) ==> 0.0 <= CategoryExpenses(s.expenses, b.categoryId, start) by {
        if NoNegative(s.expenses) {
          CategoryExpensesBounds(s.expenses, b.categoryId, start);
        }
      }
      Clamp(CategoryExpenses(s.expenses, b.categoryId, start), b.amount)
  }

  /** No expense has a negative amount. */
  predicate NoNegative(es: seq<Expense>) {
    forall e :: e in es ==> e.amount >= 0.0
  }

  /** The bounds `getBudgetProgress` keeps for a positive budget and no
      negative spending: remaining between 0 and the budget, percentage a
      finite number between 0 and 100. */
  predicate InBounds(p: Progress, amount: real) {
    && 0.0 <= p.remaining <= amount
    && p.percentage.Fin? && 0.0 <= p.percentage.v <= 100.0
  }

  /** The period key `getCategoryExpenses` understands for each budget
      period. */
  function PeriodKey(p: Period): (k: string)
    ensures k in {"week", "month", "year"}
  {
    match p
    case Weekly => "week"
    case Monthly => "month"
    case Yearly => "year"
  }

  /** The window a budget period is meant to cover. */
  function PeriodStart(clock: Clock, p: Period): int {
    match p
    case Weekly => clock.now - 7 * DayMillis
    case Monthly => clock.startOfMonth
    case Yearly => clock.startOfYear
  }

  /** `getBudgetProgress` with the period translated to the key
      `getCategoryExpenses` expects: spending is measured over the budget's
      own period. */
  function BudgetProgress(s: State, clock: Clock, id: string): (r: Progress)
    ensures FindBudget(s.budgets, id).None? ==> r == NoProgress
    ensures FindBudget(s.budgets, id).Some? ==>
      var b := FindBudget(s.budgets, id).value;
      && r.spent == CategorySum(Filter(s.expenses, OnOrAfter(PeriodStart(clock, b.period))), b.categoryId)
      && r.remaining >= 0.0 && r.remaining >= b.amount - r.spent
      && !Above(r.percentage, 100.0)
      && r == Clamp(r.spent, b.amount)
    ensures FindBudget(s.budgets, id).Some? && FindBudget(s.budgets, id).value.amount > 0.0 && NoNegative(s.expenses) ==>
      InBounds(r, FindBudget(s.budgets, id).value.amount)
  {
    match FindBudget(s.budgets, id)
    case None => NoProgress
    case Some(b) =>
      var start := WindowStart(clock, PeriodKey(b.period));
      assert NoNegative(s.expenses) ==> 0.0 <= CategoryExpenses(s.expenses, b.categoryId, start) by {
        if NoNegative(s.expenses) {
          CategoryExpensesBounds(s.expenses, b.categoryId, start);
        }
      }
      Clamp(CategoryExpenses(s.expenses, b.categoryId, start), b.amount)
  }

  /** A weekly budget shows a discrepancy: ten days into a month, an expense
      of 50 dated nine days ago counts against the budget as written but is
      outside the week the budget is meant to cover. */
  lemma WeeklyBudgetUsesMonth()
    ensures var clock := Clock(10 * DayMillis, 0, -30 * DayMillis, -DayMillis, 10 * DayMillis, 0,
                               (d: int) => (10 + d) * DayMillis, (d: int) => "");
      var s := State([Expense("e", 50.0, "1", None, [], DayMillis, 0, 0)], [],
                     [Budget("b", "1", 100.0, Weekly, 0, 0)], [], DefaultSettings);
      && BudgetProgressAsWritten(s, clock, "b").spent == 50.0
      && BudgetProgress(s, clock, "b").spent == 0.0
  {
    var clock := Clock(10 * DayMillis, 0, -30 * DayMillis, -DayMillis, 10 * DayMillis, 0,
                       (d: int) => (10 + d) * DayMillis, (d: int) => "");
    var e := Expense("e", 50.0, "1", None, [], DayMillis, 0, 0);
    var b := Budget("b", "1", 100.0, Weekly, 0, 0);
    var s := State([e], [], [b], [], DefaultSettings);
    assert FindBudget(s.budgets, "b") == Some(b);
    assert [e][..0] == [];
    assert "weekly" != "week" && "weekly" != "year";
    assert WindowStart(clock, PeriodName(Weekly)) == 0;
    assert Filter([e], OnOrAfter(0)) == [e];
    assert CategorySum([e], "1") == 50.0;
    assert WindowStart(clock, PeriodKey(Weekly)) == 3 * DayMillis;
    assert Filter([e], OnOrAfter(3 * DayMillis)) == [];
  }

  /** The two agree on monthly budgets. */
  lemma MonthlyBudgetsAgree(s: State, clock: Clock, id: string)
    requires FindBudget(s.budgets, id).Some? && FindBudget(s.budgets, id).value.period == Monthly
    ensures BudgetProgressAsWritten(s, clock, id) == BudgetProgress(s, clock, id)
  {
  }

  // ------------------------------------------------------ over-budget counter

  /** The filter of the over-budget counters on the home and budgets
      screens, AS WRITTEN: `progress.percentage > 100`. */
  function OverAsWritten(s: State, clock: Clock): Budget -> bool {
    (b: Budget) => Above(BudgetProgressAsWritten(s, clock, b.id).percentage, 100.0)
  }

  /** The counter as written never counts anything: the percentage it tests
      has already been capped at 100. */
  lemma OverBudgetCountAsWrittenIsZero(s: State, clock: Clock)
    ensures |Filter(s.budgets, OverAsWritten(s, clock))| == 0
  {
    forall b | b in s.budgets ensures !OverAsWritten(s, clock)(b) {
      match FindBudget(s.budgets, b.id)
      case None =>
      case Some(_) =>
    }
    FilterNone(s.budgets, OverAsWritten(s, clock));
  }

  /** Spending strictly above the budget amount. */
  predicate Exceeded(s: State, clock: Clock, b: Budget) {
    BudgetProgress(s, clock, b.id).spent > b.amount
  }

  function Over(s: State, clock: Clock): Budget -> bool {
    (b: Budget) => Exceeded(s, clock, b)
  }

  /** The counter as intended: the budgets whose spending exceeds their
      amount. It is positive exactly when some budget is exceeded. */
  function OverBudgetCount(s: State, clock: Clock): (n: nat)
    ensures n <= |s.budgets|
    ensures n > 0 <==> exists b :: b in s.budgets && Exceeded(s, clock, b)
  {
    var over := Filter(s.budgets, Over(s, clock));
    FilterMembers(s.budgets, Over(s, clock));
    assert |over| > 0 ==> over[0] in over;
    |over|
  }

  // ---------------------------------------------------- category suggestions

  /** ASCII upper case to lower case; other characters are unchanged. */
  function LowerChar(c: char): char {
    if 'A' <= c <= 'Z' then (c as int + 32) as char else c
  }

  /** `s.toLowerCase()` restricted to ASCII letters. */
  function Lower(s: string): (r: string)
    ensures |r| == |s|
    ensures forall i :: 0 <= i < |s| ==> r[i] == LowerChar(s[i])
  {
    seq(|s|, i requires 0 <= i < |s| => LowerChar(s[i]))
  }

  /** `s.includes(sub)`. */
  predicate Contains(s: string, sub: string) {
    exists i :: 0 <= i <= |s| - |sub| && MatchesAt(s, sub, i)
  }

  /** `sub` occurs in `s` starting at index `i`. */
  predicate MatchesAt(s: string, sub: string, i: int) {
    0 <= i <= |s| - |sub| && s[i..i + |sub|] == sub
  }

  /** `[...new Set(s)]`: the first occurrence of each value, in order. */
  function Dedupe(s: seq<string>): (r: seq<string>)
    ensures Distinct(r)
    ensures Elems(r) == Elems(s)
    ensures |s| > 0 ==> |r| > 0 && r[0] == s[0]
    decreases |s|
  {
    if |s| == 0 then []
    else
      var d := Dedupe(s[..|s| - 1]);
      assert Elems(s) == Elems(s[..|s| - 1]) + {s[|s| - 1]} by {
        assert s == s[..|s| - 1] + [s[|s| - 1]];
      }
      if s[|s| - 1] in d then d
      else
        assert s[|s| - 1] !in Elems(d);
        d + [s[|s| - 1]]
  }

  /** One more value is appended to the deduplicated list exactly when it
      has not occurred before; together with `Dedupe([]) == []` this pins
      the result to the first occurrences, in order. */
  lemma DedupeSnoc(s: seq<string>, x: string)
    ensures Dedupe(s + [x]) == if x in s then Dedupe(s) else Dedupe(s) + [x]
  {
    var t := s + [x];
    assert t[..|t| - 1] == s && t[|t| - 1] == x;
    assert x in Dedupe(s) <==> x in Elems(s);
  }

  /** Later values never disturb the deduplicated front: `Dedupe(a)` is a
      prefix of `Dedupe(a + b)`. */
  lemma {:induction false} DedupePrefix(a: seq<string>, b: seq<string>)
    ensures |Dedupe(a)| <= |Dedupe(a + b)| && Dedupe(a + b)[..|Dedupe(a)|] == Dedupe(a)
    decreases |b|
  {
    if |b| == 0 {
      assert a + b == a;
    } else {
      var b' := b[..|b| - 1];
      var y := b[|b| - 1];
      assert a + b == (a + b') + [y];
      DedupePrefix(a, b');
      DedupeSnoc(a + b', y);
    }
  }

  /** Deduplicating a duplicate-free list changes nothing. */
  lemma {:induction false} DedupeDistinct(s: seq<string>)
    requires Distinct(s)
    ensures Dedupe(s) == s
    decreases |s|
  {
    if |s| > 0 {
      var init := s[..|s| - 1];
      DedupeDistinct(init);
      assert s[|s| - 1] !in init;
      assert s == init + [s[|s| - 1]];
      DedupeSnoc(init, s[|s| - 1]);
    }
  }

  /** The amount tier's pair of suggestions. */
  function TierPair(amount: real): (r: seq<string>)
    ensures |r| == 2 && r[0] != r[1]
  {
    if amount < 100.0 then ["Food", "Transport"]
    else if amount < 500.0 then ["Shopping", "Entertainment"]
    else ["Bills", "Travel"]
  }

  predicate FoodHit(note: string) {
    Contains(Lower(note), "food") || Contains(Lower(note), "restaurant") || Contains(Lower(note), "meal")
  }

  predicate TransportHit(note: string) {
    Contains(Lower(note), "gas") || Contains(Lower(note), "uber") || Contains(Lower(note), "taxi")
  }

  predicate EntertainmentHit(note: string) {
    Contains(Lower(note), "movie") || Contains(Lower(note), "game") || Contains(Lower(note), "fun")
  }

  /** The list before deduplication: the keyword groups are unshifted in the
      order food, transport, entertainment, so the last one to match ends up
      first. */
  function Candidates(amount: real, note: Option<string>): seq<string> {
    var n := note.GetOr("");
    (if EntertainmentHit(n) then ["Entertainment"] else [])
      + (if TransportHit(n) then ["Transport"] else [])
      + (if FoodHit(n) then ["Food"] else [])
      + TierPair(amount)
  }

  /** `getSuggestedCategories(amount, note)`. */
  function SuggestedCategories(amount: real, note: Option<string>): (r: seq<string>)
    ensures 2 <= |r| <= 3 && Distinct(r)
    ensures forall x :: x in r ==> x in Candidates(amount, note)
    ensures EntertainmentHit(note.GetOr("")) ==> r[0] == "Entertainment"
    ensures !EntertainmentHit(note.GetOr("")) && TransportHit(note.GetOr("")) ==> r[0] == "Transport"
    ensures !EntertainmentHit(note.GetOr("")) && !TransportHit(note.GetOr("")) && FoodHit(note.GetOr(""))
      ==> r[0] == "Food"
    ensures !EntertainmentHit(note.GetOr("")) && !TransportHit(note.GetOr("")) && !FoodHit(note.GetOr(""))
      ==> r == TierPair(amount)
    ensures |Dedupe(Candidates(amount, note))| >= 3 ==> |r| == 3
    ensures |r| <= |Dedupe(Candidates(amount, note))| && r == Dedupe(Candidates(amount, note))[..|r|]
  {
    var d := Dedupe(Candidates(amount, note));
    TierPairKept(amount, note);
    var n := note.GetOr("");
    assert !EntertainmentHit(n) && !TransportHit(n) && !FoodHit(n) ==> d == TierPair(amount) by {
      if !EntertainmentHit(n) && !TransportHit(n) && !FoodHit(n) {
        NoHitIsTierPair(amount, note);
      }
    }
    ShownAreCandidates(amount, note);
    TakeDistinct(d, 3);
    Take(d, 3)
  }

  /** A large amount with a meal in the note: the food keyword comes first,
      then the tier pair for 500 and above. */
  lemma MealAt600()
    ensures SuggestedCategories(600.0, Some("meal")) == ["Food", "Bills", "Travel"]
  {
    var c := ["Food", "Bills", "Travel"];
    MealHits();
    assert Candidates(600.0, Some("meal")) == c;
    assert Distinct(c);
    DedupeDistinct(c);
  }

  /** "meal" is a food keyword and no transport or entertainment one. */
  lemma MealHits()
    ensures FoodHit("meal") && !TransportHit("meal") && !EntertainmentHit("meal")
  {
    var n := "meal";
    assert Lower(n) == n;
    assert MatchesAt(n, "meal", 0);
    NoMatch(n, "movie");
    NoMatch(n, "restaurant");
    NoMatch4(n, "game");
    NoMatch4(n, "food");
    NoMatch3(n, "gas");
    NoMatch3(n, "fun");
    NoMatch4(n, "uber");
    NoMatch4(n, "taxi");
  }

  /** A pattern longer than the text does not occur in it. */
  lemma NoMatch(s: string, sub: string)
    requires |sub| > |s|
    ensures !Contains(s, sub)
  {
  }

  /** A four-letter pattern occurs in a four-letter text only as the whole. */
  lemma NoMatch4(s: string, sub: string)
    requires |s| == 4 && |sub| == 4 && s != sub
    ensures !Contains(s, sub)
  {
    assert s[0..4] == s;
  }

  /** A three-letter pattern in a four-letter text starts at 0 or 1. */
  lemma NoMatch3(s: string, sub: string)
    requires |s| == 4 && |sub| == 3 && s[0..3] != sub && s[1..4] != sub
    ensures !Contains(s, sub)
  {
  }

  /** Both tier suggestions survive deduplication, so at least two remain. */
  lemma TierPairKept(amount: real, note: Option<string>)
    ensures |Dedupe(Candidates(amount, note))| >= 2
  {
    var d := Dedupe(Candidates(amount, note));
    var pair := TierPair(amount);
    assert pair[0] in Elems(d) && pair[1] in Elems(d);
    TwoDistinctMembers(d, pair[0], pair[1]);
  }

  /** With no keyword in the note only the tier pair is suggested. */
  lemma NoHitIsTierPair(amount: real, note: Option<string>)
    requires !EntertainmentHit(note.GetOr("")) && !TransportHit(note.GetOr("")) && !FoodHit(note.GetOr(""))
    ensures Dedupe(Candidates(amount, note)) == TierPair(amount)
  {
    assert Candidates(amount, note) == TierPair(amount);
    DedupeDistinct(TierPair(amount));
  }

  /** Every suggestion shown is one of the candidates. */
  lemma ShownAreCandidates(amount: real, note: Option<string>)
    ensures forall x :: x in Take(Dedupe(Candidates(amount, note)), 3) ==> x in Candidates(amount, note)
  {
    var d := Dedupe(Candidates(amount, note));
    forall x | x in Take(d, 3) ensures x in Candidates(amount, note) {
      assert x in Elems(d);
    }
  }

  /** A sequence holding two different values has at least two elements. */
  lemma TwoDistinctMembers(d: seq<string>, x: string, y: string)
    requires x in d && y in d && x != y
    ensures |d| >= 2
  {
  }

  lemma TakeDistinct(d: seq<string>, n: nat)
    requires Distinct(d)
    ensures Distinct(Take(d, n))
  {
  }

  // ------------------------------------------------------------ popular tags

  function TagCount(t: Tag): real { t.count as real }

  /** `getPopularTags`: `tags.sort(...)` reorders the STORED array by count,
      most used first, and the first ten are returned. Both the reordered
      store and the result are given. */
  function PopularTags(s: State): (r: (State, seq<Tag>))
    ensures multiset(r.0.tags) == multiset(s.tags) && SortedDesc(r.0.tags, TagCount)
    ensures r.0 == s.(tags := r.0.tags)
    ensures |r.1| == if |s.tags| < 10 then |s.tags| else 10
    ensures r.1 == r.0.tags[..|r.1|]
  {
    var sorted := SortDesc(s.tags, TagCount);
    (s.(tags := sorted), Take(sorted, 10))
  }

  /** No tag left out of the popular list is used more than one in it. */
  lemma PopularTagsAreTop(s: State, i: nat, j: nat)
    requires i < |PopularTags(s).1| <= j < |s.tags|
    ensures PopularTags(s).1[i].count >= PopularTags(s).0.tags[j].count
  {
    TopIsLargest(s.tags, TagCount, 10, i, j);
  }
}

=== FILE: recent.dfy ===
/** The "Recent Expenses" card (components/RecentExpenses.tsx): the four
    newest expenses, each with its category's name, glyph and colour and the
    time elapsed since it was made. */
module Recent {
  import opened Wrappers
  import opened Seqs
  import opened Sorting
  import opened Model
  import opened Icons

  // ------------------------------------------------------------ time elapsed

  /** `formatTimeAgo`. The date of the last bucket is formatted with
      `toLocaleDateString`, which the model keeps as the timestamp. */
  datatype Ago = JustNow | HoursAgo(hours: int) | Yesterday | DaysAgo(days: int) | OnDate(date: int)

  /** The order the buckets come in as time passes. */
  function Stage(a: Ago): nat {
    match a
    case JustNow => 0
    case HoursAgo(_) => 1
    case Yesterday => 2
    case DaysAgo(_) => 3
    case OnDate(_) => 4
  }

  /** `Math.floor((now - date) / (1000 * 60 * 60))`: Dafny's division by a
      positive divisor rounds down, as `Math.floor` does. */
  function HoursBetween(date: int, now: int): (h: int)
    ensures h * HourMillis <= now - date < (h + 1) * HourMillis
  {
    (now - date) / HourMillis
  }

  /** The bucket for an expense dated `date` seen at `now`. A date in the
      future makes the difference negative and reads "Just now". */
  function TimeAgo(date: int, now: int): (a: Ago)
    ensures a == JustNow <==> now - date < HourMillis
    ensures a.HoursAgo? <==> HourMillis <= now - date < DayMillis
    ensures a.HoursAgo? ==> 1 <= a.hours <= 23 && a.hours * HourMillis <= now - date < (a.hours + 1) * HourMillis
    ensures a == Yesterday <==> DayMillis <= now - date < 2 * DayMillis
    ensures a.DaysAgo? <==> 2 * DayMillis <= now - date < 7 * DayMillis
    ensures a.DaysAgo? ==> 2 <= a.days <= 6 && a.days * DayMillis <= now - date < (a.days + 1) * DayMillis
    ensures a.OnDate? <==> now - date >= 7 * DayMillis
    ensures a.OnDate? ==> a.date == date
  {
    var hours := HoursBetween(date, now);
    if hours < 1 then JustNow
    else if hours < 24 then HoursAgo(hours)
    else
      var days := hours / 24;
      DaysFromHours(date, now, hours);
      if days == 1 then Yesterday
      else if days < 7 then DaysAgo(days)
      else OnDate(date)
  }

  /** Whole days counted from whole hours are whole days counted from the
      milliseconds. */
  lemma DaysFromHours(date: int, now: int, hours: int)
    requires hours == HoursBetween(date, now) && hours >= 24
    ensures (hours / 24) * DayMillis <= now - date < (hours / 24 + 1) * DayMillis
  {
    var d := hours / 24;
    assert d * 24 <= hours < (d + 1) * 24;
    assert d * 24 * HourMillis <= hours * HourMillis;
    assert (hours + 1) * HourMillis <= (d + 1) * 24 * HourMillis;
  }

  /** As time passes an expense only moves to later buckets. */
  lemma TimeAgoAdvances(date: int, now: int, later: int)
    requires now <= later
    ensures Stage(TimeAgo(date, now)) <= Stage(TimeAgo(date, later))
  {
  }

  /** Within the hours bucket the count of hours never goes down. */
  lemma HoursNeverDecrease(date: int, now: int, later: int)
    requires now <= later
    requires TimeAgo(date, now).HoursAgo? && TimeAgo(date, later).HoursAgo?
    ensures TimeAgo(date, now).hours <= TimeAgo(date, later).hours
  {
  }

  /** The label shown: `show` writes a whole number in decimal and
      `dateLabel` is the short month-and-day format. */
  function AgoText(a: Ago, show: int -> string, dateLabel: int -> string): (r: string)
    ensures a.HoursAgo? ==> |r| >= 5 && r[|r| - 5..] == "h ago" && r[..|r| - 5] == show(a.hours)
    ensures a.DaysAgo? ==> |r| >= 5 && r[|r| - 5..] == "d ago" && r[..|r| - 5] == show(a.days)
  {
    match a
    case JustNow => "Just now"
    case HoursAgo(h) => show(h) + "h ago"
    case Yesterday => "Yesterday"
    case DaysAgo(d) => show(d) + "d ago"
    case OnDate(t) => dateLabel(t)
  }

  /** Away from the date bucket the label can be read back: with a `show`
      that writes different numbers differently, two buckets with the same
      label are the same bucket. */
  lemma AgoTextReadsBack(a: Ago, b: Ago, show: int -> string, dateLabel: int -> string)
    requires !a.OnDate? && !b.OnDate?
    requires forall m, n :: show(m) == show(n) ==> m == n
    requires AgoText(a, show, dateLabel) == AgoText(b, show, dateLabel)
    ensures a == b
  {
    var t := AgoText(a, show, dateLabel);
    assert |t| > 0;
    if a.HoursAgo? || a.DaysAgo? {
      assert t[|t| - 1] == 'o';
      assert b.HoursAgo? || b.DaysAgo?;
      assert t[|t| - 5] == (if a.HoursAgo? then 'h' else 'd');
      assert a.HoursAgo? == b.HoursAgo?;
    } else {
      assert t[|t| - 1] != 'o';
      assert !b.HoursAgo? && !b.DaysAgo?;
    }
  }

  // ------------------------------------------------------------- the list

  /** At most this many expenses are listed. */
  const RecentShown: nat := 4

  function DateKey(e: Expense): real { e.date as real }

  /** The store's array after `expenses.sort(...)`, which reorders it in
      place, and the first four of it. */
  datatype RecentList = RecentList(sorted: seq<Expense>, shown: seq<Expense>)

  /** The recent list: every expense newest first, then the first four. */
  function RecentOf(es: seq<Expense>): (r: RecentList)
    ensures |r.sorted| == |es| && multiset(r.sorted) == multiset(es)
    ensures SortedDesc(r.sorted, DateKey)
    ensures |r.shown| == if |es| < RecentShown then |es| else RecentShown
    ensures r.shown == r.sorted[..|r.shown|]
    ensures forall i, j :: 0 <= i < |r.shown| <= j < |es| ==> r.shown[i].date >= r.sorted[j].date
  {
    var sorted := SortDesc(es, DateKey);
    RecentList(sorted, Take(sorted, RecentShown))
  }

  /** The first expense listed is at least as new as every stored expense. */
  lemma NewestFirst(es: seq<Expense>, e: Expense)
    requires e in es
    ensures |RecentOf(es).shown| > 0
    ensures RecentOf(es).shown[0].date >= e.date
  {
    var r := RecentOf(es);
    assert e in multiset(r.sorted);
    var k :| 0 <= k < |r.sorted| && r.sorted[k] == e;
    assert DateKey(r.sorted[0]) >= DateKey(r.sorted[k]);
  }

  /** An expense is left out only when four listed ones are at least as
      new. */
  lemma LeftOutIsOlder(es: seq<Expense>, e: Expense)
    requires e in es && e !in RecentOf(es).shown
    ensures |RecentOf(es).shown| == RecentShown
    ensures forall x :: x in RecentOf(es).shown ==> x.date >= e.date
  {
    var r := RecentOf(es);
    assert e in multiset(r.sorted);
    var k :| 0 <= k < |r.sorted| && r.sorted[k] == e;
    assert k >= |r.shown|;
    forall x | x in r.shown ensures x.date >= e.date {
      var i :| 0 <= i < |r.shown| && r.shown[i] == x;
    }
  }

  /** The empty-state card shows exactly when there are no expenses. */
  lemma EmptyOnlyWithoutExpenses(es: seq<Expense>)
    ensures |RecentOf(es).shown| == 0 <==> |es| == 0
  {
  }

  /** One listed row. `primary` is the theme colour used when the category
      has none. */
  datatype Row = Row(title: string, glyph: Glyph, color: string, amount: real, ago: Ago)

  function RowOf(e: Expense, categories: seq<Category>, now: int, primary: string): (r: Row)
    ensures r.amount == e.amount && r.ago == TimeAgo(e.date, now)
    ensures r.title == DisplayName(FindCategory(categories, e.category))
    ensures r.glyph == CategoryGlyph(FindCategory(categories, e.category))
  {
    var c := FindCategory(categories, e.category);
    Row(DisplayName(c), CategoryGlyph(c), DisplayColor(c, primary), e.amount, TimeAgo(e.date, now))
  }

  /** An expense filed under no known category shows as Unknown with the
      circle glyph and the theme colour. */
  lemma UnknownCategoryRow(e: Expense, categories: seq<Category>, now: int, primary: string)
    requires forall c :: c in categories ==> c.id != e.category
    ensures RowOf(e, categories, now, primary) == Row("Unknown", Circle, primary, e.amount, TimeAgo(e.date, now))
  {
  }
}

=== FILE: seqs.dfy ===
/** Sequence helpers shared by every aggregation: JavaScript's `filter`,
    `reduce` to a sum, `slice(0, n)`, occurrence counting and duplicate
    freedom. Folds recurse on the last element, so a fold over `s` is the
    fold over `s[..|s|-1]` followed by one step, the order in which the
    application's `forEach` and `reduce` visit the elements. */
module Seqs {

  /** `s.filter(p)`. */
  function Filter<T>(s: seq<T>, p: T -> bool): (r: seq<T>)
    ensures |r| <= |s|
    ensures forall x :: x in r ==> x in s && p(x)
  {
    if |s| == 0 then []
    else Filter(s[..|s| - 1], p) + (if p(s[|s| - 1]) then [s[|s| - 1]] else [])
  }

  /** `s.reduce((sum, x) => sum + f(x), 0)`. */
  function SumOf<T>(s: seq<T>, f: T -> real): real
  {
    if |s| == 0 then 0.0 else SumOf(s[..|s| - 1], f) + f(s[|s| - 1])
  }

  /** `n` copies of `a` added up, i.e. `n * a` without appeal to
      non-linear arithmetic. */
  function Times(n: nat, a: real): real
  {
    if n == 0 then 0.0 else Times(n - 1, a) + a
  }

  /** Number of occurrences of `x` in `s`. */
  function Count<T(==)>(s: seq<T>, x: T): nat
  {
    if |s| == 0 then 0 else Count(s[..|s| - 1], x) + (if s[|s| - 1] == x then 1 else 0)
  }

  /** `s.slice(0, n)`. */
  function Take<T>(s: seq<T>, n: nat): (r: seq<T>)
    ensures |r| == if |s| < n then |s| else n
    ensures r == s[..|r|]
  {
    if |s| <= n then s else s[..n]
  }

  /** No value occurs twice. */
  predicate Distinct<T(==)>(s: seq<T>) {
    forall i, j :: 0 <= i < j < |s| ==> s[i] != s[j]
  }

  /** Position `i` holds the first element satisfying `p`, as
      `Array.prototype.find` picks it. */
  predicate FirstAt<T>(s: seq<T>, p: T -> bool, i: int) {
    0 <= i < |s| && p(s[i]) && forall j :: 0 <= j < i ==> !p(s[j])
  }

  /** When the head fails `p`, the first match of the tail, shifted by one,
      is the first match of the whole. */
  lemma FirstAtTail<T>(s: seq<T>, p: T -> bool, i: int)
    requires |s| > 0 && !p(s[0]) && FirstAt(s[1..], p, i)
    ensures FirstAt(s, p, i + 1)
  {
    forall j | 0 <= j < i + 1 ensures !p(s[j]) {
      if j > 0 {
        assert s[j] == s[1..][j - 1];
      }
    }
  }

  /** A non-empty sequence is its front followed by its last element. */
  lemma SplitLast<T>(s: seq<T>)
    requires |s| > 0
    ensures s == s[..|s| - 1] + [s[|s| - 1]]
  {
  }

  /** The elements of `s` as a set. */
  function Elems<T>(s: seq<T>): set<T> {
    set x | x in s
  }

  /** Filtering distributes over concatenation, so the kept elements stay in
      their original relative order. */
  lemma {:induction false} FilterConcat<T>(a: seq<T>, b: seq<T>, p: T -> bool)
    ensures Filter(a + b, p) == Filter(a, p) + Filter(b, p)
    decreases |b|
  {
    if |b| == 0 {
      assert a + b == a;
    } else {
      var b' := b[..|b| - 1];
      assert (a + b)[..|a + b| - 1] == a + b';
      FilterConcat(a, b', p);
    }
  }

  /** The filter keeps exactly the elements satisfying `p`, with their
      multiplicities. */
  lemma {:induction false} FilterMultiset<T>(s: seq<T>, p: T -> bool)
    ensures forall x :: multiset(Filter(s, p))[x] == if p(x) then multiset(s)[x] else 0
  {
    if |s| > 0 {
      var s' := s[..|s| - 1];
      FilterMultiset(s', p);
      assert s == s' + [s[|s| - 1]];
    }
  }

  /** An element of `s` that satisfies `p` survives the filter. */
  lemma FilterKeeps<T>(s: seq<T>, p: T -> bool, x: T)
    requires x in s && p(x)
    ensures x in Filter(s, p)
  {
    FilterMultiset(s, p);
    assert multiset(Filter(s, p))[x] > 0;
  }

  /** The filter keeps exactly the elements satisfying `p`. */
  lemma FilterMembers<T>(s: seq<T>, p: T -> bool)
    ensures forall x :: x in Filter(s, p) <==> x in s && p(x)
  {
    forall x | x in s && p(x) ensures x in Filter(s, p) {
      FilterKeeps(s, p, x);
    }
  }

  /** A filter whose predicate nothing satisfies is empty. */
  lemma {:induction false} FilterNone<T>(s: seq<T>, p: T -> bool)
    requires forall x :: x in s ==> !p(x)
    ensures Filter(s, p) == []
  {
    if |s| > 0 {
      FilterNone(s[..|s| - 1], p);
    }
  }

  /** A filter whose predicate everything satisfies keeps the sequence. */
  lemma {:induction false} FilterAllKept<T>(s: seq<T>, p: T -> bool)
    requires forall x :: x in s ==> p(x)
    ensures Filter(s, p) == s
  {
    if |s| > 0 {
      FilterAllKept(s[..|s| - 1], p);
      assert s == s[..|s| - 1] + [s[|s| - 1]];
    }
  }

  /** A one-element sequence is kept or dropped whole. */
  lemma FilterSingle<T>(x: T, p: T -> bool)
    ensures Filter([x], p) == if p(x) then [x] else []
  {
    assert [x][..0] == [];
  }

  /** Filtering around a kept element: what comes before it, the element,
      then what comes after it. */
  lemma {:induction false} FilterAt<T>(s: seq<T>, i: nat, p: T -> bool)
    requires i < |s| && p(s[i])
    ensures Filter(s, p) == Filter(s[..i], p) + ([s[i]] + Filter(s[i + 1..], p))
  {
    var a, x, b := s[..i], [s[i]], s[i + 1..];
    assert s == a + (x + b);
    FilterConcat(a, x + b, p);
    FilterConcat(x, b, p);
    FilterSingle(s[i], p);
  }

  /** Filters whose predicates agree on every element give the same result. */
  lemma {:induction false} FilterAgree<T>(s: seq<T>, p: T -> bool, q: T -> bool)
    requires forall x :: x in s ==> p(x) == q(x)
    ensures Filter(s, p) == Filter(s, q)
  {
    if |s| > 0 {
      assert forall x :: x in s[..|s| - 1] ==> x in s;
      FilterAgree(s[..|s| - 1], p, q);
      assert s[|s| - 1] in s;
    }
  }

  lemma {:induction false} SumOfConcat<T>(a: seq<T>, b: seq<T>, f: T -> real)
    ensures SumOf(a + b, f) == SumOf(a, f) + SumOf(b, f)
    decreases |b|
  {
    if |b| == 0 {
      assert a + b == a;
    } else {
      var b' := b[..|b| - 1];
      assert (a + b)[..|a + b| - 1] == a + b';
      SumOfConcat(a, b', f);
    }
  }

  lemma SumOfSingle<T>(x: T, f: T -> real)
    ensures SumOf([x], f) == f(x)
  {
    assert [x][..0] == [];
  }

  /** Summing from the front gives the same total as summing from the back. */
  lemma SumOfCons<T>(x: T, s: seq<T>, f: T -> real)
    ensures SumOf([x] + s, f) == f(x) + SumOf(s, f)
  {
    SumOfConcat([x], s, f);
    SumOfSingle(x, f);
  }

  /** A sum does not depend on the order of its terms. */
  lemma {:induction false} SumOfPermutation<T>(a: seq<T>, b: seq<T>, f: T -> real)
    requires multiset(a) == multiset(b)
    ensures SumOf(a, f) == SumOf(b, f)
    decreases |a|
  {
    if |a| == 0 {
      assert |b| == |multiset(b)| == 0;
    } else {
      var x := a[|a| - 1];
      var a' := a[..|a| - 1];
      assert a == a' + [x];
      assert x in multiset(b);
      var k :| 0 <= k < |b| && b[k] == x;
      var b' := RemoveAt(b, k);
      assert multiset(a') == multiset(a) - multiset{x};
      SumOfPermutation(a', b', f);
      SplitAt(b, k, f);
    }
  }

  /** Pulling one term out of a sum. */
  lemma SplitAt<T>(b: seq<T>, k: nat, f: T -> real)
    requires k < |b|
    ensures SumOf(b, f) == SumOf(b[..k] + b[k + 1..], f) + f(b[k])
  {
    assert b == b[..k] + ([b[k]] + b[k + 1..]);
    SumOfConcat(b[..k], [b[k]] + b[k + 1..], f);
    SumOfCons(b[k], b[k + 1..], f);
    SumOfConcat(b[..k], b[k + 1..], f);
  }

  /** `s` without its element at index `k`. */
  function RemoveAt<T>(s: seq<T>, k: nat): (r: seq<T>)
    requires k < |s|
    ensures r == s[..k] + s[k + 1..]
    ensures multiset(r) == multiset(s) - multiset{s[k]}
  {
    assert s == s[..k] + [s[k]] + s[k + 1..];
    s[..k] + s[k + 1..]
  }

  /** Sums of non-negative terms are non-negative. */
  lemma {:induction false} SumOfNonNegative<T>(s: seq<T>, f: T -> real)
    requires forall x :: x in s ==> f(x) >= 0.0
    ensures SumOf(s, f) >= 0.0
  {
    if |s| > 0 {
      SumOfNonNegative(s[..|s| - 1], f);
    }
  }

  /** Dropping terms that are all non-negative can only lower a sum. */
  lemma {:induction false} SumOfFilterAtMost<T>(s: seq<T>, p: T -> bool, f: T -> real)
    requires forall x :: x in s ==> f(x) >= 0.0
    ensures SumOf(Filter(s, p), f) <= SumOf(s, f)
  {
    if |s| > 0 {
      var s' := s[..|s| - 1];
      SumOfFilterAtMost(s', p, f);
      var last := if p(s[|s| - 1]) then [s[|s| - 1]] else [];
      SumOfConcat(Filter(s', p), last, f);
      if p(s[|s| - 1]) {
        SumOfSingle(s[|s| - 1], f);
      }
    }
  }

  /** Count agrees with the multiset view. */
  lemma {:induction false} CountMultiset<T>(s: seq<T>, x: T)
    ensures Count(s, x) == multiset(s)[x]
  {
    if |s| > 0 {
      CountMultiset(s[..|s| - 1], x);
      assert s == s[..|s| - 1] + [s[|s| - 1]];
    }
  }

  lemma {:induction false} CountConcat<T>(a: seq<T>, b: seq<T>, x: T)
    ensures Count(a + b, x) == Count(a, x) + Count(b, x)
  {
    CountMultiset(a + b, x);
    CountMultiset(a, x);
    CountMultiset(b, x);
  }

  /** A duplicate-free sequence is as long as the set of its elements. */
  lemma {:induction false} DistinctCardinality<T>(s: seq<T>)
    requires Distinct(s)
    ensures |Elems(s)| == |s|
  {
    if |s| > 0 {
      var s' := s[..|s| - 1];
      var x := s[|s| - 1];
      DistinctCardinality(s');
      assert Elems(s) == Elems(s') + {x};
      assert x !in Elems(s');
    }
  }
}

=== FILE: sorting.dfy ===
/** The application sorts with `arr.sort((a, b) => key(b) - key(a))`, a
    stable sort into non-increasing key order. This module gives that sort
    as an insertion sort: an element coming earlier in the input is placed
    before later elements with an equal key. */
module Sorting {
  import opened Seqs

  /** Keys never increase from left to right. */
  predicate SortedDesc<T>(s: seq<T>, key: T -> real) {
    forall i, j :: 0 <= i < j < |s| ==> key(s[i]) >= key(s[j])
  }

  /** Inserts `x` into a non-increasing sequence before the first element
      whose key is not larger than its own. */
  function Insert<T>(x: T, s: seq<T>, key: T -> real): (r: seq<T>)
    requires SortedDesc(s, key)
    ensures |r| == |s| + 1
    ensures multiset(r) == multiset(s) + multiset{x}
    ensures SortedDesc(r, key)
    decreases |s|
  {
    if |s| == 0 then [x]
    else if key(x) >= key(s[0]) then
      ConsSorted(x, s, key);
      [x] + s
    else
      var rest := Insert(x, s[1..], key);
      assert s == [s[0]] + s[1..];
      BoundedByHead(x, s, rest, key);
      ConsSorted(s[0], rest, key);
      [s[0]] + rest
  }

  /** Every element of `Insert(x, s[1..])` has a key no larger than `s[0]`'s
      when `x`'s key is smaller than `s[0]`'s. */
  lemma BoundedByHead<T>(x: T, s: seq<T>, rest: seq<T>, key: T -> real)
    requires |s| > 0 && SortedDesc(s, key) && key(x) < key(s[0])
    requires multiset(rest) == multiset(s[1..]) + multiset{x}
    ensures forall y :: y in rest ==> key(s[0]) >= key(y)
  {
    forall y | y in rest ensures key(s[0]) >= key(y) {
      assert y in multiset(rest);
      if y != x {
        assert y in multiset(s[1..]);
        var k :| 0 <= k < |s[1..]| && s[1..][k] == y;
        assert s[k + 1] == y;
      }
    }
  }

  /** A head at least as large as everything after it extends a sorted
      sequence. */
  lemma ConsSorted<T>(h: T, t: seq<T>, key: T -> real)
    requires SortedDesc(t, key)
    requires forall y :: y in t ==> key(h) >= key(y)
    ensures SortedDesc([h] + t, key)
  {
    var r := [h] + t;
    forall i, j | 0 <= i < j < |r| ensures key(r[i]) >= key(r[j]) {
      assert r[j] == t[j - 1];
      if i > 0 {
        assert r[i] == t[i - 1];
      }
    }
  }

  /** The stable descending sort. */
  function SortDesc<T>(s: seq<T>, key: T -> real): (r: seq<T>)
    ensures |r| == |s|
    ensures multiset(r) == multiset(s)
    ensures SortedDesc(r, key)
    decreases |s|
  {
    if |s| == 0 then []
    else
      assert s == [s[0]] + s[1..];
      Insert(s[0], SortDesc(s[1..], key), key)
  }

  /** `SortDesc(s, key).slice(0, n)` holds the `n` largest keys: nothing left
      out has a larger key than anything kept. */
  lemma TopIsLargest<T>(s: seq<T>, key: T -> real, n: nat, i: nat, j: nat)
    requires i < |Take(SortDesc(s, key), n)| <= j < |s|
    ensures key(Take(SortDesc(s, key), n)[i]) >= key(SortDesc(s, key)[j])
  {
  }

  /** Sorting does not change the sum of any measure of the elements. */
  lemma SortKeepsSum<T>(s: seq<T>, key: T -> real, f: T -> real)
    ensures SumOf(SortDesc(s, key), f) == SumOf(s, f)
  {
    SumOfPermutation(SortDesc(s, key), s, f);
  }

  /** Sorting keeps the set of elements, so anything found in the input is
      found in the output and vice versa. */
  lemma SortKeepsElements<T>(s: seq<T>, key: T -> real, x: T)
    ensures x in SortDesc(s, key) <==> x in s
  {
    var r := SortDesc(s, key);
    assert x in r <==> x in multiset(r);
    assert x in s <==> x in multiset(s);
  }

  /** A sequence with distinct elements sorts to one with distinct elements. */
  lemma SortKeepsDistinct<T>(s: seq<T>, key: T -> real)
    requires Distinct(s)
    ensures Distinct(SortDesc(s, key))
  {
    var r := SortDesc(s, key);
    forall i, j | 0 <= i < j < |r| ensures r[i] != r[j] {
      if r[i] == r[j] {
        DistinctMultiplicity(s, r[i]);
        TwiceInMultiset(r, i, j);
      }
    }
  }

  /** Reordering keeps keys distinct: a permutation of a sequence whose
      elements have distinct keys has distinct keys too. */
  lemma PermutationKeepsDistinctKeys<T, K>(s: seq<T>, r: seq<T>, key: T -> K)
    requires multiset(r) == multiset(s)
    requires forall i, j :: 0 <= i < j < |s| ==> key(s[i]) != key(s[j])
    ensures forall i, j :: 0 <= i < j < |r| ==> key(r[i]) != key(r[j])
  {
    forall i, j | 0 <= i < j < |r| ensures key(r[i]) != key(r[j]) {
      assert r[i] in multiset(s) && r[j] in multiset(s);
      var a :| 0 <= a < |s| && s[a] == r[i];
      var b :| 0 <= b < |s| && s[b] == r[j];
      if a == b {
        assert Distinct(s) by {
          forall k, l | 0 <= k < l < |s| ensures s[k] != s[l] {
            assert key(s[k]) != key(s[l]);
          }
        }
        DistinctMultiplicity(s, r[i]);
        TwiceInMultiset(r, i, j);
      } else if a < b {
        assert key(s[a]) != key(s[b]);
      } else {
        assert key(s[b]) != key(s[a]);
      }
    }
  }

  /** A prefix of a sequence with distinct keys has distinct keys. */
  lemma TakeKeepsDistinctKeys<T, K>(s: seq<T>, n: nat, key: T -> K)
    requires forall i, j :: 0 <= i < j < |s| ==> key(s[i]) != key(s[j])
    ensures forall i, j :: 0 <= i < j < |Take(s, n)| ==> key(Take(s, n)[i]) != key(Take(s, n)[j])
  {
    var t := Take(s, n);
    forall i, j | 0 <= i < j < |t| ensures key(t[i]) != key(t[j]) {
      assert t[i] == s[i] && t[j] == s[j];
    }
  }

  /** Two positions holding one value make it occur twice. */
  lemma TwiceInMultiset<T>(r: seq<T>, i: nat, j: nat)
    requires i < j < |r| && r[i] == r[j]
    ensures multiset(r)[r[i]] >= 2
  {
    assert r == r[..j] + [r[j]] + r[j + 1..];
    assert r[..j] == r[..i] + [r[i]] + r[i + 1..j];
    assert multiset(r) == multiset(r[..i]) + multiset{r[i]} + multiset(r[i + 1..j]) + multiset{r[j]} + multiset(r[j + 1..]);
  }

  lemma {:induction false} DistinctMultiplicity<T>(s: seq<T>, x: T)
    requires Distinct(s)
    ensures multiset(s)[x] <= 1
  {
    if |s| > 0 {
      var s' := s[..|s| - 1];
      DistinctMultiplicity(s', x);
      assert s == s' + [s[|s| - 1]];
      if x == s[|s| - 1] {
        assert x !in s';
      }
    }
  }
}

=== FILE: store.dfy ===
/** The mutations of the client store (store/useExpenseStore.ts) as functions
    from one state to the next. Storage writes, id generation and the clock
    are parameters: each operation receives the id `Date.now()` would have
    produced and the moment `new Date()` would have returned. */
module Store {
  import opened Wrappers
  import opened Seqs
  import opened Model
  import opened Ledger
  import opened TagCounter

  datatype State = State(
    expenses: seq<Expense>,
    categories: seq<Category>,
    budgets: seq<Budget>,
    tags: seq<Tag>,
    settings: Settings)

  /** The store as created: no expenses, budgets or tags, the default
      categories and settings. */
  function Initial(loadedAt: int): (s: State)
    ensures s.expenses == [] && s.budgets == [] && s.tags == []
    ensures |s.categories| == 8 && s.settings == DefaultSettings
    ensures s.categories == DefaultCategories(loadedAt)
    ensures forall i :: 0 <= i < 8 ==> s.categories[i].createdAt == loadedAt
  {
    State([], DefaultCategories(loadedAt), [], [], DefaultSettings)
  }

  /** `seq.map(x => hit(x) ? f(x) : x)`. */
  function MapWhere<T>(s: seq<T>, hit: T -> bool, f: T -> T): seq<T> {
    seq(|s|, i requires 0 <= i < |s| => if hit(s[i]) then f(s[i]) else s[i])
  }

  // ---------------------------------------------------------------- expenses

  /** What the caller of `addExpense` supplies. */
  datatype NewExpense = NewExpense(amount: real, category: string, note: Option<string>, tags: seq<string>, date: int)

  /** `addExpense`: append the new expense, then count its tags. */
  function AddExpense(s: State, input: NewExpense, id: string, now: int, freshTagId: nat -> string): (r: State)
    ensures |r.expenses| == |s.expenses| + 1 && r.expenses[..|s.expenses|] == s.expenses
    ensures var e := r.expenses[|s.expenses|];
      && e.id == id && e.amount == input.amount && e.category == input.category
      && e.note == input.note && e.tags == input.tags && e.date == input.date
      && e.createdAt == now && e.updatedAt == now
    ensures forall t :: StoredCount(r.tags, t) == StoredCount(s.tags, t) + Count(input.tags, t)
    ensures forall i :: 0 <= i < |input.tags| ==> UsedAt(r.tags, input.tags[i], now)
    ensures |r.tags| >= |s.tags|
    ensures forall j :: 0 <= j < |s.tags| ==> r.tags[j].name == s.tags[j].name && r.tags[j].id == s.tags[j].id
    ensures forall j :: 0 <= j < |s.tags| && s.tags[j].name !in input.tags ==> r.tags[j] == s.tags[j]
    ensures |r.tags| - |s.tags| <= |input.tags|
    ensures forall j :: |s.tags| <= j < |r.tags| ==>
      NewTag(s.tags, r.tags, input.tags, j) && r.tags[j].count == Count(input.tags, r.tags[j].name)
    ensures r.categories == s.categories && r.budgets == s.budgets && r.settings == s.settings
  {
    var e := Expense(id, input.amount, input.category, input.note, input.tags, input.date, now, now);
    s.(expenses := s.expenses + [e], tags := BumpTags(s.tags, input.tags, now, freshTagId))
  }

  /** Adding an expense keeps the stored tag names distinct. */
  lemma AddExpenseKeepsTagNamesDistinct(s: State, input: NewExpense, id: string, now: int, freshTagId: nat -> string)
    requires DistinctNames(s.tags)
    ensures DistinctNames(AddExpense(s, input, id, now, freshTagId).tags)
  {
    BumpTagsKeepsDistinctNames(s.tags, input.tags, now, freshTagId);
  }

  /** A `Partial<Expense>`: each field present replaces the stored one. The
      note can be set to a value or explicitly cleared. A supplied
      `updatedAt` is always overwritten, so it is not part of the patch. */
  datatype ExpensePatch = ExpensePatch(
    id: Option<string>,
    amount: Option<real>,
    category: Option<string>,
    note: Option<Option<string>>,
    tags: Option<seq<string>>,
    date: Option<int>,
    createdAt: Option<int>)

  /** `{ ...expense, ...patch, updatedAt: now }`. */
  function PatchExpense(e: Expense, p: ExpensePatch, now: int): (r: Expense)
    ensures r.id == p.id.GetOr(e.id) && r.amount == p.amount.GetOr(e.amount)
    ensures r.category == p.category.GetOr(e.category) && r.note == p.note.GetOr(e.note)
    ensures r.tags == p.tags.GetOr(e.tags) && r.date == p.date.GetOr(e.date)
    ensures r.createdAt == p.createdAt.GetOr(e.createdAt) && r.updatedAt == now
  {
    Expense(p.id.GetOr(e.id), p.amount.GetOr(e.amount), p.category.GetOr(e.category),
      p.note.GetOr(e.note), p.tags.GetOr(e.tags), p.date.GetOr(e.date),
      p.createdAt.GetOr(e.createdAt), now)
  }

  const NoExpenseChange := ExpensePatch(None, None, None, None, None, None, None)

  /** `updateExpense`: every expense with the id is patched, in place. */
  function UpdateExpense(s: State, id: string, p: ExpensePatch, now: int): (r: State)
    ensures |r.expenses| == |s.expenses|
    ensures forall i :: 0 <= i < |s.expenses| ==>
      r.expenses[i] == if s.expenses[i].id == id then PatchExpense(s.expenses[i], p, now) else s.expenses[i]
    ensures r.tags == s.tags && r.categories == s.categories && r.budgets == s.budgets && r.settings == s.settings
  {
    s.(expenses := MapWhere(s.expenses, (e: Expense) => e.id == id, (e: Expense) => PatchExpense(e, p, now)))
  }

  /** An empty patch only refreshes `updatedAt`. */
  lemma UpdateWithoutChanges(s: State, id: string, now: int, i: nat)
    requires i < |s.expenses| && s.expenses[i].id == id
    ensures UpdateExpense(s, id, NoExpenseChange, now).expenses[i] == s.expenses[i].(updatedAt := now)
  {
  }

  /** The filter predicate of `deleteExpense`. */
  function ExpenseIdIsNot(id: string): Expense -> bool {
    (e: Expense) => e.id != id
  }

  /** `deleteExpense`: drop every expense with the id, keeping the order of
      the rest. */
  function DeleteExpense(s: State, id: string): (r: State)
    ensures forall e :: e in r.expenses <==> e in s.expenses && e.id != id
    ensures forall e: Expense :: e.id != id ==> multiset(r.expenses)[e] == multiset(s.expenses)[e]
    ensures r.tags == s.tags && r.categories == s.categories && r.budgets == s.budgets && r.settings == s.settings
  {
    var kept := Filter(s.expenses, ExpenseIdIsNot(id));
    FilterMultiset(s.expenses, ExpenseIdIsNot(id));
    FilterMembers(s.expenses, ExpenseIdIsNot(id));
    s.(expenses := kept)
  }

  /** Deleting keeps the order of the rest: deleting from two consecutive
      runs of expenses is deleting from each and concatenating. */
  lemma DeleteExpenseKeepsOrder(s: State, a: seq<Expense>, b: seq<Expense>, id: string)
    ensures DeleteExpense(s.(expenses := a + b), id).expenses
      == DeleteExpense(s.(expenses := a), id).expenses + DeleteExpense(s.(expenses := b), id).expenses
  {
    FilterConcat(a, b, ExpenseIdIsNot(id));
  }

  /** Deleting twice is deleting once. */
  lemma DeleteExpenseIdempotent(s: State, id: string)
    ensures DeleteExpense(DeleteExpense(s, id), id) == DeleteExpense(s, id)
  {
    FilterAllKept(Filter(s.expenses, ExpenseIdIsNot(id)), ExpenseIdIsNot(id));
  }

  /** Deleting an expense just added, under an id no other expense has,
      gives back the earlier expense list. */
  lemma DeleteUndoesAdd(s: State, input: NewExpense, id: string, now: int, freshTagId: nat -> string)
    requires forall e :: e in s.expenses ==> e.id != id
    ensures DeleteExpense(AddExpense(s, input, id, now, freshTagId), id).expenses == s.expenses
  {
    var a := AddExpense(s, input, id, now, freshTagId);
    assert a.expenses[..|a.expenses| - 1] == s.expenses;
    FilterAllKept(s.expenses, ExpenseIdIsNot(id));
  }

  // -------------------------------------------------------------- categories

  datatype NewCategory = NewCategory(name: string, icon: string, color: string)

  /** A `Partial<Category>`. */
  datatype CategoryPatch = CategoryPatch(
    id: Option<string>, name: Option<string>, icon: Option<string>,
    color: Option<string>, createdAt: Option<int>)

  /** `addCategory`. */
  function AddCategory(s: State, input: NewCategory, id: string, now: int): (r: State)
    ensures r.categories == s.categories + [Category(id, input.name, input.icon, input.color, now)]
    ensures r.expenses == s.expenses && r.budgets == s.budgets && r.tags == s.tags && r.settings == s.settings
  {
    s.(categories := s.categories + [Category(id, input.name, input.icon, input.color, now)])
  }

  /** `{ ...category, ...patch }`; categories have no `updatedAt`. */
  function PatchCategory(c: Category, p: CategoryPatch): (r: Category)
    ensures r.id == p.id.GetOr(c.id) && r.name == p.name.GetOr(c.name) && r.icon == p.icon.GetOr(c.icon)
    ensures r.color == p.color.GetOr(c.color) && r.createdAt == p.createdAt.GetOr(c.createdAt)
  {
    Category(p.id.GetOr(c.id), p.name.GetOr(c.name), p.icon.GetOr(c.icon), p.color.GetOr(c.color),
      p.createdAt.GetOr(c.createdAt))
  }

  /** `updateCategory`. */
  function UpdateCategory(s: State, id: string, p: CategoryPatch): (r: State)
    ensures |r.categories| == |s.categories|
    ensures forall i :: 0 <= i < |s.categories| ==>
      r.categories[i] == if s.categories[i].id == id then PatchCategory(s.categories[i], p) else s.categories[i]
    ensures r.expenses == s.expenses && r.budgets == s.budgets && r.tags == s.tags && r.settings == s.settings
  {
    s.(categories := MapWhere(s.categories, (c: Category) => c.id == id, (c: Category) => PatchCategory(c, p)))
  }

  const NoCategoryChange := CategoryPatch(None, None, None, None, None)

  /** An empty patch leaves the categories as they are: categories carry no
      update time. */
  lemma UpdateCategoryWithoutChanges(s: State, id: string)
    ensures UpdateCategory(s, id, NoCategoryChange) == s
  {
    var r := UpdateCategory(s, id, NoCategoryChange);
    assert r.categories == s.categories;
  }

  /** The filter predicate of `deleteCategory`. */
  function CategoryIdIsNot(id: string): Category -> bool {
    (c: Category) => c.id != id
  }

  /** `deleteCategory`: expenses and budgets that refer to it are kept, and
      from then on are shown as Unknown. */
  function DeleteCategory(s: State, id: string): (r: State)
    ensures forall c :: c in r.categories <==> c in s.categories && c.id != id
    ensures forall c: Category :: c.id != id ==> multiset(r.categories)[c] == multiset(s.categories)[c]
    ensures FindCategory(r.categories, id) == None
    ensures r.expenses == s.expenses && r.budgets == s.budgets && r.tags == s.tags && r.settings == s.settings
  {
    var kept := Filter(s.categories, CategoryIdIsNot(id));
    FilterMultiset(s.categories, CategoryIdIsNot(id));
    FilterMembers(s.categories, CategoryIdIsNot(id));
    s.(categories := kept)
  }

  /** Deleting keeps the order of the other categories. */
  lemma DeleteCategoryKeepsOrder(s: State, a: seq<Category>, b: seq<Category>, id: string)
    ensures DeleteCategory(s.(categories := a + b), id).categories
      == DeleteCategory(s.(categories := a), id).categories + DeleteCategory(s.(categories := b), id).categories
  {
    FilterConcat(a, b, CategoryIdIsNot(id));
  }

  /** Deleting a category twice is deleting it once. */
  lemma DeleteCategoryIdempotent(s: State, id: string)
    ensures DeleteCategory(DeleteCategory(s, id), id) == DeleteCategory(s, id)
  {
    FilterAllKept(Filter(s.categories, CategoryIdIsNot(id)), CategoryIdIsNot(id));
  }

  /** Deleting a category just added, under an id no other category has,
      gives back the earlier state. */
  lemma DeleteCategoryUndoesAdd(s: State, input: NewCategory, id: string, now: int)
    requires forall c :: c in s.categories ==> c.id != id
    ensures DeleteCategory(AddCategory(s, input, id, now), id) == s
  {
    var a := AddCategory(s, input, id, now);
    assert a.categories[..|a.categories| - 1] == s.categories;
    FilterAllKept(s.categories, CategoryIdIsNot(id));
  }

  // ----------------------------------------------------------------- budgets

  datatype NewBudget = NewBudget(categoryId: string, amount: real, period: Period)

  /** A `Partial<Budget>`; a supplied `updatedAt` is overwritten. */
  datatype BudgetPatch = BudgetPatch(
    id: Option<string>, categoryId: Option<string>, amount: Option<real>,
    period: Option<Period>, createdAt: Option<int>)

  /** `addBudget`. */
  function AddBudget(s: State, input: NewBudget, id: string, now: int): (r: State)
    ensures r.budgets == s.budgets + [Budget(id, input.categoryId, input.amount, input.period, now, now)]
    ensures r.expenses == s.expenses && r.categories == s.categories && r.tags == s.tags && r.settings == s.settings
  {
    s.(budgets := s.budgets + [Budget(id, input.categoryId, input.amount, input.period, now, now)])
  }

  /** `{ ...budget, ...patch, updatedAt: now }`. */
  function PatchBudget(b: Budget, p: BudgetPatch, now: int): (r: Budget)
    ensures r.id == p.id.GetOr(b.id) && r.categoryId == p.categoryId.GetOr(b.categoryId)
    ensures r.amount == p.amount.GetOr(b.amount) && r.period == p.period.GetOr(b.period)
    ensures r.createdAt == p.createdAt.GetOr(b.createdAt) && r.updatedAt == now
  {
    Budget(p.id.GetOr(b.id), p.categoryId.GetOr(b.categoryId), p.amount.GetOr(b.amount),
      p.period.GetOr(b.period), p.createdAt.GetOr(b.createdAt), now)
  }

  /** `updateBudget`. */
  function UpdateBudget(s: State, id: string, p: BudgetPatch, now: int): (r: State)
    ensures |r.budgets| == |s.budgets|
    ensures forall i :: 0 <= i < |s.budgets| ==>
      r.budgets[i] == if s.budgets[i].id == id then PatchBudget(s.budgets[i], p, now) else s.budgets[i]
    ensures r.expenses == s.expenses && r.categories == s.categories && r.tags == s.tags && r.settings == s.settings
  {
    s.(budgets := MapWhere(s.budgets, (b: Budget) => b.id == id, (b: Budget) => PatchBudget(b, p, now)))
  }

  const NoBudgetChange := BudgetPatch(None, None, None, None, None)

  /** An empty patch only refreshes `updatedAt` of the budgets with the id. */
  lemma UpdateBudgetWithoutChanges(s: State, id: string, now: int)
    ensures var r := UpdateBudget(s, id, NoBudgetChange, now);
      forall i :: 0 <= i < |s.budgets| ==>
        r.budgets[i] == if s.budgets[i].id == id then s.budgets[i].(updatedAt := now) else s.budgets[i]
  {
  }

  /** The filter predicate of `deleteBudget`. */
  function BudgetIdIsNot(id: string): Budget -> bool {
    (b: Budget) => b.id != id
  }

  /** `deleteBudget`. */
  function DeleteBudget(s: State, id: string): (r: State)
    ensures forall b :: b in r.budgets <==> b in s.budgets && b.id != id
    ensures forall b: Budget :: b.id != id ==> multiset(r.budgets)[b] == multiset(s.budgets)[b]
    ensures r.expenses == s.expenses && r.categories == s.categories && r.tags == s.tags && r.settings == s.settings
  {
    var kept := Filter(s.budgets, BudgetIdIsNot(id));
    FilterMultiset(s.budgets, BudgetIdIsNot(id));
    FilterMembers(s.budgets, BudgetIdIsNot(id));
    s.(budgets := kept)
  }

  /** Deleting keeps the order of the other budgets. */
  lemma DeleteBudgetKeepsOrder(s: State, a: seq<Budget>, b: seq<Budget>, id: string)
    ensures DeleteBudget(s.(budgets := a + b), id).budgets
      == DeleteBudget(s.(budgets := a), id).budgets + DeleteBudget(s.(budgets := b), id).budgets
  {
    FilterConcat(a, b, BudgetIdIsNot(id));
  }

  /** Deleting a budget twice is deleting it once. */
  lemma DeleteBudgetIdempotent(s: State, id: string)
    ensures DeleteBudget(DeleteBudget(s, id), id) == DeleteBudget(s, id)
  {
    FilterAllKept(Filter(s.budgets, BudgetIdIsNot(id)), BudgetIdIsNot(id));
  }

  /** Deleting a budget just added, under an id no other budget has, gives
      back the earlier state. */
  lemma DeleteBudgetUndoesAdd(s: State, input: NewBudget, id: string, now: int)
    requires forall b :: b in s.budgets ==> b.id != id
    ensures DeleteBudget(AddBudget(s, input, id, now), id) == s
  {
    var a := AddBudget(s, input, id, now);
    assert a.budgets[..|a.budgets| - 1] == s.budgets;
    FilterAllKept(s.budgets, BudgetIdIsNot(id));
  }

  // ---------------------------------------------------------------- settings

  /** A `Partial<AppSettings>`. */
  datatype SettingsPatch = SettingsPatch(
    theme: Option<Theme>, currency: Option<string>,
    defaultCategories: Option<bool>, notifications: Option<bool>)

  /** `updateSettings`: `{ ...settings, ...patch }`. */
  function UpdateSettings(s: State, p: SettingsPatch): (r: State)
    ensures r.settings.theme == p.theme.GetOr(s.settings.theme)
    ensures r.settings.currency == p.currency.GetOr(s.settings.currency)
    ensures r.settings.defaultCategories == p.defaultCategories.GetOr(s.settings.defaultCategories)
    ensures r.settings.notifications == p.notifications.GetOr(s.settings.notifications)
    ensures r.expenses == s.expenses && r.categories == s.categories && r.budgets == s.budgets && r.tags == s.tags
  {
    var t := s.settings;
    s.(settings := Settings(p.theme.GetOr(t.theme), p.currency.GetOr(t.currency),
      p.defaultCategories.GetOr(t.defaultCategories), p.notifications.GetOr(t.notifications)))
  }

  /** Applying the same settings patch twice changes nothing more. */
  lemma UpdateSettingsIdempotent(s: State, p: SettingsPatch)
    ensures UpdateSettings(UpdateSettings(s, p), p) == UpdateSettings(s, p)
  {
  }

  // ---------------------------------------------------- export, import, clear

  /** The parsed document `importData` reads: each collection may be absent. */
  datatype Document = Document(
    expenses: Option<seq<Expense>>,
    categories: Option<seq<Category>>,
    budgets: Option<seq<Budget>>,
    tags: Option<seq<Tag>>,
    settings: Option<Settings>,
    exportDate: Option<int>)

  /** `exportData`: the whole state plus the moment of export. */
  function ExportData(s: State, now: int): (d: Document)
    ensures d.expenses.Some? && d.categories.Some? && d.budgets.Some? && d.tags.Some? && d.settings.Some?
    ensures d.exportDate == Some(now)
  {
    Document(Some(s.expenses), Some(s.categories), Some(s.budgets), Some(s.tags), Some(s.settings), Some(now))
  }

  const InvalidDataFormat := "Invalid data format"

  /** `importData`: `None` stands for text on which `JSON.parse` throws or
      on which one of the collections' `map` calls throws (a value that is
      not an array, say). Each absent collection falls back to its default; a present one, even
      empty, replaces the stored one. On failure the state is unchanged. */
  function ImportData(s: State, parsed: Option<Document>, loadedAt: int): (r: Result<State>)
    ensures parsed.None? <==> r.Failure?
    ensures r.Failure? ==> r.error == InvalidDataFormat
    ensures r.Success? ==>
      && r.value.expenses == parsed.value.expenses.GetOr([])
      && r.value.categories == parsed.value.categories.GetOr(DefaultCategories(loadedAt))
      && r.value.budgets == parsed.value.budgets.GetOr([])
      && r.value.tags == parsed.value.tags.GetOr([])
      && r.value.settings == parsed.value.settings.GetOr(DefaultSettings)
  {
    match parsed
    case None => Failure(InvalidDataFormat)
    case Some(d) =>
      Success(State(d.expenses.GetOr([]), d.categories.GetOr(DefaultCategories(loadedAt)),
        d.budgets.GetOr([]), d.tags.GetOr([]), d.settings.GetOr(DefaultSettings)))
  }

  /** Importing an export restores the exported state exactly, whatever the
      state it is imported into. */
  lemma ExportImportRoundTrip(s: State, t: State, now: int, loadedAt: int)
    ensures ImportData(t, Some(ExportData(s, now)), loadedAt) == Success(s)
  {
  }

  /** `clearAllData`: back to the state the store starts in. */
  function ClearAllData(s: State, loadedAt: int): (r: State)
    ensures r.expenses == [] && r.budgets == [] && r.tags == []
    ensures r.categories == DefaultCategories(loadedAt) && r.settings == DefaultSettings
  {
    Initial(loadedAt)
  }

  /** Importing a document with nothing in it is the same as clearing. */
  lemma ImportEmptyIsClear(s: State, loadedAt: int)
    ensures ImportData(s, Some(Document(None, None, None, None, None, None)), loadedAt)
      == Success(ClearAllData(s, loadedAt))
  {
  }

  // ------------------------------------------------------- the tag invariant

  /** The stored tag counters agree with the stored expenses. */
  ghost predicate TagsInStep(s: State) {
    CountsMatch(s.tags, s.expenses)
  }

  lemma InitialTagsInStep(loadedAt: int)
    ensures TagsInStep(Initial(loadedAt))
  {
  }

  /** Adding an expense keeps the counters in step. */
  lemma AddKeepsTagsInStep(s: State, input: NewExpense, id: string, now: int, freshTagId: nat -> string)
    requires TagsInStep(s)
    ensures TagsInStep(AddExpense(s, input, id, now, freshTagId))
  {
    var e := Expense(id, input.amount, input.category, input.note, input.tags, input.date, now, now);
    BumpKeepsCountsMatch(s.tags, s.expenses, e, now, freshTagId);
  }

  /** One `addExpense` call with everything it reads from its environment. */
  datatype AddCall = AddCall(input: NewExpense, id: string, now: int, freshTagId: nat -> string)

  /** The state after a history of `addExpense` calls, oldest first. */
  function Replay(s: State, calls: seq<AddCall>): State
    decreases |calls|
  {
    if |calls| == 0 then s
    else
      var c := calls[|calls| - 1];
      AddExpense(Replay(s, calls[..|calls| - 1]), c.input, c.id, c.now, c.freshTagId)
  }

  /** From a fresh store, any history made only of additions leaves every
      tag's stored count equal to its number of occurrences in the expenses. */
  lemma {:induction false} AddOnlyHistoryInStep(loadedAt: int, calls: seq<AddCall>)
    ensures TagsInStep(Replay(Initial(loadedAt), calls))
    decreases |calls|
  {
    if |calls| == 0 {
      InitialTagsInStep(loadedAt);
    } else {
      var c := calls[|calls| - 1];
      AddOnlyHistoryInStep(loadedAt, calls[..|calls| - 1]);
      AddKeepsTagsInStep(Replay(Initial(loadedAt), calls[..|calls| - 1]), c.input, c.id, c.now, c.freshTagId);
    }
  }

  /** Deleting an expense does not decrement the counters: after adding an
      expense tagged "x" and deleting it, "x" is still counted once although
      no expense carries it. */
  lemma DeleteLeavesStaleCount(loadedAt: int, freshTagId: nat -> string)
    ensures var added := AddExpense(Initial(loadedAt), NewExpense(1.0, "1", None, ["x"], 0), "a", 0, freshTagId);
      var deleted := DeleteExpense(added, "a");
      && TagsInStep(added)
      && StoredCount(deleted.tags, "x") == 1
      && TagOccurrences(deleted.expenses, "x") == 0
  {
    var added := AddExpense(Initial(loadedAt), NewExpense(1.0, "1", None, ["x"], 0), "a", 0, freshTagId);
    AddKeepsTagsInStep(Initial(loadedAt), NewExpense(1.0, "1", None, ["x"], 0), "a", 0, freshTagId);
    assert Count(["x"], "x") == 1;
    var deleted := DeleteExpense(added, "a");
    assert deleted.expenses == [];
  }

  /** Re-tagging an expense does not move the counters either. */
  lemma UpdateLeavesStaleCount(loadedAt: int, freshTagId: nat -> string)
    ensures var added := AddExpense(Initial(loadedAt), NewExpense(1.0, "1", None, ["x"], 0), "a", 0, freshTagId);
      var updated := UpdateExpense(added, "a", NoExpenseChange.(tags := Some(["y"])), 1);
      && StoredCount(updated.tags, "x") == 1
      && TagOccurrences(updated.expenses, "x") == 0
  {
    var added := AddExpense(Initial(loadedAt), NewExpense(1.0, "1", None, ["x"], 0), "a", 0, freshTagId);
    assert Count(["x"], "x") == 1;
    var updated := UpdateExpense(added, "a", NoExpenseChange.(tags := Some(["y"])), 1);
    assert |updated.expenses| == 1 && updated.expenses[0].tags == ["y"];
    assert updated.expenses[..0] == [];
    assert Count(["y"], "x") == 0 by {
      assert ["y"][..0] == [];
    }
  }
}

=== FILE: sync.dfy ===
/** The sync endpoint of the server (server/routes/sync.js): POST replaces
    each collection the client sends and merges the settings key by key; GET
    returns what is stored, or an empty record. The authenticated user is
    implicit: each call works on that user's one stored record. */
module Sync {
  import opened Wrappers
  import opened Model

  /** A settings value as stored: the schema's fields are strings (theme,
      currency) and booleans (defaultCategories, notifications). */
  datatype SettingValue = Text(s: string) | Flag(b: bool)

  type SettingsMap = map<string, SettingValue>

  /** The UserData document of one user. */
  datatype UserData = UserData(
    expenses: seq<Expense>,
    categories: seq<Category>,
    budgets: seq<Budget>,
    tags: seq<Tag>,
    settings: SettingsMap,
    lastSync: int)

  /** The request body; a field the client leaves out (or sends as null) is
      None. An array, even an empty one, is truthy and so present. */
  datatype SyncRequest = SyncRequest(
    expenses: Option<seq<Expense>>,
    categories: Option<seq<Category>>,
    budgets: Option<seq<Budget>>,
    tags: Option<seq<Tag>>,
    settings: Option<SettingsMap>)

  /** The `data` object of a successful response. */
  datatype SyncData = SyncData(
    expenses: seq<Expense>,
    categories: seq<Category>,
    budgets: seq<Budget>,
    tags: seq<Tag>,
    settings: SettingsMap,
    lastSync: int)

  /** The document created for a user who has none. */
  function EmptyRecord(now: int): (d: UserData)
    ensures d.expenses == [] && d.categories == [] && d.budgets == [] && d.tags == []
    ensures d.settings == map[]
  {
    UserData([], [], [], [], map[], now)
  }

  /** `value || stored` for a collection. */
  function Pick<T>(sent: Option<seq<T>>, stored: seq<T>): (r: seq<T>)
    ensures sent.Some? ==> r == sent.value
    ensures sent.None? ==> r == stored
  {
    match sent
    case Some(v) => v
    case None => stored
  }

  /** `{ ...stored, ...sent }`: the sent keys win, the other stored keys stay.
      Spreading an absent object adds nothing. */
  function MergeSettings(stored: SettingsMap, sent: Option<SettingsMap>): (r: SettingsMap)
    ensures sent.None? ==> r == stored
    ensures sent.Some? ==> r.Keys == stored.Keys + sent.value.Keys
    ensures sent.Some? ==> forall k :: k in sent.value ==> r[k] == sent.value[k]
    ensures forall k :: k in stored && (sent.None? || k !in sent.value) ==> r[k] == stored[k]
  {
    match sent
    case None => stored
    case Some(m) => map k | k in stored.Keys + m.Keys :: if k in m then m[k] else stored[k]
  }

  /** The record after a POST at time `now`. */
  function Merge(stored: Option<UserData>, req: SyncRequest, now: int): (d: UserData)
    ensures d.lastSync == now
    ensures d.expenses == Pick(req.expenses, if stored.Some? then stored.value.expenses else [])
    ensures d.categories == Pick(req.categories, if stored.Some? then stored.value.categories else [])
    ensures d.budgets == Pick(req.budgets, if stored.Some? then stored.value.budgets else [])
    ensures d.tags == Pick(req.tags, if stored.Some? then stored.value.tags else [])
    ensures d.settings == MergeSettings(if stored.Some? then stored.value.settings else map[], req.settings)
  {
    var base := match stored case Some(u) => u case None => EmptyRecord(now);
    UserData(
      Pick(req.expenses, base.expenses),
      Pick(req.categories, base.categories),
      Pick(req.budgets, base.budgets),
      Pick(req.tags, base.tags),
      MergeSettings(base.settings, req.settings),
      now)
  }

  /** What a response shows of a record. */
  function Echo(d: UserData): (r: SyncData)
    ensures r.expenses == d.expenses && r.categories == d.categories && r.budgets == d.budgets
    ensures r.tags == d.tags && r.settings == d.settings && r.lastSync == d.lastSync
  {
    SyncData(d.expenses, d.categories, d.budgets, d.tags, d.settings, d.lastSync)
  }

  /** POST /: the record to store and the data sent back, which is the stored
      record as it is after the merge. */
  function Post(stored: Option<UserData>, req: SyncRequest, now: int): (r: (UserData, SyncData))
    ensures r.0 == Merge(stored, req, now)
    ensures r.1 == Echo(r.0)
  {
    var d := Merge(stored, req, now);
    (d, Echo(d))
  }

  /** GET /: the stored record, or empty collections and settings stamped
      with the current time. */
  function Get(stored: Option<UserData>, now: int): (r: SyncData)
    ensures stored.None? ==>
      r.expenses == [] && r.categories == [] && r.budgets == []
      && r.tags == [] && r.settings == map[] && r.lastSync == now
    ensures stored.Some? ==> r == Echo(stored.value)
  {
    match stored
    case None => SyncData([], [], [], [], map[], now)
    case Some(d) => Echo(d)
  }

  /** A first sync behaves as if an empty record had been stored. */
  lemma FirstSyncStartsEmpty(req: SyncRequest, now: int, created: int)
    ensures Merge(None, req, now) == Merge(Some(EmptyRecord(created)), req, now)
  {
  }

  /** Sending the same request twice stores the same data as sending it
      once; only the sync time moves. */
  lemma PostIdempotent(stored: Option<UserData>, req: SyncRequest, t1: int, t2: int)
    ensures var once := Merge(stored, req, t1);
      Merge(Some(once), req, t2) == once.(lastSync := t2)
  {
    var once := Merge(stored, req, t1);
    var twice := Merge(Some(once), req, t2);
    assert twice.settings == once.settings;
  }

  /** A request carrying everything is read back as sent by the next GET,
      settings merged over what was stored. */
  lemma PostThenGet(stored: Option<UserData>, es: seq<Expense>, cs: seq<Category>, bs: seq<Budget>, ts: seq<Tag>, settings: SettingsMap, t1: int, t2: int)
    ensures var d := Get(Some(Post(stored, SyncRequest(Some(es), Some(cs), Some(bs), Some(ts), Some(settings)), t1).0), t2);
      d.expenses == es && d.categories == cs && d.budgets == bs && d.tags == ts && d.lastSync == t1
      && forall k :: k in settings ==> k in d.settings && d.settings[k] == settings[k]
  {
  }

  /** An empty request only stamps the sync time. */
  lemma EmptyRequestKeeps(d: UserData, now: int)
    ensures Merge(Some(d), SyncRequest(None, None, None, None, None), now) == d.(lastSync := now)
  {
  }
}

=== FILE: tagcounter.dfy ===
/** The tag bookkeeping `addExpense` performs after appending an expense
    (store/useExpenseStore.ts): each tag name of the new expense either bumps
    the first stored Tag of that name or appends a fresh Tag with count 1. */
module TagCounter {
  import opened Seqs
  import opened Model
  import opened Ledger

  /** `tags.find(t => t.name === name)` as a position, or -1: the FIRST
      Tag with the name. */
  function FindTag(tags: seq<Tag>, name: string): (i: int)
    ensures -1 <= i < |tags|
    ensures i >= 0 ==> tags[i].name == name && forall j :: 0 <= j < i ==> tags[j].name != name
    ensures i < 0 <==> forall j :: 0 <= j < |tags| ==> tags[j].name != name
    decreases |tags|
  {
    if |tags| == 0 then -1
    else if tags[0].name == name then 0
    else
      var k := FindTag(tags[1..], name);
      if k < 0 then -1 else k + 1
  }

  /** The count a lookup by name sees: that of the first Tag with the name,
      or 0 when there is none. */
  function StoredCount(tags: seq<Tag>, name: string): int {
    var i := FindTag(tags, name);
    if i < 0 then 0 else tags[i].count
  }

  /** One iteration of the loop over the new expense's tag names. */
  function BumpTag(tags: seq<Tag>, name: string, now: int, freshId: string): (r: seq<Tag>)
    ensures forall t :: StoredCount(r, t) == StoredCount(tags, t) + (if t == name then 1 else 0)
    ensures UsedAt(r, name, now)
    ensures |r| >= |tags|
    ensures forall j :: 0 <= j < |tags| ==> r[j].name == tags[j].name && r[j].id == tags[j].id
    ensures forall j :: 0 <= j < |tags| && tags[j].name != name ==> r[j] == tags[j]
    ensures forall j :: |tags| <= j < |r| ==> r[j].name == name
    ensures FindTag(tags, name) < 0 ==> r == tags + [Tag(freshId, name, 1, now)]
    ensures FindTag(tags, name) >= 0 ==> |r| == |tags|
  {
    var i := FindTag(tags, name);
    if i < 0 then
      var r := tags + [Tag(freshId, name, 1, now)];
      assert forall t :: t != name ==> FindTag(r, t) == FindTag(tags, t) by {
        forall t | t != name ensures FindTag(r, t) == FindTag(tags, t) {
          FindInPrefix(tags, r, t);
        }
      }
      assert forall j :: 0 <= j < |tags| ==> r[j] == tags[j];
      assert r[|tags|].name == name;
      assert FindTag(r, name) == |tags|;
      r
    else
      var r := tags[i := tags[i].(count := tags[i].count + 1, lastUsed := now)];
      assert forall t :: FindTag(r, t) == FindTag(tags, t) by {
        forall t ensures FindTag(r, t) == FindTag(tags, t) {
          SameNamesSameFind(tags, r, t);
        }
      }
      r
  }

  /** Lookups only depend on the names, position by position. */
  lemma {:induction false} SameNamesSameFind(a: seq<Tag>, b: seq<Tag>, t: string)
    requires |a| == |b| && forall j :: 0 <= j < |a| ==> a[j].name == b[j].name
    ensures FindTag(a, t) == FindTag(b, t)
    decreases |a|
  {
    if |a| > 0 {
      SameNamesSameFind(a[1..], b[1..], t);
    }
  }

  /** Appending a Tag of another name does not change a lookup. */
  lemma {:induction false} FindInPrefix(a: seq<Tag>, b: seq<Tag>, t: string)
    requires |a| < |b| && b[..|a|] == a
    requires forall j :: |a| <= j < |b| ==> b[j].name != t
    ensures FindTag(b, t) == FindTag(a, t)
    decreases |a|
  {
    if |a| > 0 {
      assert b[0] == a[0];
      assert b[1..][..|a| - 1] == a[1..];
      FindInPrefix(a[1..], b[1..], t);
    } else {
      assert forall j :: 0 <= j < |b| ==> b[j].name != t;
    }
  }

  /** `expense.tags.forEach(...)`: the whole loop. The i-th name, if it
      creates a Tag, gets the id `freshId(i)`. */
  function BumpTags(tags: seq<Tag>, names: seq<string>, now: int, freshId: nat -> string): (r: seq<Tag>)
    ensures forall t :: StoredCount(r, t) == StoredCount(tags, t) + Count(names, t)
    ensures forall i :: 0 <= i < |names| ==> UsedAt(r, names[i], now)
    ensures |r| >= |tags|
    ensures forall j :: 0 <= j < |tags| ==> r[j].name == tags[j].name && r[j].id == tags[j].id
    ensures forall j :: 0 <= j < |tags| && tags[j].name !in names ==> r[j] == tags[j]
    ensures |r| - |tags| <= |names|
    ensures forall j :: |tags| <= j < |r| ==> NewTag(tags, r, names, j)
    ensures forall j :: |tags| <= j < |r| ==> r[j].count == Count(names, r[j].name)
    decreases |names|
  {
    if |names| == 0 then tags
    else
      var prev := BumpTags(tags, names[..|names| - 1], now, freshId);
      var r := BumpTag(prev, names[|names| - 1], now, freshId(|names| - 1));
      BumpTagsStep(tags, names, names[..|names| - 1], names[|names| - 1], now, prev, r);
      BumpTagsTail(tags, names, names[..|names| - 1], names[|names| - 1], prev, r);
      NewTagCounts(tags, names, r);
      r
  }

  /** One more name: the Tags appended by the whole loop are those appended
      by the prefix, plus one for the last name when no Tag has it yet. Each
      is the first Tag of its name and names a tag stored nowhere before. */
  lemma BumpTagsTail(tags: seq<Tag>, names: seq<string>, init: seq<string>, last: string, prev: seq<Tag>, r: seq<Tag>)
    requires |names| > 0 && init == names[..|names| - 1] && last == names[|names| - 1]
    requires |tags| <= |prev| && |prev| - |tags| <= |init|
    requires forall j :: 0 <= j < |tags| ==> prev[j].name == tags[j].name
    requires forall j :: |tags| <= j < |prev| ==> NewTag(tags, prev, init, j)
    requires FindTag(prev, last) < 0 ==> |r| == |prev| + 1 && r[|prev|].name == last
    requires FindTag(prev, last) >= 0 ==> |r| == |prev|
    requires forall j :: 0 <= j < |prev| ==> r[j].name == prev[j].name
    ensures |r| - |tags| <= |names|
    ensures forall j :: |tags| <= j < |r| ==> NewTag(tags, r, names, j)
  {
    assert names == init + [last];
    forall j | |tags| <= j < |r| ensures NewTag(tags, r, names, j) {
      if j < |prev| {
        var t := prev[j].name;
        assert NewTag(tags, prev, init, j);
        StableFindAll(prev, r, t);
        assert r[j].name == t;
      } else {
        NewTagFirst(tags, prev, r, last);
      }
    }
  }

  /** A Tag appended for a name the list does not hold is the first of its
      name, and no Tag of the original list had that name. */
  lemma NewTagFirst(tags: seq<Tag>, prev: seq<Tag>, r: seq<Tag>, last: string)
    requires |tags| <= |prev| && |r| == |prev| + 1 && r[|prev|].name == last
    requires FindTag(prev, last) < 0
    requires forall j :: 0 <= j < |tags| ==> prev[j].name == tags[j].name
    requires forall j :: 0 <= j < |prev| ==> r[j].name == prev[j].name
    ensures FindTag(tags, last) < 0 && FindTag(r, last) == |prev|
  {
    forall k | 0 <= k < |tags| ensures tags[k].name != last {
      assert prev[k].name == tags[k].name;
    }
    forall k | 0 <= k < |prev| ensures r[k].name != last {
      assert r[k].name == prev[k].name;
    }
  }

  /** The lookup of a name stored before is unchanged by a step that keeps
      the stored names and appends at most a Tag of a name not stored. */
  lemma StableFindAll(prev: seq<Tag>, r: seq<Tag>, t: string)
    requires |prev| <= |r| <= |prev| + 1
    requires forall j :: 0 <= j < |prev| ==> r[j].name == prev[j].name
    requires |r| > |prev| ==> FindTag(prev, r[|prev|].name) < 0
    requires FindTag(prev, t) >= 0
    ensures FindTag(r, t) == FindTag(prev, t)
  {
    if |r| == |prev| {
      SameNamesSameFind(prev, r, t);
    } else {
      var mid := r[..|prev|];
      SameNamesSameFind(prev, mid, t);
      assert r[|prev|].name != t;
      FindInPrefix(mid, r, t);
    }
  }

  /** An appended Tag is the first of its name, and no Tag of that name was
      stored before, so its count is the number of times the loop saw it. */
  lemma NewTagCounts(tags: seq<Tag>, names: seq<string>, r: seq<Tag>)
    requires forall t :: StoredCount(r, t) == StoredCount(tags, t) + Count(names, t)
    requires forall j :: |tags| <= j < |r| ==> NewTag(tags, r, names, j)
    ensures forall j :: |tags| <= j < |r| ==> r[j].count == Count(names, r[j].name)
  {
    forall j | |tags| <= j < |r| ensures r[j].count == Count(names, r[j].name) {
      assert NewTag(tags, r, names, j);
      assert StoredCount(r, r[j].name) == r[j].count;
    }
  }

  /** The Tag at position `j` of `r` was appended for a name of the list:
      no Tag of `tags` has its name, and it is the first Tag of `r` with it. */
  predicate NewTag(tags: seq<Tag>, r: seq<Tag>, names: seq<string>, j: int) {
    0 <= j < |r| && r[j].name in names && FindTag(tags, r[j].name) < 0 && FindTag(r, r[j].name) == j
  }

  /** No two Tags share a name. */
  predicate DistinctNames(tags: seq<Tag>) {
    forall i, j :: 0 <= i < j < |tags| ==> tags[i].name != tags[j].name
  }

  /** The loop keeps the stored names distinct: a Tag is appended only for a
      name no stored Tag has, and only once. */
  lemma BumpTagsKeepsDistinctNames(tags: seq<Tag>, names: seq<string>, now: int, freshId: nat -> string)
    requires DistinctNames(tags)
    ensures DistinctNames(BumpTags(tags, names, now, freshId))
  {
    var r := BumpTags(tags, names, now, freshId);
    forall i, j | 0 <= i < j < |r| ensures r[i].name != r[j].name {
      if j < |tags| {
        assert tags[i].name != tags[j].name;
      } else if i < |tags| {
        assert NewTag(tags, r, names, j);
        assert r[i].name == tags[i].name;
      } else {
        assert NewTag(tags, r, names, j);
      }
    }
  }

  /** One more name: the contracts of the prefix's result and of the last
      iteration combine into those of the whole loop. */
  lemma BumpTagsStep(tags: seq<Tag>, names: seq<string>, init: seq<string>, last: string, now: int, prev: seq<Tag>, r: seq<Tag>)
    requires |names| > 0 && init == names[..|names| - 1] && last == names[|names| - 1]
    requires forall t :: StoredCount(prev, t) == StoredCount(tags, t) + Count(init, t)
    requires forall i :: 0 <= i < |init| ==> UsedAt(prev, init[i], now)
    requires |prev| >= |tags|
    requires forall j :: 0 <= j < |tags| ==> prev[j].name == tags[j].name && prev[j].id == tags[j].id
    requires forall j :: 0 <= j < |tags| && tags[j].name !in init ==> prev[j] == tags[j]
    requires forall t :: StoredCount(r, t) == StoredCount(prev, t) + (if t == last then 1 else 0)
    requires UsedAt(r, last, now)
    requires |r| >= |prev|
    requires forall j :: 0 <= j < |prev| ==> r[j].name == prev[j].name && r[j].id == prev[j].id
    requires forall j :: 0 <= j < |prev| && prev[j].name != last ==> r[j] == prev[j]
    requires forall j :: |prev| <= j < |r| ==> r[j].name == last
    ensures forall t :: StoredCount(r, t) == StoredCount(tags, t) + Count(names, t)
    ensures forall i :: 0 <= i < |names| ==> UsedAt(r, names[i], now)
    ensures forall j :: 0 <= j < |tags| ==> r[j].name == tags[j].name && r[j].id == tags[j].id
    ensures forall j :: 0 <= j < |tags| && tags[j].name !in names ==> r[j] == tags[j]
  {
    SplitLast(names);
    StepCounts(tags, init, last, prev, r);
    StepLastUsed(init, last, prev, now, r);
    StepFrame(tags, init, last, prev, r);
  }

  /** The lookup of `t` finds a Tag last used at `now`. */
  predicate UsedAt(tags: seq<Tag>, t: string, now: int) {
    var k := FindTag(tags, t);
    k >= 0 && tags[k].lastUsed == now
  }

  /** After the last name's iteration every name of the list resolves to a
      Tag last used now. */
  lemma StepLastUsed(init: seq<string>, last: string, prev: seq<Tag>, now: int, r: seq<Tag>)
    requires forall i :: 0 <= i < |init| ==> UsedAt(prev, init[i], now)
    requires UsedAt(r, last, now)
    requires |r| >= |prev|
    requires forall j :: 0 <= j < |prev| ==> r[j].name == prev[j].name
    requires forall j :: 0 <= j < |prev| && prev[j].name != last ==> r[j] == prev[j]
    requires forall j :: |prev| <= j < |r| ==> r[j].name == last
    ensures forall i :: 0 <= i < |init| + 1 ==> UsedAt(r, (init + [last])[i], now)
  {
    forall i | 0 <= i < |init| + 1
      ensures UsedAt(r, (init + [last])[i], now)
    {
      if i < |init| && init[i] != last {
        StableUsed(prev, r, last, init[i], now);
      }
    }
  }

  /** Bumping `name` keeps any other name's lookup on the same, untouched Tag. */
  lemma StableUsed(prev: seq<Tag>, r: seq<Tag>, name: string, t: string, now: int)
    requires t != name && |r| >= |prev|
    requires UsedAt(prev, t, now)
    requires forall j :: 0 <= j < |prev| ==> r[j].name == prev[j].name
    requires forall j :: 0 <= j < |prev| && prev[j].name != name ==> r[j] == prev[j]
    requires forall j :: |prev| <= j < |r| ==> r[j].name == name
    ensures UsedAt(r, t, now)
  {
    StableFind(prev, r, name, t);
    var k := FindTag(prev, t);
    assert r[k] == prev[k];
  }

  /** Stored Tags none of whose names is in the list are left as they were. */
  lemma StepFrame(tags: seq<Tag>, init: seq<string>, last: string, prev: seq<Tag>, r: seq<Tag>)
    requires |r| >= |prev| >= |tags|
    requires forall j :: 0 <= j < |tags| ==> prev[j].name == tags[j].name
    requires forall j :: 0 <= j < |tags| && tags[j].name !in init ==> prev[j] == tags[j]
    requires forall j :: 0 <= j < |prev| && prev[j].name != last ==> r[j] == prev[j]
    ensures forall j :: 0 <= j < |tags| && tags[j].name !in init + [last] ==> r[j] == tags[j]
  {
  }

  /** The counters of the whole loop are those of the prefix plus one for the
      last name. */
  lemma StepCounts(tags: seq<Tag>, init: seq<string>, last: string, prev: seq<Tag>, r: seq<Tag>)
    requires forall t :: StoredCount(prev, t) == StoredCount(tags, t) + Count(init, t)
    requires forall t :: StoredCount(r, t) == StoredCount(prev, t) + (if t == last then 1 else 0)
    ensures forall t :: StoredCount(r, t) == StoredCount(tags, t) + Count(init + [last], t)
  {
    forall t ensures Count(init + [last], t) == Count(init, t) + (if t == last then 1 else 0) {
      CountConcat(init, [last], t);
    }
  }

  /** Bumping `name` leaves the lookup of any other name where it was. */
  lemma StableFind(prev: seq<Tag>, r: seq<Tag>, name: string, t: string)
    requires t != name && |r| >= |prev|
    requires forall j :: 0 <= j < |prev| ==> r[j].name == prev[j].name
    requires forall j :: |prev| <= j < |r| ==> r[j].name == name
    ensures FindTag(r, t) == FindTag(prev, t)
  {
    if |r| == |prev| {
      SameNamesSameFind(prev, r, t);
    } else {
      var mid := r[..|prev|];
      SameNamesSameFind(prev, mid, t);
      FindInPrefix(mid, r, t);
    }
  }

  /** The stored counters agree with the expenses: every name's count is the
      number of times it occurs in the expenses' tag lists. */
  ghost predicate CountsMatch(tags: seq<Tag>, es: seq<Expense>) {
    forall t :: StoredCount(tags, t) == TagOccurrences(es, t)
  }

  /** Appending an expense and bumping its tags keeps the counters in step. */
  lemma BumpKeepsCountsMatch(tags: seq<Tag>, es: seq<Expense>, e: Expense, now: int, freshId: nat -> string)
    requires CountsMatch(tags, es)
    ensures CountsMatch(BumpTags(tags, e.tags, now, freshId), es + [e])
  {
    var es' := es + [e];
    assert es'[..|es'| - 1] == es;
  }
}

=== FILE: taginput.dfy ===
/** The tag editor of the expense form (components/TagInput.tsx): a typed or
    picked name is trimmed and lower-cased and added once; a tag can be
    removed again. */
module TagInput {
  import opened Seqs
  import opened Model
  import opened Queries

  /** The characters `String.prototype.trim` removes: the ECMAScript
      WhiteSpace and LineTerminator characters. */
  predicate IsSpace(c: char) {
    var n := c as int;
    (0x09 <= n <= 0x0D) || n == 0x20 || n == 0xA0 || n == 0x1680 || (0x2000 <= n <= 0x200A)
    || n == 0x2028 || n == 0x2029 || n == 0x202F || n == 0x205F || n == 0x3000 || n == 0xFEFF
  }

  /** Every character is white space (true of the empty string). */
  predicate Blank(s: string) {
    forall k :: 0 <= k < |s| ==> IsSpace(s[k])
  }

  /** `s` with its leading white space removed. */
  function TrimStart(s: string): (r: string)
    ensures |r| <= |s| && r == s[|s| - |r|..]
    ensures |r| > 0 ==> !IsSpace(r[0])
    ensures Blank(s[..|s| - |r|])
    decreases |s|
  {
    if |s| > 0 && IsSpace(s[0]) then
      var r := TrimStart(s[1..]);
      assert s[..|s| - |r|] == [s[0]] + s[1..][..|s| - 1 - |r|];
      r
    else
      s
  }

  /** `s` with its trailing white space removed. */
  function TrimEnd(s: string): (r: string)
    ensures |r| <= |s| && r == s[..|r|]
    ensures |r| > 0 ==> !IsSpace(r[|r| - 1])
    ensures Blank(s[|r|..])
    decreases |s|
  {
    if |s| > 0 && IsSpace(s[|s| - 1]) then
      var r := TrimEnd(s[..|s| - 1]);
      assert s[|r|..] == s[..|s| - 1][|r|..] + [s[|s| - 1]];
      r
    else
      s
  }

  /** `s.trim()`. */
  function Trim(s: string): (r: string)
    ensures |r| <= |s|
    ensures |r| > 0 ==> !IsSpace(r[0]) && !IsSpace(r[|r| - 1])
    ensures |r| == 0 <==> Blank(s)
  {
    var a := TrimStart(s);
    var r := TrimEnd(a);
    assert |r| > 0 ==> r[0] == a[0];
    assert |r| == 0 ==> Blank(s) by {
      if |r| == 0 {
        assert s == s[..|s| - |a|] + a;
        assert a == a[|r|..];
      }
    }
    r
  }

  /** A string with no white space at either end is its own trim. */
  lemma TrimOfTrimmed(s: string)
    requires |s| > 0 ==> !IsSpace(s[0]) && !IsSpace(s[|s| - 1])
    ensures Trim(s) == s
  {
  }

  /** Trimming twice is trimming once. */
  lemma TrimIdempotent(s: string)
    ensures Trim(Trim(s)) == Trim(s)
  {
    TrimOfTrimmed(Trim(s));
  }

  /** The stored form of a tag name: trimmed, then lower-cased. */
  function Normalize(name: string): (r: string)
    ensures |r| == 0 <==> Blank(name)
  {
    Lower(Trim(name))
  }

  /** Lower-casing leaves white space where it was. */
  lemma LowerKeepsSpaces(s: string)
    ensures forall k :: 0 <= k < |s| ==> (IsSpace(Lower(s)[k]) <==> IsSpace(s[k]))
  {
  }

  /** Normalizing a normalized name changes nothing. */
  lemma NormalizeIdempotent(name: string)
    ensures Normalize(Normalize(name)) == Normalize(name)
  {
    var t := Trim(name);
    var n := Lower(t);
    LowerKeepsSpaces(t);
    assert |n| > 0 ==> !IsSpace(n[0]) && !IsSpace(n[|n| - 1]);
    TrimOfTrimmed(n);
    LowerIdempotent(t);
  }

  /** Lower-casing twice is lower-casing once. */
  lemma LowerIdempotent(s: string)
    ensures Lower(Lower(s)) == Lower(s)
  {
    forall k | 0 <= k < |s| ensures LowerChar(LowerChar(s[k])) == LowerChar(s[k]) {
      LowerCharIdempotent(s[k]);
    }
  }

  lemma LowerCharIdempotent(c: char)
    ensures LowerChar(LowerChar(c)) == LowerChar(c)
  {
  }

  /** A name as the editor stores it. */
  predicate Normalized(t: string) {
    t != "" && Normalize(t) == t
  }

  /** `addTag`: the normalized name is appended unless it is blank or already
      there. */
  function AddTag(tags: seq<string>, name: string): (r: seq<string>)
    ensures Blank(name) || Normalize(name) in tags ==> r == tags
    ensures !Blank(name) && Normalize(name) !in tags ==> r == tags + [Normalize(name)]
  {
    var t := Normalize(name);
    if t != "" && t !in tags then tags + [t] else tags
  }

  /** Adding keeps the list free of duplicates. */
  lemma AddTagKeepsDistinct(tags: seq<string>, name: string)
    requires Distinct(tags)
    ensures Distinct(AddTag(tags, name))
  {
  }

  /** Adding keeps every stored name in normal form: no blank, no white space
      at the ends, no upper-case ASCII letter. */
  lemma AddTagKeepsNormalized(tags: seq<string>, name: string)
    requires forall t :: t in tags ==> Normalized(t)
    ensures forall t :: t in AddTag(tags, name) ==> Normalized(t)
  {
    NormalizeIdempotent(name);
  }

  /** Adding the same name twice is adding it once. */
  lemma AddTagIdempotent(tags: seq<string>, name: string)
    ensures AddTag(AddTag(tags, name), name) == AddTag(tags, name)
  {
  }

  function IsNot(t: string): string -> bool {
    (x: string) => x != t
  }

  /** `removeTag`: every occurrence of the tag goes; the rest keep their
      order. */
  function RemoveTag(tags: seq<string>, t: string): (r: seq<string>)
    ensures t !in r
    ensures forall x :: x in r <==> x in tags && x != t
    ensures multiset(r)[t] == 0 && forall x :: x != t ==> multiset(r)[x] == multiset(tags)[x]
  {
    FilterMembers(tags, IsNot(t));
    FilterMultiset(tags, IsNot(t));
    Filter(tags, IsNot(t))
  }

  /** Removing keeps the order of the rest: removing from two consecutive
      runs of tags is removing from each and concatenating. */
  lemma RemoveTagKeepsOrder(a: seq<string>, b: seq<string>, t: string)
    ensures RemoveTag(a + b, t) == RemoveTag(a, t) + RemoveTag(b, t)
  {
    FilterConcat(a, b, IsNot(t));
  }

  /** Removing a tag that was just added gives the list back. */
  lemma RemoveUndoesAdd(tags: seq<string>, name: string)
    requires !Blank(name) && Normalize(name) !in tags
    ensures RemoveTag(AddTag(tags, name), Normalize(name)) == tags
  {
    var t := Normalize(name);
    FilterConcat(tags, [t], IsNot(t));
    FilterSingle(t, IsNot(t));
    FilterAllKept(tags, IsNot(t));
  }

  /** The editor: the parent's tag list and the text in the input box. */
  datatype TagField = TagField(tags: seq<string>, input: string)

  /** `handleSubmit`: a non-blank input is added and the box cleared; a blank
      one leaves everything as it is. */
  function HandleSubmit(f: TagField): (r: TagField)
    ensures Blank(f.input) ==> r == f
    ensures !Blank(f.input) ==> r.input == "" && r.tags == AddTag(f.tags, f.input)
  {
    if Trim(f.input) != "" then TagField(AddTag(f.tags, f.input), "") else f
  }

  /** At most this many popular tags are offered. */
  const PopularShown: nat := 6

  /** Pressing the k-th offered popular tag: its name goes through `addTag`
      and the box is cleared. */
  function PressPopular(f: TagField, popular: seq<Tag>, k: nat): (r: TagField)
    requires k < |Take(popular, PopularShown)|
    ensures r.input == "" && r.tags == AddTag(f.tags, popular[k].name)
  {
    TagField(AddTag(f.tags, Take(popular, PopularShown)[k].name), "")
  }
}

=== FILE: wrappers.dfy ===
/** Optional values and error-carrying results, as the application's
    `undefined` fields and thrown errors are represented in this model. */
module Wrappers {

  /** A value that may be absent (`undefined` in the application). */
  datatype Option<+T> = None | Some(value: T) {

    /** The carried value, or `default` when absent (the `x || default` idiom
        for values that cannot be falsy). */
    function GetOr(default: T): T {
      match this
      case Some(v) => v
      case None => default
    }
  }

  /** The outcome of an operation that can fail with a message. */
  datatype Result<+T> = Success(value: T) | Failure(error: string)
}
